=== FILE: README.md ===
# Forge-Tee marketplace and moderation core, in Dafny

Forge-Tee is a T-shirt design marketplace. Buyers browse and favourite
published designs. Users apply to become freelancers. Admins moderate those
applications and manage user accounts. This project models the part of the
system that decides what each of those actors sees and what each action
changes:

- the server's admin endpoints (`AdminController`):
  - listing freelancer applications and users from untrusted query strings;
  - the role, admin and active mutators;
  - approving and rejecting an application;
- the server's dashboard endpoints (`DashboardController`):
  - the admin overview counters;
  - the buyer marketplace catalogue (filter, order, page and mark favourites);
  - the favourite toggle;
- the server's freelancer endpoints (`FreelancersController`): apply, and read back one's own application;
- the client's request builders for the admin listings and mutators (`ApiClient`);
- the admin dashboard page (`AdminDashboard`):
  - panel state, controls, pager and requests;
  - the per-user action buttons;
  - the pending-approvals preview;
- the buyer dashboard's marketplace tab (`BuyerDashboard`): sort menu, request parameters, and the reducer with its replace and load-more modes;
- the client's design store (`DesignStore`) and session store (`AuthStore`).

The database is a value (`Store.Db`): sequences of users, applications,
categories and designs, and a set of favourite pairs. Each handler is a pure
function from the store and the request to the new store and a reply.
A `Store.Fault` names which awaited store call of the handler throws, if any.
Email delivery is a boolean parameter that the handlers provably ignore.

JavaScript's semantics are written out where they matter:

- `parseInt` can give `NaN` (`Text.ParseInt`), and `Math.max`/`Math.min` propagate `NaN`;
- `x || d` falls back on every falsy value, `0` and `""` included;
- `trim`, `toUpperCase` and `toLowerCase` cover ASCII only.

Every ordering is a lexicographic comparison of integer keys (`Ordering`).
The database's `orderBy` is modelled by a stable insertion sort.

## Model

| member | source | states |
|---|---|---|
| AdminController.PageParam | server/src/controllers/admin.controller.ts:16 | a page that is a number is at least 1 |
| AdminController.PageSizeParam | server/src/controllers/admin.controller.ts:17 | a page size that is a number lies in [1, 50] |
| AdminController.PageParamClamps | server/src/controllers/admin.controller.ts:16 | an absent or empty page is page 1; a page that parses is that number raised to at least 1 |
| AdminController.PageSizeParamClamps | server/src/controllers/admin.controller.ts:17 | an absent or empty size is 10; a size that parses is clamped into [1, 50] |
| AdminController.PageParamNaN | server/src/controllers/admin.controller.ts:16-17 | for every raw value, the page and the page size are `NaN` exactly when the raw value does not parse, because `Math.max` and `Math.min` pass `NaN` through; every value that starts with neither a digit, a blank nor a sign is such a value |
| AdminController.PageParamFixed | server/src/controllers/admin.controller.ts:16 | the intended page is always at least 1, agrees with the handler whenever the handler's page is a number, and is 1 where the handler's page is `NaN` |
| AdminController.PageSizeParamFixed | server/src/controllers/admin.controller.ts:17 | the intended page size always lies in [1, 50], agrees with the handler whenever the handler's page size is a number, and is 10 where the handler's page size is `NaN` |
| AdminController.SortDirParam | server/src/controllers/admin.controller.ts:19 | the direction is ascending exactly for "asc" in any letter case |
| AdminController.StatusParam | server/src/controllers/admin.controller.ts:14 | the status filter applies exactly when the upper-cased value names a status, and then it is that status |
| AdminController.StatusParamRoundTrip | server/src/controllers/admin.controller.ts:14 | every status name selects its own status |
| AdminController.AppSortParam | server/src/controllers/admin.controller.ts:18 | applications sort by status exactly for "status", otherwise by creation time |
| AdminController.ListApplicationsSpec | server/src/controllers/admin.controller.ts:9-98 | about the handler `AdminController.ListApplications` and its query `AdminController.AppQueryOf`: the listing fails only for a `NaN` paging value or a store fault; `total` counts the rows matching the shared `where`, and the page holds only matching rows in the requested order; the page is exactly the slice that `skip = (page - 1) * pageSize` and `take = pageSize` cut from the ordered matches, so it is full-length while matches remain and empty past the end |
| AdminController.UserSortParam | server/src/controllers/admin.controller.ts:142-150 | only the five allow-listed field names pick their field; anything else sorts by join date |
| AdminController.RoleParam | server/src/controllers/admin.controller.ts:103 | the role filter applies exactly when the upper-cased value names a role |
| AdminController.RoleParamRoundTrip | server/src/controllers/admin.controller.ts:103 | every role name selects its own role |
| AdminController.FlagParam | server/src/controllers/admin.controller.ts:104-105 | a flag is true exactly for "true" and false exactly for "false"; anything else is no filter |
| AdminController.UserQueryOf | server/src/controllers/admin.controller.ts:100-126 | the search is the trimmed `q` when it is not blank; a role filters only when it is BUYER or FREELANCER in any letter case; `admin` and `active` filter only for exactly "true" or "false", `active=true` selecting rows that are not deleted and `active=false` deleted rows; the page is at least 1 and the page size within [1, 50]; the order is ascending only for "asc" in any letter case |
| AdminController.ListUsersSpec | server/src/controllers/admin.controller.ts:100-160 | about the handler `AdminController.ListUsers`: the users page and `total` use one shared `where`; the page holds only matching users, in the requested order; the page is exactly the slice that `skip = (page - 1) * pageSize` and `take = pageSize` cut from the ordered matches, so it is full-length while matches remain and empty past the end |
| AdminController.UpdateUserRole | server/src/controllers/admin.controller.ts:162-174 | any role other than BUYER or FREELANCER is a 400 that changes nothing; a 200 happens exactly when the user exists and the write succeeds, and it writes only that role |
| AdminController.SetUserAdmin | server/src/controllers/admin.controller.ts:176-185 | succeeds exactly for an existing user without a fault; a failure changes nothing |
| AdminController.SetUserActive | server/src/controllers/admin.controller.ts:187-196 | succeeds exactly for an existing user without a fault; a failure changes nothing; the message names the state requested |
| AdminController.MutatorsTouchOneField | server/src/controllers/admin.controller.ts:176-196 | a successful admin or active write changes only that user's one field |
| AdminController.DeactivateThenReactivate | server/src/controllers/admin.controller.ts:187-196 | deactivating and then reactivating leaves the user active, with every other field as before |
| AdminController.Approve | server/src/controllers/admin.controller.ts:198-227 | the reply is either 200 or the 500 failure message, and it is 200 exactly when the application and its owner exist and no store call throws |
| AdminController.ApproveSuccess | server/src/controllers/admin.controller.ts:198-227 | email never changes the outcome; approval answers 200 exactly when the application and its owner exist and no store call throws; a 200 means the application is APPROVED and its user is a FREELANCER |
| AdminController.ApproveNotAtomic | server/src/controllers/admin.controller.ts:198-208 | for every store holding the application, a failing role write answers 500 yet leaves the application APPROVED and every user row, the owner's role included, unchanged; when the application was not APPROVED before, the failed request has changed the store |
| AdminController.ApproveAtomicAllOrNothing | server/src/controllers/admin.controller.ts:198-227 | about the transactional approve `AdminController.ApproveAtomic`: with both writes in one transaction, a failure leaves the store unchanged and a success applies both writes |
| AdminController.ApproveIdempotent | server/src/controllers/admin.controller.ts:198-227 | after a successful approval a second one also answers 200 and ends in the same store as approving once |
| AdminController.Reject | server/src/controllers/admin.controller.ts:229-256 | rejecting never touches a user row; the reply is 200 or the failure message, and it is 200 exactly when the application exists and no store call throws |
| AdminController.RejectSpec | server/src/controllers/admin.controller.ts:229-256 | email never changes the outcome; rejection answers 200 exactly when the application exists and no store call throws; an unknown id changes nothing; a 200 means the application is REJECTED |
| DashboardController.AdminOverview | server/src/controllers/dashboard.controller.ts:23-48 | a fault in any of the three counts gives a 500 with all counters zero; designs and orders are always 0; users counts every user; freelancers plus pending approvals never exceed the applications |
| DashboardController.StatusCountsPartition | server/src/controllers/dashboard.controller.ts:25-31 | the per-status counts of the applications add up to their number |
| DashboardController.OverviewCountsByStatus | server/src/controllers/dashboard.controller.ts:25-31 | one more APPROVED application raises `freelancers` by one, and one more PENDING application raises `pendingApprovals` by one |
| DashboardController.MarketPageParam | server/src/controllers/dashboard.controller.ts:62-70 | the page is at least 1, and it is the requested page whenever that parses to a positive number |
| DashboardController.MarketPageSizeParam | server/src/controllers/dashboard.controller.ts:62-77 | the page size lies in [1, 48] and is the requested one whenever that lies in range |
| DashboardController.MarketPageSizeClamps | server/src/controllers/dashboard.controller.ts:71-77 | a size that fails to parse, or is 0, falls back to 12; a number in range is kept; an absent size is 12 |
| DashboardController.MarketPageClamps | server/src/controllers/dashboard.controller.ts:70 | a non-number, 0 or a negative page is page 1; an absent page is page 1 |
| DashboardController.MarketPageSizeZero | server/src/controllers/dashboard.controller.ts:71-77 | the size "0" gives 12 rows, not 1 |
| DashboardController.MarketSortParam | server/src/controllers/dashboard.controller.ts:85-89 | only the four option names pick an option; anything else, or nothing, is `newest` |
| DashboardController.MarketSortRoundTrip | server/src/controllers/dashboard.controller.ts:85-89 | each option's own name selects it |
| DashboardController.RatingOrder | server/src/controllers/dashboard.controller.ts:112-133 | under `rating`, a design comes first when its average rating is higher, and on equal ratings when it has more ratings |
| DashboardController.CategoryFilter | server/src/controllers/dashboard.controller.ts:79-82 | a category filters exactly when its trimmed value is non-blank and not "all", and it filters on the trimmed value |
| DashboardController.CategoryAllIsNoFilter | server/src/controllers/dashboard.controller.ts:79-102 | every category that trims to "all" or to nothing is the same query as no category at all, and every other category filters by its trimmed slug |
| DashboardController.SunsetSearch | server/src/controllers/dashboard.controller.ts:95-100 | an example of the case-blind search: "sunset" and "SUNSET" both pick "Sunset Horizon" and neither picks "Midnight Run" |
| DashboardController.SearchIgnoresCase | server/src/controllers/dashboard.controller.ts:95-100 | for every term and design, the term, its upper-case and its lower-case form select alike; and a term selects a design exactly when it is published, in the category asked for, and the lower-cased term occurs in its lower-cased title or description |
| DashboardController.Card | server/src/controllers/dashboard.controller.ts:170-185 | a card shows its design, and it is marked favourite exactly when the caller's pair exists, and its favourite count is the number of favourite rows for the design |
| DashboardController.Cards | server/src/controllers/dashboard.controller.ts:170-185 | one card per design of the page, in page order |
| DashboardController.MarketplaceDesigns | server/src/controllers/dashboard.controller.ts:55-210 | 401 exactly without a user id; 500 exactly when one of the three store calls throws |
| DashboardController.MarketplacePage | server/src/controllers/dashboard.controller.ts:135-196 | a success lists at most `pageSize` designs (at most 48); each is published and matches the filters; each has the caller's favourite mark and its favourite count; `totalPages` is at least 1 and covers `total`; the cards are those of the `skip`/`take` slice of the ordered matches, full-length while matches remain and empty past the end |
| DashboardController.MarketplaceOrder | server/src/controllers/dashboard.controller.ts:112-168 | the designs of a success come in the requested order |
| DashboardController.ToggleFavorite | server/src/controllers/dashboard.controller.ts:212-274 | 401 exactly without a user and 400 exactly for an empty design id; 404 exactly when the design lookup succeeds and the design is not a published one; 200 exactly for a published design when no store call throws; 400, 401 and 404 change nothing; only the favourites can change |
| DashboardController.FavoriteCountStep | server/src/controllers/dashboard.controller.ts:244-264 | adding a user's favourite raises the design's count by one, and removing it lowers the count by one |
| DashboardController.ToggleFlips | server/src/controllers/dashboard.controller.ts:235-270 | without a store failure a signed-in toggle succeeds exactly for a published design, and a successful toggle flips exactly the caller's pair and reports the new state and count |
| DashboardController.ToggleTwiceRestores | server/src/controllers/dashboard.controller.ts:212-274 | toggling twice restores the favourites and the count |
| FreelancersController.NotesParam | server/src/controllers/freelancers.controller.ts:15 | an empty note is no note; any other note is kept as given |
| FreelancersController.ResetToPending | server/src/controllers/freelancers.controller.ts:20-23 | only the user's row changes, to PENDING, with new notes only when given |
| FreelancersController.Apply | server/src/controllers/freelancers.controller.ts:9-59 | 401 exactly without a user, and then nothing changes; only applications can change |
| FreelancersController.MyStatusName | server/src/controllers/freelancers.controller.ts:68-71 | the status is one of the four names, and it is NONE exactly without an application |
| FreelancersController.GetMine | server/src/controllers/freelancers.controller.ts:61-75 | 401 exactly without a user; a 200 reports the user's own application, or NONE when there is none |
| FreelancersController.ApplyLeavesOnePending | server/src/controllers/freelancers.controller.ts:17-55 | once the write has happened, no user has two applications, and this user has an application and every one they have is PENDING, whatever its status was before |
| FreelancersController.ResetLeavesOnePending | server/src/controllers/freelancers.controller.ts:18-37 | resetting an existing application keeps one application per user and leaves that user's application PENDING |
| FreelancersController.AppendLeavesOnePending | server/src/controllers/freelancers.controller.ts:39-55 | appending a PENDING application for a user without one keeps one application per user |
| FreelancersController.ApplyUpdatesInPlace | server/src/controllers/freelancers.controller.ts:19-37 | re-applying answers 200 and rewrites the user's row in place without adding a row |
| FreelancersController.ApplyCreates | server/src/controllers/freelancers.controller.ts:39-55 | a first application answers 201 and appends one PENDING row |
| FreelancersController.ApplyThenGetMine | server/src/controllers/freelancers.controller.ts:9-75 | email never changes apply; after applying, the user reads back PENDING |
| ApiClient.Params | client/src/api/axios.ts:111-121 | a parameter is sent exactly when its key is one of the call's keys and it has a value |
| ApiClient.TruthyString | client/src/api/axios.ts:114 | a string is sent exactly when it is present and non-empty, and then unchanged |
| ApiClient.TruthyNumber | client/src/api/axios.ts:115-116 | a number is sent exactly when it is present and non-zero |
| ApiClient.TruthyNumberParses | client/src/api/axios.ts:115-116 | a number that is sent, taken as an exact integer written in decimal, parses back on the server to the same number, negative ones included |
| ApiClient.FlagRoundTrip | client/src/api/axios.ts:202-207 | a boolean flag sent as text is read back as the same flag, and no flag is no filter |
| ApiClient.NamesRoundTrip | client/src/api/axios.ts:105-106 | the direction and sort-field names the client sends select what they name on the server |
| ApiClient.PagingRoundTrip | client/src/api/axios.ts:115-116 | a page of at least 1 and a page size in [1, 50], as exact integers, reach the server unchanged; no page, or 0, is page 1 of 10 rows |
| ApiClient.MapOpt | client/src/api/axios.ts:113 | the mapped option is present exactly when the input is, holding the mapped value |
| ApiClient.AppListParams | client/src/api/axios.ts:99-129 | only the eight known keys are sent, each exactly when its value is truthy |
| ApiClient.AppListRoundTrip | client/src/api/axios.ts:99-129 | the server reads back the status, search, page, size, sort and direction that the client passed |
| ApiClient.UserListParams | client/src/api/axios.ts:182-220 | only the known keys are sent; `admin` and `active` are sent whenever they are booleans, the rest only when truthy |
| ApiClient.UserListRoundTrip | client/src/api/axios.ts:182-220 | the server reads back every user-listing option the client passed |
| ApiClient.UserFlagsSelect | client/src/api/axios.ts:202-207 | with the `admin` or `active` flag set, the server keeps exactly the users with that admin flag or active state |
| ApiClient.RolePayload | client/src/api/axios.ts:222-230 | the client always sends one of the two role names |
| ApiClient.RolePayloadAccepted | client/src/api/axios.ts:222-230 | every role the client can send is accepted, and for an existing user it is written |
| ApiClient.MyStatusWithinClientType | client/src/api/axios.ts:90-96 | every status the server can report is one the client's type allows |
| AdminDashboard.PageSizeValue | client/src/pages/admin/AdminDashboard.tsx:618-620 | the menu offers only 10, 25 and 50 rows |
| AdminDashboard.PrevPage | client/src/pages/admin/AdminDashboard.tsx:734-737 | Previous stays within [1, page] and moves exactly when the page is above 1 |
| AdminDashboard.NextPage | client/src/pages/admin/AdminDashboard.tsx:746-749 | Next never goes back or past the last page, and moves exactly when there is a later page |
| AdminDashboard.PagerSteps | client/src/pages/admin/AdminDashboard.tsx:734-749 | inside the existing pages each enabled button moves by exactly one, and the two buttons undo each other |
| AdminDashboard.NextClicksReach | client/src/pages/admin/AdminDashboard.tsx:746-749 | k clicks of Next reach page `min(totalPages, page + k)` |
| AdminDashboard.LastPageHoldsRows | client/src/pages/admin/AdminDashboard.tsx:337-338 | for every listing, the server's page numbered `totalPages` holds rows exactly when some row matches, and every later page is empty, so the pager never offers an empty last page |
| AdminDashboard.AppStep | client/src/pages/admin/AdminDashboard.tsx:531-749 | every filter, sort or size control returns to page 1; the pager changes nothing but the page; the page stays at least 1 |
| AdminDashboard.ResetAppsUndoes | client/src/pages/admin/AdminDashboard.tsx:621-634 | Reset Filters undoes any other control except the page size, and does nothing to a fresh panel |
| AdminDashboard.AppRequest | client/src/pages/admin/AdminDashboard.tsx:271-293 | the request names the panel's status tab and sends a date only when one is set |
| AdminDashboard.AppPanelReachesServer | client/src/pages/admin/AdminDashboard.tsx:271-293 | the server receives the panel's status, page, page size and sort, and matches an application exactly when the panel's filters do |
| AdminDashboard.UserStep | client/src/pages/admin/AdminDashboard.tsx:772-868 | every filter, sort or size control returns to page 1; the pager changes nothing but the page |
| AdminDashboard.ResetUsersUndoes | client/src/pages/admin/AdminDashboard.tsx:846-855 | Reset Filters undoes any other control except the page size, and does nothing to a fresh panel |
| AdminDashboard.AdminFlag | client/src/pages/admin/AdminDashboard.tsx:211-230 | ALL sends no admin flag; each other choice sends one |
| AdminDashboard.ActiveFlag | client/src/pages/admin/AdminDashboard.tsx:211-230 | ALL sends no active flag; each other choice sends one |
| AdminDashboard.RoleArg | client/src/pages/admin/AdminDashboard.tsx:211-230 | ALL sends no role; each other choice sends one |
| AdminDashboard.UserMatchesPanel | client/src/pages/admin/AdminDashboard.tsx:64-73 | a query carrying the panel's choices matches a user exactly when the panel's labels say it should show |
| AdminDashboard.UserPanelReachesServer | client/src/pages/admin/AdminDashboard.tsx:211-230 | the server lists a user exactly when the panel's labels say it should show |
| AdminDashboard.RoleAction | client/src/pages/admin/AdminDashboard.tsx:951-956 | the role button always offers the other role |
| AdminDashboard.AdminAction | client/src/pages/admin/AdminDashboard.tsx:976 | the admin button always offers the opposite flag |
| AdminDashboard.ActiveButtonLabel | client/src/pages/admin/AdminDashboard.tsx:891-1000 | the button reads "Deactivate" exactly for a user that is not deleted |
| AdminDashboard.RoleActionFlips | client/src/pages/admin/AdminDashboard.tsx:951-956 | confirming the role button writes the other role to the user's row |
| AdminDashboard.AdminActionFlips | client/src/pages/admin/AdminDashboard.tsx:976 | confirming the admin button writes the opposite admin flag |
| AdminDashboard.ActiveActionAsWritten | client/src/pages/admin/AdminDashboard.tsx:995 | the button sends `active` true exactly when it reads "Deactivate" |
| AdminDashboard.ActiveButtonIsNoOp | client/src/pages/admin/AdminDashboard.tsx:988-1000 | as written, confirming the button answers 200 and leaves the store unchanged; "Deactivate" reports "User reactivated." |
| AdminDashboard.ActiveAction | client/src/pages/admin/AdminDashboard.tsx:988-1000 | the corrected button sends `active` true exactly when it reads "Reactivate" |
| AdminDashboard.ActiveActionFlips | client/src/pages/admin/AdminDashboard.tsx:988-1000 | with the corrected argument, the button flips the user's active state and changes nothing else |
| AdminDashboard.PendingPreview | client/src/pages/admin/AdminDashboard.tsx:476-478 | the preview holds min(3, number of PENDING rows) rows, all PENDING and all loaded, never repeated beyond their loaded multiplicity, and they are the first PENDING rows in load order |
| AdminDashboard.PreviewOfNonPending | client/src/pages/admin/AdminDashboard.tsx:476-478 | without PENDING rows the preview is empty |
| AdminDashboard.PreviewTakesFirst | client/src/pages/admin/AdminDashboard.tsx:476-478 | once the first rows loaded hold three PENDING rows, the rows loaded after them never reach the preview |
| AdminDashboard.ListingHasStatus | server/src/controllers/admin.controller.ts:22-39 | every row of a listing filtered on a status has that status |
| AdminDashboard.PreviewFollowsStatusTab | client/src/pages/admin/AdminDashboard.tsx:476-478 | while the panel shows APPROVED or REJECTED, the pending preview is empty |
| BuyerDashboard.FindOptionFindsEntry | client/src/pages/dashboard/Buyer.tsx:102-107 | in a menu without repeated pairs, `find` returns the one entry for each pair |
| BuyerDashboard.SortOptionsUnique | client/src/pages/dashboard/Buyer.tsx:59-70 | no two menu entries share a field and a direction |
| BuyerDashboard.SortLabel | client/src/pages/dashboard/Buyer.tsx:102-107 | the label is the matching entry's caption, or "Newest" without one |
| BuyerDashboard.UnofferedPair | client/src/pages/dashboard/Buyer.tsx:59-70 | the menu has no ascending entry for rating or for favourites |
| BuyerDashboard.SortLabelOfSelection | client/src/pages/dashboard/Buyer.tsx:59-107 | picking an entry shows its caption; rating and favourites ascending show "Newest" |
| BuyerDashboard.Request | client/src/pages/dashboard/Buyer.tsx:131-139 | the search is sent trimmed and only when non-blank; "All" sends no category; the page size is always 12 |
| BuyerDashboard.ClientTrimAgreesWithServer | client/src/pages/dashboard/Buyer.tsx:132 | the server's second trim changes nothing, so client and server agree on the search |
| BuyerDashboard.CategoryButtonsReachServer | client/src/pages/dashboard/Buyer.tsx:47-57 | every category button other than "All" reaches the server as a filter on its own name, and "All" as no filter |
| BuyerDashboard.CategoryNameUnpadded | client/src/pages/dashboard/Buyer.tsx:47-57 | no category name is blank or padded with whitespace |
| BuyerDashboard.InitialMarket | client/src/pages/dashboard/Buyer.tsx:77-99 | the tab starts with no designs, on page 1 of 12 rows, idle and without an error |
| BuyerDashboard.BeginFetch | client/src/pages/dashboard/Buyer.tsx:117-128 | a replace fetch empties the list and shows the loading state; a load-more fetch keeps the list and sets only its own flag; the error is cleared |
| BuyerDashboard.EndFetch | client/src/pages/dashboard/Buyer.tsx:145-171 | the fetch clears only its own loading flag; an error shows exactly when there is no response, and then the list and page stay |
| BuyerDashboard.ReplaceFetch | client/src/pages/dashboard/Buyer.tsx:109-171 | a replace fetch shows exactly the response's designs, or an empty list with the error |
| BuyerDashboard.AppendFetch | client/src/pages/dashboard/Buyer.tsx:109-171 | a load-more fetch keeps every listed design in place and adds the response's designs after them |
| BuyerDashboard.LoadMore | client/src/pages/dashboard/Buyer.tsx:176-184 | load more asks exactly when it is idle and a later page exists, and then for the next page |
| BuyerDashboard.LoadMoreAdvances | client/src/pages/dashboard/Buyer.tsx:176-184 | answered with the page asked for, load more moves forward one page and keeps the listed designs as a prefix |
| BuyerDashboard.EmptyStateAfterReplace | client/src/pages/dashboard/Buyer.tsx:204-211 | after a replace fetch the empty state shows exactly when the server returned no designs |
| BuyerDashboard.SkeletonWhileLoading | client/src/pages/dashboard/Buyer.tsx:204-211 | while a replace fetch is in flight the skeleton shows and the empty state does not |
| DesignStore.AsDraft | client/src/store/useDesignStore.ts:48-51 | a loaded design has every required field, and each optional field exactly when the design sets it |
| DesignStore.UpdateCurrentDesign | client/src/store/useDesignStore.ts:40-43 | the updated fields take the new values, every other field is kept, and the saved list is untouched |
| DesignStore.SaveDesign | client/src/store/useDesignStore.ts:44-47 | saving appends the design to the end of the saved list and leaves the draft alone |
| DesignStore.LoadDesign | client/src/store/useDesignStore.ts:48-51 | loading replaces the draft wholesale by the design's fields |
| DesignStore.ClearCurrentDesign | client/src/store/useDesignStore.ts:52-60 | clearing leaves exactly the four default fields: white, size M, crew neck, no text |
| DesignStore.UpdateLaws | client/src/store/useDesignStore.ts:40-43 | an empty update changes nothing, a repeated update is applied once, and two updates compose with the later values winning |
| DesignStore.ClearForgetsEdits | client/src/store/useDesignStore.ts:33-60 | clearing forgets every edit and loaded design, and gives the initial draft |
| DesignStore.SavedListOnlyGrows | client/src/store/useDesignStore.ts:44-51 | loading a saved design and editing it never changes the saved list |
| AuthStore.Merge | client/src/store/useAuthStore.tsx:30-33 | each field the update names is replaced and every other field is kept |
| AuthStore.Login | client/src/store/useAuthStore.tsx:28 | after login the user is signed in and the flag agrees |
| AuthStore.Logout | client/src/store/useAuthStore.tsx:29 | after logout nobody is signed in and the flag agrees |
| AuthStore.UpdateUser | client/src/store/useAuthStore.tsx:30-33 | an update never touches the flag, never signs anyone in or out, and keeps the flag consistent |
| AuthStore.LoginThenLogout | client/src/store/useAuthStore.tsx:26-29 | logging in then out gives the initial state, and logging out twice is logging out once |
| AuthStore.UpdateUserLaws | client/src/store/useAuthStore.tsx:30-33 | an empty update is the identity, a repeated update is applied once, and an update with nobody signed in does nothing |
| AuthStore.RunKeepsConsistent | client/src/store/useAuthStore.tsx:26-33 | any run of logins, logouts and updates keeps the flag true exactly when there is a user |
| AuthStore.RunEndsWithLogout | client/src/store/useAuthStore.tsx:29 | a run whose last action is a logout ends in the initial state |
| Store.Filter | server/src/controllers/admin.controller.ts:41-65 | `where` keeps exactly the matching rows, and `count` is their number |
| Store.FilterAppend | server/src/controllers/admin.controller.ts:41-65 | `where` keeps the original order: the matches of two runs of rows are the matches of the first followed by those of the second |
| Store.FilterOne | server/src/controllers/admin.controller.ts:41-65 | a single row is kept exactly when it matches |
| Store.FilterSubMultiset | server/src/controllers/admin.controller.ts:41-65 | `where` never invents or repeats rows: its rows, with multiplicity, are among the input's |
| Store.Window | server/src/controllers/admin.controller.ts:90-91 | `skip`/`take` returns at most `take` consecutive rows starting at `skip` |
| Store.ListPage | server/src/controllers/admin.controller.ts:66-94 | a page holds at most `pageSize` matching rows, ordered by the key; `total` counts all matching rows; `total` is the length of the ordered matches and the page is exactly their `skip`/`take` slice, full-length while matches remain and empty past the end |
| Store.TotalPages | client/src/pages/admin/AdminDashboard.tsx:337-338 | the page count is at least 1 and is the least number of pages that covers `total` |
| Ordering.SortBy | server/src/controllers/admin.controller.ts:89 | `orderBy` returns a permutation of its rows, ordered by the key in the requested direction |
| Ordering.SortByKeepsRows | server/src/controllers/admin.controller.ts:89 | ordering neither adds nor drops a row: the same length and the same members |
| Ordering.WindowOfSortedIsSorted | server/src/controllers/admin.controller.ts:89-91 | any run of consecutive rows taken from an ordered listing is itself ordered |
| Store.PageOf | server/src/controllers/admin.controller.ts:90-91 | page `page` holds at most `pageSize` rows, and its i-th row is row `(page - 1) * pageSize + i` of the listing; it is full-length while rows remain and empty past the end |
| Store.PageHoldsRowsIff | server/src/controllers/admin.controller.ts:90-91 | a page holds rows exactly when its offset `(page - 1) * pageSize` lies before the end of the rows |
| Store.PageRowsMatch | server/src/controllers/admin.controller.ts:66-91 | every row of a page is one of the stored rows and satisfies the `where` |
| Prelude.FindFirst | server/src/controllers/admin.controller.ts:210 | a lookup (`findUnique`, or an array's `find`) finds something exactly when some row matches, and what it returns is a stored row that matches |
| Prelude.FindFirstFinds | client/src/pages/dashboard/Buyer.tsx:103-105 | what a lookup returns is the first matching row, so a key that one row alone matches finds that row |
| Store.UpdateUser | server/src/controllers/admin.controller.ts:169 | an `update` by id writes the given field on the rows with that id, keeps every other row, and keeps the row count |
| Store.SetStatusById | server/src/controllers/admin.controller.ts:201-204 | a status `update` by id changes only the status of the rows with that id, and keeps the row count |
| Store.UpdateUserOverwrites | server/src/controllers/admin.controller.ts:191 | a second `isDeleted` write to the same user overrides the first |
| Store.UpdateUserUnchanged | server/src/controllers/admin.controller.ts:191 | writing the `isDeleted` value a user already has leaves the users unchanged |
| Store.UpdateUserRoleTwice | server/src/controllers/admin.controller.ts:205-208 | writing the same role twice is writing it once |
| Store.SetStatusByIdTwice | server/src/controllers/admin.controller.ts:201-204 | writing the same status twice is writing it once |
| Store.StatusWriteKeepsOwner | server/src/controllers/admin.controller.ts:201-206 | after a status write, the application found under an id is the one found before with only its status changed, so `app.userId` names the same user |
| Text.TrimIdempotent | server/src/controllers/dashboard.controller.ts:83-84 | trimming twice is trimming once |
| Text.ContainsIffOccurs | server/src/controllers/admin.controller.ts:30-38 | a case-insensitive `contains` holds exactly when the lower-cased needle occurs in the lower-cased text |
| Text.TrimIsWhitespaceCut | server/src/controllers/admin.controller.ts:15 | `trim` returns a contiguous part of the input that neither starts nor ends with whitespace |
| Text.NonBlank | server/src/controllers/admin.controller.ts:102-110 | the search is applied exactly when the trimmed text is non-empty, and then it is the trimmed text |
| Text.ParseIntNaN | server/src/controllers/admin.controller.ts:16 | `parseInt` of text that starts with neither a digit, a sign nor whitespace is `NaN` |
| Text.ParseIntOfDigits | server/src/controllers/admin.controller.ts:16 | `parseInt` of a run of digits is its decimal value, taken as an exact integer |
| Text.JsMax | server/src/controllers/admin.controller.ts:16 | `Math.max` is `NaN` when either side is, and otherwise the larger side |
| Text.JsMin | server/src/controllers/admin.controller.ts:17 | `Math.min` is `NaN` when either side is, and otherwise the smaller side |
| Text.JsOr | server/src/controllers/dashboard.controller.ts:70 | the logical-or fallback keeps a non-zero number and gives the default for `NaN` or `0` |
| Text.OrString | server/src/controllers/admin.controller.ts:18-19 | the logical-or fallback keeps a non-empty string and gives the default for a missing or empty one |
| Text.ParseShowRoundTrip | server/src/controllers/admin.controller.ts:16-17 | `parseInt` reads back every integer written out in decimal digits, with numbers taken as exact integers |

## Left out

- Email sending, its templates, authentication middleware, routing and the server bootstrap are left out. Each handler takes the signed-in user id (or `None`) as a parameter, and email is a boolean the handlers provably ignore.
- Every page component outside the two dashboard panels, the designer canvas, drawers, modals, toasts and styling is left out.
- Concurrency is left out: `Promise.all` runs its calls in a fixed order in the model; the search debounce timer is reduced to the debounced value the panel keeps; the buyer tab's request counter, which drops stale responses, is not modelled (requests are taken one at a time).
- The ORM is not part of this model. Its behaviour is assumed as follows:
  - a `NaN` skip or take makes the query throw, so the admin listings answer 500;
  - an `undefined` field in `data` leaves the column unchanged, so a reset application keeps its old notes when none are given;
  - updating a missing row throws.
- AdminController.UpdateUserRole: on a missing user the code answers 500, not a not-found reply, because the failed update throws. The model follows the code.
- Dates are taken as already parsed (`AdminController.DateRange`). How `new Date(...)` reads a string is not modelled.
- Ties in any ordering are broken by original row order. The database leaves that order unspecified.
- String order is by character code. Database collation is not modelled.
- Case folding and trimming cover ASCII only.
- A query parameter given twice (an array) is not modelled. Every parameter is a single string or absent.
- Prices and ratings are integers in the model (cents and hundredths). It compares them but does no floating-point arithmetic, and the average rating is never computed.
- Text.ParseShowRoundTrip: numbers are exact, unbounded integers and `String(n)` is always plain decimal. JavaScript numbers are doubles: integers beyond 2^53 - 1 are rounded, and `String(n)` switches to exponent form from 1e21 (`parseInt("1e+21")` is 1). Neither is modelled.
- Text.ParseIntOfDigits: a digit run parses to its exact value; the rounding of runs beyond 2^53 - 1 is not modelled.
- ApiClient.TruthyNumberParses: the read-back holds for exact integers; numbers beyond 2^53 - 1 or from 1e21, where `String(n)` rounds or uses exponent form, are not modelled.
- ApiClient.PagingRoundTrip: paging values beyond 2^53 - 1 or from 1e21 are not modelled, for the same reason.
- ApiClient.AppListRoundTrip: inherits the exact-integer paging of ApiClient.PagingRoundTrip.
- ApiClient.UserListRoundTrip: inherits the exact-integer paging of ApiClient.PagingRoundTrip.
- The buyer tab calls a marketplace client function that the client API module does not define. Its parameters (`sortBy`/`sortDir` fields, display-name categories, a top-level `totalPages`) do not line up with the server's `sort` option, category slug and nested `pagination` object. `BuyerDashboard` therefore models the client's request and reducer on their own terms, and `DashboardController` models the server's reply; the two are not connected.
- AuthStore.UpdateUser and DesignStore.UpdateCurrentDesign: an update that sets a field explicitly to `undefined` is not modelled. A field is either named with a value or absent.
- AuthStore: persisting the session to local storage is left out.
- The admin overview's `designs` and `orders` counters are constant 0 in the code, and the model keeps them so.
- AdminController.SetUserAdmin and AdminController.SetUserActive take the body field as a boolean. The handlers read `req.body` unchecked, but the client always sends a boolean (`client/src/api/axios.ts:232-244`). A missing field or a string such as "false" is not modelled: the code would then deactivate on a missing `active`, reactivate on the string "false", and answer 200 without a write on a missing `isAdmin`.
- AdminController.StatusIndex and AdminController.RoleIndex: sorting by status or by role follows the order in which the database schema declares the enums, assumed to be PENDING, APPROVED, REJECTED and BUYER, FREELANCER. The schema is not part of this model.

## Findings

| source | as written | input that shows it | evidently intended | confidence | as-written member | corrected member |
|---|---|---|---|---|---|---|
| server/src/controllers/admin.controller.ts:16-17 | the page is `Math.max(1, parseInt(...))`, which is `NaN` for a non-numeric page because `Math.max` propagates `NaN` | `?page=abc` (or `?pageSize=abc`) | fall back to page 1 (page size 10), as the dashboard handler does by falling back with logical or | not executed | AdminController.PageParamNaN | AdminController.PageParamFixed, AdminController.PageSizeParamFixed |
| server/src/controllers/admin.controller.ts:201-208 | approval writes the application status and then the user role as two separate updates | the role write throws after the status write succeeded: 500, yet the application is APPROVED and the user is still a BUYER | both writes in one transaction, all or nothing | not executed | AdminController.ApproveNotAtomic | AdminController.ApproveAtomicAllOrNothing |
| client/src/pages/admin/AdminDashboard.tsx:995 | the active button sends `active: !u.isDeleted`, the user's current state, and the server stores `isDeleted = !active` | an active user (`isDeleted = false`): "Deactivate" sends `active = true`; the row is unchanged and the reply is "User reactivated." | send the state the label names: `active: u.isDeleted` | not executed | AdminDashboard.ActiveButtonIsNoOp | AdminDashboard.ActiveActionFlips |

=== FILE: admin_controller.dfy ===
/**
 The admin endpoints of the server: listing freelancer applications and
 users from untrusted query strings, the three single-field user mutators,
 and the approve/reject transitions of an application.
 */
module AdminController {
  import opened Prelude
  import opened Text
  import opened Ordering
  import opened Store

  datatype ListResult<T> = Listed(listing: Listing<T>) | ListFailed(reply: Reply)

  // ---------------------------------------------------------------------------
  // Query normalisation shared by both listings
  // ---------------------------------------------------------------------------

  /** `Math.max(1, parseInt(page || "1", 10))`. */
  function PageParam(raw: Option<string>): (p: JsNum)
    ensures p.Num? ==> p.n >= 1
  {
    JsMax(Num(1), ParseInt(OrString(raw, "1")))
  }

  /** `Math.min(50, Math.max(1, parseInt(pageSize || "10", 10)))`. */
  function PageSizeParam(raw: Option<string>): (p: JsNum)
    ensures p.Num? ==> 1 <= p.n <= 50
  {
    JsMin(Num(50), JsMax(Num(1), ParseInt(OrString(raw, "10"))))
  }

  /** Whenever the raw page parses as a number, the page is that number
      clamped below at 1; a missing or empty page is 1. */
  lemma PageParamClamps(raw: Option<string>)
    ensures raw.None? || raw.value == "" ==> PageParam(raw) == Num(1)
    ensures ParseInt(OrString(raw, "1")).Num? ==>
      var n := ParseInt(OrString(raw, "1")).n;
      PageParam(raw) == Num(if n >= 1 then n else 1)
  {
    if raw.None? || raw.value == "" {
      ParseShowRoundTrip(1);
      assert OrString(raw, "1") == ShowInt(1);
    }
  }

  /** Whenever the raw page size parses as a number it is clamped into
      [1, 50]; a missing or empty page size is 10. */
  lemma PageSizeParamClamps(raw: Option<string>)
    ensures raw.None? || raw.value == "" ==> PageSizeParam(raw) == Num(10)
    ensures ParseInt(OrString(raw, "10")).Num? ==>
      PageSizeParam(raw).Num? && 1 <= PageSizeParam(raw).n <= 50 &&
      (1 <= ParseInt(OrString(raw, "10")).n <= 50 ==> PageSizeParam(raw).n == ParseInt(OrString(raw, "10")).n)
  {
    if raw.None? || raw.value == "" {
      ParseShowRoundTrip(10);
      assert OrString(raw, "10") == ShowInt(10);
    }
  }

  /** A non-numeric page is not clamped to 1: `Math.max(1, NaN)` is `NaN`,
      so the page, and likewise the page size, is `NaN` exactly when the
      raw value does not parse; any value that starts with neither a digit,
      a blank nor a sign (such as "abc") is one. */
  lemma PageParamNaN(raw: Option<string>)
    ensures PageParam(raw) == NaN <==> ParseInt(OrString(raw, "1")).NaN?
    ensures PageSizeParam(raw) == NaN <==> ParseInt(OrString(raw, "10")).NaN?
    ensures raw.Some? && |raw.value| > 0 && !IsDigit(raw.value[0]) && !IsSpace(raw.value[0])
            && raw.value[0] != '-' && raw.value[0] != '+' ==>
      PageParam(raw) == NaN && PageSizeParam(raw) == NaN
  {
    if raw.Some? && |raw.value| > 0 && !IsDigit(raw.value[0]) && !IsSpace(raw.value[0])
       && raw.value[0] != '-' && raw.value[0] != '+' {
      ParseIntNaN(raw.value);
    }
  }

  /** The page the handler evidently intends: `parseInt(...) || 1` as the
      marketplace does, so `NaN` falls back to the default. */
  function PageParamFixed(raw: Option<string>): (p: int)
    ensures p >= 1
    ensures PageParam(raw).Num? ==> p == PageParam(raw).n
    ensures PageParam(raw).NaN? ==> p == 1
  {
    var n := JsOr(ParseInt(OrString(raw, "1")), 1);
    if n >= 1 then n else 1
  }

  /** The page size the handler evidently intends: a value that does not
      parse falls back to the default 10 instead of staying `NaN`; every
      other value is clamped into [1, 50] as the handler does. */
  function PageSizeParamFixed(raw: Option<string>): (p: int)
    ensures 1 <= p <= 50
    ensures PageSizeParam(raw).Num? ==> p == PageSizeParam(raw).n
    ensures PageSizeParam(raw).NaN? ==> p == 10
  {
    match ParseInt(OrString(raw, "10"))
    case NaN => 10
    case Num(n) => if n < 1 then 1 else if n > 50 then 50 else n
  }

  /** `sortDir` is `asc` only for a case-insensitive "asc"; anything else is `desc`. */
  function SortDirParam(raw: Option<string>): (d: Dir)
    ensures d == Asc <==> raw.Some? && Lower(raw.value) == "asc"
  {
    if Lower(OrString(raw, "desc")) == "asc" then Asc else Desc
  }

  /** The user's email, username, first or last name contains `q`, ignoring case. */
  predicate UserMatchesSearch(u: User, q: string) {
    ContainsInsensitive(u.email, q) || ContainsInsensitive(u.username, q)
    || ContainsInsensitive(u.firstName, q) || ContainsInsensitive(u.lastName, q)
  }

  // ---------------------------------------------------------------------------
  // listFreelancerApplications
  // ---------------------------------------------------------------------------

  /** The status filter: applied only when the upper-cased value names a status. */
  function StatusParam(raw: Option<string>): (s: Option<AppStatus>)
    ensures s.Some? <==> raw.Some? && Upper(raw.value) in {"PENDING", "APPROVED", "REJECTED"}
    ensures s.Some? ==> Upper(raw.value) == StatusName(s.value)
  {
    if raw.None? then None
    else
      var u := Upper(raw.value);
      if u == "PENDING" then Some(Pending)
      else if u == "APPROVED" then Some(Approved)
      else if u == "REJECTED" then Some(Rejected)
      else None
  }

  /** Every status name, in any letter case, selects that status. */
  lemma StatusParamRoundTrip(s: AppStatus)
    ensures StatusParam(Some(StatusName(s))) == Some(s)
  {
    var n := StatusName(s);
    assert Upper(n) == n;
  }

  datatype AppSortField = ByCreatedAt | ByStatus

  /** `sortBy === "status"` orders by status; anything else by `createdAt`. */
  function AppSortParam(raw: Option<string>): (f: AppSortField)
    ensures f == ByStatus <==> raw == Some("status")
  {
    if OrString(raw, "createdAt") == "status" then ByStatus else ByCreatedAt
  }

  function StatusIndex(s: AppStatus): int {
    match s
    case Pending => 0
    case Approved => 1
    case Rejected => 2
  }

  function AppSortKey(f: AppSortField): Application -> seq<int> {
    (a: Application) => if f == ByStatus then IntKey(StatusIndex(a.status)) else IntKey(a.createdAt)
  }

  /** An already parsed `createdAt` range; each bound is inclusive. */
  datatype DateRange = DateRange(from: Option<int>, to: Option<int>)

  datatype AppQuery = AppQuery(
    status: Option<AppStatus>,
    q: Option<string>,
    page: JsNum,
    pageSize: JsNum,
    sortBy: AppSortField,
    sortDir: Dir,
    dates: DateRange)

  function AppQueryOf(query: map<string, string>, dates: DateRange): AppQuery {
    AppQuery(
      StatusParam(Lookup(query, "status")),
      NonBlank(Lookup(query, "q")),
      PageParam(Lookup(query, "page")),
      PageSizeParam(Lookup(query, "pageSize")),
      AppSortParam(Lookup(query, "sortBy")),
      SortDirParam(Lookup(query, "sortDir")),
      dates)
  }

  predicate InRange(t: int, r: DateRange) {
    (r.from.None? || r.from.value <= t) && (r.to.None? || t <= r.to.value)
  }

  /** The `where` of both the count and the page query. */
  predicate AppMatches(users: seq<User>, aq: AppQuery, a: Application) {
    && (aq.status.None? || a.status == aq.status.value)
    && (aq.q.None? ||
          var u := FindUser(users, a.userId);
          u.Some? && UserMatchesSearch(u.value, aq.q.value))
    && InRange(a.createdAt, aq.dates)
  }

  function AppFilter(users: seq<User>, aq: AppQuery): Application -> bool {
    a => AppMatches(users, aq, a)
  }

  /** `GET /admin/freelancers/applications`. A `NaN` page or page size
      reaches the store as `skip`/`take`, which the store rejects. */
  function ListApplications(db: Db, query: map<string, string>, dates: DateRange, fault: Fault)
    : ListResult<Application>
  {
    var aq := AppQueryOf(query, dates);
    if aq.page.NaN? || aq.pageSize.NaN? || ThrowsWithin(fault, 2) then
      ListFailed(Reply(500, "Failed to fetch applications."))
    else
      Listed(ListPage(db.applications, AppFilter(db.users, aq), AppSortKey(aq.sortBy), aq.sortDir,
                      aq.page.n, aq.pageSize.n))
  }

  /** The listing fails only for a `NaN` page or page size or a store
      failure; otherwise it is the requested page, of at most 50 rows, of
      the applications that match the status, search and date filters, in
      the requested order, and `total` counts those same applications. The
      page is exactly the slice that `skip = (page - 1) * pageSize` and
      `take = pageSize` cut from the ordered matches: full-length while
      matches remain, empty past the end. */
  lemma ListApplicationsSpec(db: Db, query: map<string, string>, dates: DateRange, fault: Fault)
    ensures var aq := AppQueryOf(query, dates);
      ListApplications(db, query, dates, fault).ListFailed? <==>
        aq.page.NaN? || aq.pageSize.NaN? || ThrowsWithin(fault, 2)
    ensures var r := ListApplications(db, query, dates, fault);
      var aq := AppQueryOf(query, dates);
      r.Listed? ==>
        && r.listing.page >= 1 && 1 <= r.listing.pageSize <= 50
        && r.listing.total == |Filter(db.applications, AppFilter(db.users, aq))|
        && |r.listing.items| <= r.listing.pageSize && |r.listing.items| <= r.listing.total
        && (forall i :: 0 <= i < |r.listing.items| ==>
              r.listing.items[i] in db.applications && AppMatches(db.users, aq, r.listing.items[i]))
        && SortedBy(r.listing.items, AppSortKey(aq.sortBy), aq.sortDir)
        && var ordered := SortBy(Filter(db.applications, AppFilter(db.users, aq)), AppSortKey(aq.sortBy), aq.sortDir);
           |ordered| == r.listing.total && IsPage(r.listing.items, ordered, r.listing.page, r.listing.pageSize)
  {
  }

  // ---------------------------------------------------------------------------
  // listUsers
  // ---------------------------------------------------------------------------

  datatype UserSortField = ByDateJoined | ByFirstName | ByLastName | ByRole | ByIsAdmin | ByIsDeleted

  /** The allow-listed sort fields; anything else sorts by `dateJoined`. */
  function UserSortParam(raw: Option<string>): (f: UserSortField)
    ensures raw.None? || raw.value !in {"firstName", "lastName", "role", "isAdmin", "isDeleted"}
      ==> f == ByDateJoined
  {
    match OrString(raw, "dateJoined")
    case "firstName" => ByFirstName
    case "lastName" => ByLastName
    case "role" => ByRole
    case "isAdmin" => ByIsAdmin
    case "isDeleted" => ByIsDeleted
    case _ => ByDateJoined
  }

  function RoleIndex(r: Role): int {
    match r
    case Buyer => 0
    case Freelancer => 1
  }

  function UserSortKey(f: UserSortField): User -> seq<int> {
    (u: User) =>
      match f
      case ByFirstName => StringKey(u.firstName)
      case ByLastName => StringKey(u.lastName)
      case ByRole => IntKey(RoleIndex(u.role))
      case ByIsAdmin => BoolKey(u.isAdmin)
      case ByIsDeleted => BoolKey(u.isDeleted)
      case ByDateJoined => IntKey(u.dateJoined)
  }

  /** The role filter: applied only when the upper-cased value names a role. */
  function RoleParam(raw: Option<string>): (r: Option<Role>)
    ensures r.Some? <==> raw.Some? && Upper(raw.value) in {"BUYER", "FREELANCER"}
    ensures r.Some? ==> Upper(raw.value) == RoleName(r.value)
  {
    if raw.None? then None
    else if Upper(raw.value) == "BUYER" then Some(Buyer)
    else if Upper(raw.value) == "FREELANCER" then Some(Freelancer)
    else None
  }

  /** Every role name, in any letter case, selects that role. */
  lemma RoleParamRoundTrip(r: Role)
    ensures RoleParam(Some(RoleName(r))) == Some(r)
  {
    var n := RoleName(r);
    assert Upper(n) == n;
  }

  /** A tri-state flag: exactly "true" or "false", anything else is no filter. */
  function FlagParam(raw: Option<string>): (b: Option<bool>)
    ensures b == Some(true) <==> raw == Some("true")
    ensures b == Some(false) <==> raw == Some("false")
  {
    if raw == Some("true") then Some(true)
    else if raw == Some("false") then Some(false)
    else None
  }

  datatype UserQuery = UserQuery(
    q: Option<string>,
    role: Option<Role>,
    isAdmin: Option<bool>,
    isDeleted: Option<bool>,
    page: JsNum,
    pageSize: JsNum,
    sortBy: UserSortField,
    sortDir: Dir)

  function Negate(b: Option<bool>): Option<bool> {
    if b.Some? then Some(!b.value) else None
  }

  /** The filters of `GET /admin/users`: a trimmed non-blank search, a role
      named in any letter case, and `admin`/`active` flags that filter only
      for exactly "true" or "false"; `active` "true" selects `isDeleted =
      false` and "false" selects `isDeleted = true`. */
  function UserQueryOf(query: map<string, string>): (uq: UserQuery)
    ensures Lookup(query, "active") == Some("true") <==> uq.isDeleted == Some(false)
    ensures Lookup(query, "active") == Some("false") <==> uq.isDeleted == Some(true)
    ensures Lookup(query, "admin") == Some("true") <==> uq.isAdmin == Some(true)
    ensures Lookup(query, "admin") == Some("false") <==> uq.isAdmin == Some(false)
    ensures uq.role.Some? <==> "role" in query && Upper(query["role"]) in {"BUYER", "FREELANCER"}
    ensures uq.role.Some? ==> Upper(query["role"]) == RoleName(uq.role.value)
    ensures uq.q.None? <==> "q" !in query || Trim(query["q"]) == ""
    ensures uq.q.Some? ==> uq.q.value == Trim(query["q"])
    ensures uq.page.Num? ==> uq.page.n >= 1
    ensures uq.pageSize.Num? ==> 1 <= uq.pageSize.n <= 50
    ensures uq.sortDir == Asc <==> "sortDir" in query && Lower(query["sortDir"]) == "asc"
  {
    UserQuery(
      NonBlank(Lookup(query, "q")),
      RoleParam(Lookup(query, "role")),
      FlagParam(Lookup(query, "admin")),
      Negate(FlagParam(Lookup(query, "active"))),
      PageParam(Lookup(query, "page")),
      PageSizeParam(Lookup(query, "pageSize")),
      UserSortParam(Lookup(query, "sortBy")),
      SortDirParam(Lookup(query, "sortDir")))
  }

  /** The shared `where` of the user count and the user page. */
  predicate UserMatches(uq: UserQuery, u: User) {
    && (uq.q.None? || UserMatchesSearch(u, uq.q.value))
    && (uq.role.None? || u.role == uq.role.value)
    && (uq.isAdmin.None? || u.isAdmin == uq.isAdmin.value)
    && (uq.isDeleted.None? || u.isDeleted == uq.isDeleted.value)
  }

  function UserFilter(uq: UserQuery): User -> bool {
    u => UserMatches(uq, u)
  }

  /** `GET /admin/users`. */
  function ListUsers(db: Db, query: map<string, string>, fault: Fault): ListResult<User> {
    var uq := UserQueryOf(query);
    if uq.page.NaN? || uq.pageSize.NaN? || ThrowsWithin(fault, 2) then
      ListFailed(Reply(500, "Failed to fetch users."))
    else
      Listed(ListPage(db.users, UserFilter(uq), UserSortKey(uq.sortBy), uq.sortDir, uq.page.n, uq.pageSize.n))
  }

  /** As for applications: the page and `total` use the one shared `where`
      (search, role, admin and active filters), the page is ordered, and it
      is exactly the `skip`/`take` slice of the ordered matches. */
  lemma ListUsersSpec(db: Db, query: map<string, string>, fault: Fault)
    ensures var uq := UserQueryOf(query);
      ListUsers(db, query, fault).ListFailed? <==>
        uq.page.NaN? || uq.pageSize.NaN? || ThrowsWithin(fault, 2)
    ensures var r := ListUsers(db, query, fault);
      var uq := UserQueryOf(query);
      r.Listed? ==>
        && r.listing.page >= 1 && 1 <= r.listing.pageSize <= 50
        && r.listing.total == |Filter(db.users, UserFilter(uq))|
        && |r.listing.items| <= r.listing.pageSize && |r.listing.items| <= r.listing.total
        && (forall i :: 0 <= i < |r.listing.items| ==>
              r.listing.items[i] in db.users && UserMatches(uq, r.listing.items[i]))
        && SortedBy(r.listing.items, UserSortKey(uq.sortBy), uq.sortDir)
        && var ordered := SortBy(Filter(db.users, UserFilter(uq)), UserSortKey(uq.sortBy), uq.sortDir);
           |ordered| == r.listing.total && IsPage(r.listing.items, ordered, r.listing.page, r.listing.pageSize)
  {
  }

  // ---------------------------------------------------------------------------
  // Single-field user mutators
  // ---------------------------------------------------------------------------

  predicate HasUser(db: Db, id: Id) {
    FindUser(db.users, id).Some?
  }

  /** `PATCH /admin/users/:userId/role`: only BUYER or FREELANCER, spelt
      exactly, is written; anything else is a 400 with no write. */
  function UpdateUserRole(db: Db, userId: Id, role: Option<string>, fault: Fault): (o: Outcome)
    ensures role != Some("BUYER") && role != Some("FREELANCER") ==> o == Outcome(db, Reply(400, "Invalid role."))
    ensures o.reply.code != 200 ==> o.db == db
    ensures o.reply.code == 200 <==>
      role in {Some("BUYER"), Some("FREELANCER")} && HasUser(db, userId) && !ThrowsWithin(fault, 1)
    ensures o.reply.code == 200 ==>
      var r := if role == Some("BUYER") then Buyer else Freelancer;
      o.db == db.(users := UpdateUser(db.users, userId, SetRole(r)))
  {
    if role != Some("BUYER") && role != Some("FREELANCER") then Outcome(db, Reply(400, "Invalid role."))
    else if !HasUser(db, userId) || ThrowsWithin(fault, 1) then
      Outcome(db, Reply(500, "Failed to update user role."))
    else
      var r := if role == Some("BUYER") then Buyer else Freelancer;
      Outcome(db.(users := UpdateUser(db.users, userId, SetRole(r))), Reply(200, "User role updated."))
  }

  /** `PATCH /admin/users/:userId/admin`: writes `isAdmin` and nothing else. */
  function SetUserAdmin(db: Db, userId: Id, isAdmin: bool, fault: Fault): (o: Outcome)
    ensures o.reply.code == 200 <==> HasUser(db, userId) && !ThrowsWithin(fault, 1)
    ensures o.reply.code != 200 ==> o.db == db
  {
    if !HasUser(db, userId) || ThrowsWithin(fault, 1) then
      Outcome(db, Reply(500, "Failed to update admin flag."))
    else
      Outcome(db.(users := UpdateUser(db.users, userId, SetIsAdmin(isAdmin))), Reply(200, "Admin flag updated."))
  }

  /** `PATCH /admin/users/:userId/active`: writes `isDeleted := !active` and nothing else. */
  function SetUserActive(db: Db, userId: Id, active: bool, fault: Fault): (o: Outcome)
    ensures o.reply.code == 200 <==> HasUser(db, userId) && !ThrowsWithin(fault, 1)
    ensures o.reply.code != 200 ==> o.db == db
    ensures o.reply.code == 200 ==> o.reply.message == (if active then "User reactivated." else "User deactivated.")
  {
    if !HasUser(db, userId) || ThrowsWithin(fault, 1) then
      Outcome(db, Reply(500, "Failed to update user status."))
    else
      Outcome(db.(users := UpdateUser(db.users, userId, SetIsDeleted(!active))),
              Reply(200, if active then "User reactivated." else "User deactivated."))
  }

  /** A successful single-field write changes only the targeted user's one
      field: every other row and every other field is kept. */
  lemma MutatorsTouchOneField(db: Db, userId: Id, b: bool)
    requires HasUser(db, userId)
    ensures var d := SetUserAdmin(db, userId, b, NoFault).db;
      d.(users := db.users) == db && |d.users| == |db.users| &&
      forall i :: 0 <= i < |db.users| ==>
        d.users[i] == (if db.users[i].id == userId then db.users[i].(isAdmin := b) else db.users[i])
    ensures var d := SetUserActive(db, userId, b, NoFault).db;
      d.(users := db.users) == db && |d.users| == |db.users| &&
      forall i :: 0 <= i < |db.users| ==>
        d.users[i] == (if db.users[i].id == userId then db.users[i].(isDeleted := !b) else db.users[i])
  {
  }

  /** Deactivating then reactivating leaves the user active with every
      other field as it was; for a user who was active, the store is back
      where it started. */
  lemma DeactivateThenReactivate(db: Db, userId: Id)
    requires HasUser(db, userId)
    ensures var d1 := SetUserActive(db, userId, false, NoFault).db;
      var d2 := SetUserActive(d1, userId, true, NoFault).db;
      d2 == db.(users := UpdateUser(db.users, userId, SetIsDeleted(false)))
    ensures var d1 := SetUserActive(db, userId, false, NoFault).db;
      (forall i :: 0 <= i < |db.users| && db.users[i].id == userId ==> !db.users[i].isDeleted) ==>
      SetUserActive(d1, userId, true, NoFault).db == db
  {
    var d1 := SetUserActive(db, userId, false, NoFault).db;
    var i :| 0 <= i < |db.users| && db.users[i].id == userId;
    assert d1.users[i].id == userId;
    assert HasUser(d1, userId);
    UpdateUserOverwrites(db.users, userId, true, false);
    if forall i :: 0 <= i < |db.users| && db.users[i].id == userId ==> !db.users[i].isDeleted {
      UpdateUserUnchanged(db.users, userId, false);
    }
  }

  // ---------------------------------------------------------------------------
  // Approve and reject
  // ---------------------------------------------------------------------------

  /** `POST /admin/freelancers/:id/approve` as written: the status write
      (store call 0), then, separately, the role write (call 1), then the
      lookup for the e-mail (call 2). A failure of the second write leaves
      the first one in place. E-mail errors are swallowed, so `emailFails`
      does not enter into the result. */
  function Approve(db: Db, appId: Id, fault: Fault, emailFails: bool): (o: Outcome)
    ensures o.reply.code == 200 || o.reply == Reply(500, "Failed to approve application.")
    ensures var app := FindApplication(db.applications, appId);
      o.reply.code == 200 <==> app.Some? && HasUser(db, app.value.userId) && !ThrowsWithin(fault, 3)
  {
    var app := FindApplication(db.applications, appId);
    if app.None? || ThrowsWithin(fault, 1) then
      Outcome(db, Reply(500, "Failed to approve application."))
    else
      var db1 := db.(applications := SetStatusById(db.applications, appId, Approved));
      if !HasUser(db1, app.value.userId) || ThrowsWithin(fault, 2) then
        Outcome(db1, Reply(500, "Failed to approve application."))
      else
        var db2 := db1.(users := UpdateUser(db1.users, app.value.userId, SetRole(Freelancer)));
        if ThrowsWithin(fault, 3) then Outcome(db2, Reply(500, "Failed to approve application."))
        else Outcome(db2, Reply(200, "Application approved."))
  }

  /** Approve's two writes, as both applied. */
  function ApprovedState(db: Db, app: Application): Db {
    db.(applications := SetStatusById(db.applications, app.id, Approved),
        users := UpdateUser(db.users, app.userId, SetRole(Freelancer)))
  }

  /** Approval answers 200 exactly when the application and its owner exist
      and no store call throws; a 200 means the application is APPROVED,
      from whatever status it had, and its owner is a FREELANCER; nothing
      else changed. E-mail failure never changes the outcome. */
  lemma ApproveSuccess(db: Db, appId: Id, fault: Fault, emailFails: bool)
    ensures Approve(db, appId, fault, emailFails) == Approve(db, appId, fault, !emailFails)
    ensures var app := FindApplication(db.applications, appId);
      Approve(db, appId, fault, emailFails).reply.code == 200 <==>
        app.Some? && HasUser(db, app.value.userId) && !ThrowsWithin(fault, 3)
    ensures var o := Approve(db, appId, fault, emailFails);
      o.reply.code == 200 ==>
        var app := FindApplication(db.applications, appId);
        app.Some? && o.db == ApprovedState(db, app.value)
        && (forall i :: 0 <= i < |o.db.applications| && o.db.applications[i].id == appId ==>
              o.db.applications[i].status == Approved)
        && (forall i :: 0 <= i < |o.db.users| && o.db.users[i].id == app.value.userId ==>
              o.db.users[i].role == Freelancer)
  {
  }

  /** The two writes are not atomic: for every store and every application
      it holds, when the role write fails the caller gets a 500, yet the
      application is left APPROVED while no user row, its owner's role
      included, has changed; an application that was not APPROVED before
      leaves the store changed by a request that failed. */
  lemma ApproveNotAtomic(db: Db, appId: Id, emailFails: bool)
    ensures var app := FindApplication(db.applications, appId);
      var o := Approve(db, appId, FailAt(1), emailFails);
      app.Some? ==>
        && o.reply == Reply(500, "Failed to approve application.")
        && o.db.users == db.users
        && (forall i :: 0 <= i < |o.db.applications| && o.db.applications[i].id == appId ==>
              o.db.applications[i].status == Approved)
        && (app.value.status != Approved ==> o.db != db)
  {
    var app := FindApplication(db.applications, appId);
    if app.Some? && app.value.status != Approved {
      var o := Approve(db, appId, FailAt(1), emailFails);
      var i :| 0 <= i < |db.applications| && db.applications[i] == app.value;
      assert o.db.applications[i].status == Approved;
    }
  }

  /** Approve with both writes in one transaction, so a failure of either
      leaves the store untouched. */
  function ApproveAtomic(db: Db, appId: Id, fault: Fault, emailFails: bool): (o: Outcome)
  {
    var app := FindApplication(db.applications, appId);
    if app.None? || !HasUser(db, app.value.userId) || ThrowsWithin(fault, 2) then
      Outcome(db, Reply(500, "Failed to approve application."))
    else
      Outcome(ApprovedState(db, app.value), Reply(200, "Application approved."))
  }

  /** With the transaction, the caller never observes one write without the
      other: either both writes happened and the reply is 200, or the store
      is unchanged and the reply is 500. */
  lemma ApproveAtomicAllOrNothing(db: Db, appId: Id, fault: Fault, emailFails: bool)
    ensures var o := ApproveAtomic(db, appId, fault, emailFails);
      (o.reply.code == 200 && FindApplication(db.applications, appId).Some?
         && o.db == ApprovedState(db, FindApplication(db.applications, appId).value))
      || (o.reply.code == 500 && o.db == db)
    ensures var o := ApproveAtomic(db, appId, fault, emailFails);
      o.reply.code == 200 ==> o.db == Approve(db, appId, fault, emailFails).db
  {
  }

  /** Approving twice ends in the same store as approving once, and the
      second approval succeeds as well. */
  lemma ApproveIdempotent(db: Db, appId: Id)
    ensures var o1 := Approve(db, appId, NoFault, false);
      o1.reply.code == 200 ==> Approve(o1.db, appId, NoFault, false).db == o1.db
    ensures var o1 := Approve(db, appId, NoFault, false);
      o1.reply.code == 200 ==> Approve(o1.db, appId, NoFault, false).reply.code == 200
  {
    var o1 := Approve(db, appId, NoFault, false);
    if o1.reply.code == 200 {
      ApproveSuccess(db, appId, NoFault, false);
      var app := FindApplication(db.applications, appId).value;
      assert FindApplication(o1.db.applications, appId).value.userId == app.userId by {
        StatusWriteKeepsOwner(db.applications, appId, Approved);
      }
      SetStatusByIdTwice(db.applications, appId, Approved);
      UpdateUserRoleTwice(db.users, app.userId, Freelancer);
      ApproveSuccess(o1.db, appId, NoFault, false);
    }
  }

  /** `POST /admin/freelancers/:id/reject`: the status write (call 0), then
      the lookups for the e-mail (calls 1 and 2); best-effort e-mail. */
  function Reject(db: Db, appId: Id, fault: Fault, emailFails: bool): (o: Outcome)
    ensures o.db.users == db.users
    ensures o.reply.code == 200 <==> FindApplication(db.applications, appId).Some? && !ThrowsWithin(fault, 3)
    ensures o.reply.code == 200 || o.reply == Reply(500, "Failed to reject application.")
  {
    if FindApplication(db.applications, appId).None? || ThrowsWithin(fault, 1) then
      Outcome(db, Reply(500, "Failed to reject application."))
    else
      var db1 := db.(applications := SetStatusById(db.applications, appId, Rejected));
      if ThrowsWithin(fault, 3) then Outcome(db1, Reply(500, "Failed to reject application."))
      else Outcome(db1, Reply(200, "Application rejected."))
  }

  /** Rejection answers 200 exactly when the application exists and no
      store call throws; a 200 means the application is REJECTED and no
      user row changed; a missing application is a 500 with no write;
      e-mail never matters. */
  lemma RejectSpec(db: Db, appId: Id, fault: Fault, emailFails: bool)
    ensures Reject(db, appId, fault, emailFails) == Reject(db, appId, fault, !emailFails)
    ensures Reject(db, appId, fault, emailFails).reply.code == 200 <==>
      FindApplication(db.applications, appId).Some? && !ThrowsWithin(fault, 3)
    ensures FindApplication(db.applications, appId).None? ==>
      Reject(db, appId, fault, emailFails).db == db
    ensures var o := Reject(db, appId, fault, emailFails);
      o.reply.code == 200 ==>
        o.db == db.(applications := SetStatusById(db.applications, appId, Rejected))
        && (forall i :: 0 <= i < |o.db.applications| && o.db.applications[i].id == appId ==>
              o.db.applications[i].status == Rejected)
  {
  }
}

=== FILE: admin_dashboard.dfy ===
/**
 The admin dashboard page: the two listing panels (freelancer applications
 and users) with their filters, sort controls, page-size menus and
 Previous/Next pager; the request each panel sends; the per-user action
 buttons; and the "Pending Approvals" preview of the overview tab.
 A panel keeps the debounced search, the one the requests use; the
 debounce timer itself is not modelled.
 */
module AdminDashboard {
  import opened Prelude
  import opened Text
  import opened Ordering
  import opened Store
  import opened AdminController
  import opened ApiClient

  // ---------------------------------------------------------------------------
  // The pager shared by both panels
  // ---------------------------------------------------------------------------

  /** The page-size menu offers 10, 25 and 50 rows. */
  datatype PageSizeOption = Ten | TwentyFive | Fifty

  function PageSizeValue(o: PageSizeOption): (n: int)
    ensures n in {10, 25, 50}
  {
    match o
    case Ten => 10
    case TwentyFive => 25
    case Fifty => 50
  }

  /** Previous: disabled at `page <= 1`, otherwise `Math.max(1, p - 1)`. */
  function PrevPage(page: int): (r: int)
    ensures page >= 1 ==> 1 <= r <= page
    ensures r != page <==> page > 1
  {
    if page <= 1 then page else if page - 1 >= 1 then page - 1 else 1
  }

  /** Next: disabled at `page >= totalPages`, otherwise
      `Math.min(totalPages, p + 1)`. */
  function NextPage(page: int, totalPages: int): (r: int)
    ensures page <= r
    ensures page <= totalPages ==> r <= totalPages
    ensures r != page <==> page < totalPages
  {
    if page >= totalPages then page else Min(totalPages, page + 1)
  }

  /** Within the pages that exist, each enabled button moves by exactly one
      page, the pager never leaves [1, totalPages], and the two buttons
      undo each other. */
  lemma PagerSteps(page: int, totalPages: int)
    requires 1 <= page <= totalPages
    ensures 1 <= PrevPage(page) <= totalPages && 1 <= NextPage(page, totalPages) <= totalPages
    ensures page > 1 ==> PrevPage(page) == page - 1 && NextPage(PrevPage(page), totalPages) == page
    ensures page < totalPages ==> NextPage(page, totalPages) == page + 1 && PrevPage(NextPage(page, totalPages)) == page
  {
  }

  function NextClicks(page: int, totalPages: int, k: nat): int
    decreases k
  {
    if k == 0 then page else NextClicks(NextPage(page, totalPages), totalPages, k - 1)
  }

  /** Clicking Next `k` times from a page that exists reaches page
      `page + k`, stopping at the last page: every page is reachable. */
  lemma {:induction false} NextClicksReach(page: int, totalPages: int, k: nat)
    requires 1 <= page <= totalPages
    ensures NextClicks(page, totalPages, k) == Min(totalPages, page + k)
    decreases k
  {
    if k > 0 {
      var next := NextPage(page, totalPages);
      NextClicksReach(next, totalPages, k - 1);
      if page < totalPages {
        assert next == page + 1;
      } else {
        assert next == page;
      }
    }
  }

  /** The pager's page count fits the listing it pages through: the server's
      page number `totalPages` holds rows exactly when there are matching
      rows at all, and every page past it is empty. */
  lemma LastPageHoldsRows<T(!new)>(rows: seq<T>, p: T -> bool, key: T -> seq<int>, dir: Dir,
                                 size: PageSizeOption)
    ensures var n := PageSizeValue(size);
      var tp := TotalPages(|Filter(rows, p)|, n);
      && (|ListPage(rows, p, key, dir, tp, n).items| > 0 <==> |Filter(rows, p)| > 0)
      && forall page :: page > tp ==> ListPage(rows, p, key, dir, page, n).items == []
  {
    var n := PageSizeValue(size);
    var total := |Filter(rows, p)|;
    var tp := TotalPages(total, n);
    var ordered := SortBy(Filter(rows, p), key, dir);
    assert |ListPage(rows, p, key, dir, tp, n).items| > 0 <==> total > 0 by {
      PageHoldsRowsIff(ListPage(rows, p, key, dir, tp, n).items, ordered, tp, n);
      assert Offset(tp, n) < total <==> total > 0 by {
        if tp > 1 {
          assert (tp - 1) * n < total;
        }
      }
    }
    forall page | page > tp
      ensures ListPage(rows, p, key, dir, page, n).items == []
    {
      assert Offset(page, n) >= total by {
        var before: nat := page - 1;
        MulMonotone(tp, before, n);
      }
      PageHoldsRowsIff(ListPage(rows, p, key, dir, page, n).items, ordered, page, n);
    }
  }

  lemma MulMonotone(a: int, b: int, c: nat)
    requires a <= b
    ensures a * c <= b * c
  {
  }

  // ---------------------------------------------------------------------------
  // The applications panel
  // ---------------------------------------------------------------------------

  datatype AppPanel = AppPanel(
    status: AppStatus,
    search: string,
    sortBy: AppSortField,
    sortDir: Dir,
    dateFrom: string,
    dateTo: string,
    pageSize: PageSizeOption,
    page: int)

  /** PENDING, no search, newest first, no dates, 10 rows, page 1. */
  const InitialAppPanel := AppPanel(Pending, "", ByCreatedAt, Desc, "", "", Ten, 1)

  datatype AppControl =
    | ShowStatus(status: AppStatus)
    | SortAppsBy(field: AppSortField)
    | SortAppsDir(dir: Dir)
    | SetDateFrom(date: string)
    | SetDateTo(date: string)
    | SetAppPageSize(size: PageSizeOption)
    | SearchApps(text: string)
    | ResetApps
    | PrevApps
    | NextApps(total: nat)

  predicate IsPagerControl(c: AppControl) {
    c.PrevApps? || c.NextApps?
  }

  /** The panel after one use of a control. `NextApps` carries the `total`
      of the last listing, from which the pager's page count comes. */
  function AppStep(p: AppPanel, c: AppControl): (r: AppPanel)
    ensures !IsPagerControl(c) ==> r.page == 1
    ensures IsPagerControl(c) ==> r.(page := p.page) == p
    ensures p.page >= 1 ==> r.page >= 1
  {
    match c
    case ShowStatus(s) => p.(status := s, page := 1)
    case SortAppsBy(f) => p.(sortBy := f, page := 1)
    case SortAppsDir(d) => p.(sortDir := d, page := 1)
    case SetDateFrom(t) => p.(dateFrom := t, page := 1)
    case SetDateTo(t) => p.(dateTo := t, page := 1)
    case SetAppPageSize(n) => p.(pageSize := n, page := 1)
    case SearchApps(t) => p.(search := t, page := 1)
    case ResetApps => InitialAppPanel.(pageSize := p.pageSize)
    case PrevApps => p.(page := PrevPage(p.page))
    case NextApps(total) => p.(page := NextPage(p.page, TotalPages(total, PageSizeValue(p.pageSize))))
  }

  /** Reset Filters undoes any other filter or sort change, but keeps the
      page size; on the initial panel it changes nothing. */
  lemma ResetAppsUndoes(p: AppPanel, c: AppControl)
    ensures !c.SetAppPageSize? ==> AppStep(AppStep(p, c), ResetApps) == AppStep(p, ResetApps)
    ensures AppStep(p, ResetApps).pageSize == p.pageSize
    ensures AppStep(InitialAppPanel, ResetApps) == InitialAppPanel
  {
  }

  /** `reloadApplications(status)`: the status, the debounced search, the
      page, size and order, and each date only when non-empty. */
  function AppRequest(p: AppPanel): (r: (Option<AppStatus>, AppListOpts))
    ensures r.0 == Some(p.status)
    ensures r.1.dateFrom.Some? <==> p.dateFrom != ""
    ensures r.1.dateTo.Some? <==> p.dateTo != ""
  {
    (Some(p.status),
     AppListOpts(Some(p.search), Some(p.page), Some(PageSizeValue(p.pageSize)), Some(p.sortBy), Some(p.sortDir),
                 TruthyString(Some(p.dateFrom)), TruthyString(Some(p.dateTo))))
  }

  /** The server's view of what the applications panel shows: the panel's
      status, page, page size and order arrive unchanged, and an
      application is listed exactly when it has that status, was created
      within the dates, and (for a non-blank search) belongs to a user the
      trimmed search matches. */
  lemma AppPanelReachesServer(users: seq<User>, p: AppPanel, dates: DateRange, a: Application)
    requires p.page >= 1
    ensures var (status, opts) := AppRequest(p);
      var aq := AppQueryOf(AppListParams(status, opts), dates);
      && aq.status == Some(p.status)
      && aq.page == Num(p.page)
      && aq.pageSize == Num(PageSizeValue(p.pageSize))
      && aq.sortBy == p.sortBy && aq.sortDir == p.sortDir
      && (AppMatches(users, aq, a) <==>
            && a.status == p.status
            && InRange(a.createdAt, dates)
            && (Trim(p.search) == "" ||
                  var u := FindUser(users, a.userId);
                  u.Some? && UserMatchesSearch(u.value, Trim(p.search))))
  {
    var (status, opts) := AppRequest(p);
    AppListRoundTrip(status, opts, dates);
    var aq := AppQueryOf(AppListParams(status, opts), dates);
    assert aq.q == NonBlank(TruthyString(Some(p.search)));
    assert aq.dates == dates;
    if p.search == "" {
      assert Trim(p.search) == "";
    }
  }

  // ---------------------------------------------------------------------------
  // The users panel
  // ---------------------------------------------------------------------------

  datatype RoleChoice = AllRoles | OnlyRole(role: Role)
  datatype AdminChoice = AllAdmin | AdminsOnly | NonAdmins
  datatype ActiveChoice = AllStatuses | ActiveOnly | DeactivatedOnly

  datatype UserPanel = UserPanel(
    search: string,
    role: RoleChoice,
    admin: AdminChoice,
    active: ActiveChoice,
    sortBy: UserSortField,
    sortDir: Dir,
    pageSize: PageSizeOption,
    page: int)

  /** No search, all roles, admin and status choices, newest first, 10 rows, page 1. */
  const InitialUserPanel := UserPanel("", AllRoles, AllAdmin, AllStatuses, ByDateJoined, Desc, Ten, 1)

  datatype UserControl =
    | FilterRole(roleChoice: RoleChoice)
    | FilterAdmin(adminChoice: AdminChoice)
    | FilterActive(activeChoice: ActiveChoice)
    | SortUsersBy(field: UserSortField)
    | SortUsersDir(dir: Dir)
    | SetUserPageSize(size: PageSizeOption)
    | SearchUsers(text: string)
    | ResetUsers
    | PrevUsers
    | NextUsers(total: nat)

  predicate IsUserPagerControl(c: UserControl) {
    c.PrevUsers? || c.NextUsers?
  }

  function UserStep(p: UserPanel, c: UserControl): (r: UserPanel)
    ensures !IsUserPagerControl(c) ==> r.page == 1
    ensures IsUserPagerControl(c) ==> r.(page := p.page) == p
    ensures p.page >= 1 ==> r.page >= 1
  {
    match c
    case FilterRole(x) => p.(role := x, page := 1)
    case FilterAdmin(x) => p.(admin := x, page := 1)
    case FilterActive(x) => p.(active := x, page := 1)
    case SortUsersBy(f) => p.(sortBy := f, page := 1)
    case SortUsersDir(d) => p.(sortDir := d, page := 1)
    case SetUserPageSize(n) => p.(pageSize := n, page := 1)
    case SearchUsers(t) => p.(search := t, page := 1)
    case ResetUsers => InitialUserPanel.(pageSize := p.pageSize)
    case PrevUsers => p.(page := PrevPage(p.page))
    case NextUsers(total) => p.(page := NextPage(p.page, TotalPages(total, PageSizeValue(p.pageSize))))
  }

  /** As for applications: Reset Filters undoes every other filter or sort
      change and keeps the page size. */
  lemma ResetUsersUndoes(p: UserPanel, c: UserControl)
    ensures !c.SetUserPageSize? ==> UserStep(UserStep(p, c), ResetUsers) == UserStep(p, ResetUsers)
    ensures UserStep(p, ResetUsers).pageSize == p.pageSize
    ensures UserStep(InitialUserPanel, ResetUsers) == InitialUserPanel
  {
  }

  /** `ALL` sends no flag; the other two choices send `true` and `false`. */
  function AdminFlag(c: AdminChoice): (b: Option<bool>)
    ensures b.None? <==> c == AllAdmin
  {
    match c
    case AllAdmin => None
    case AdminsOnly => Some(true)
    case NonAdmins => Some(false)
  }

  function ActiveFlag(c: ActiveChoice): (b: Option<bool>)
    ensures b.None? <==> c == AllStatuses
  {
    match c
    case AllStatuses => None
    case ActiveOnly => Some(true)
    case DeactivatedOnly => Some(false)
  }

  function RoleArg(c: RoleChoice): (r: Option<Role>)
    ensures r.None? <==> c == AllRoles
  {
    match c
    case AllRoles => None
    case OnlyRole(x) => Some(x)
  }

  /** `reloadUsers()`: the debounced search, the three choices, and the
      page, size and order. */
  function UserRequest(p: UserPanel): UserListOpts {
    UserListOpts(Some(p.search), RoleArg(p.role), AdminFlag(p.admin), ActiveFlag(p.active),
                 Some(p.page), Some(PageSizeValue(p.pageSize)), Some(p.sortBy), Some(p.sortDir))
  }

  /** What the users panel's choices mean for one user, read off the labels. */
  predicate PanelShows(p: UserPanel, u: User) {
    && (p.role.OnlyRole? ==> u.role == p.role.role)
    && (p.admin == AdminsOnly ==> u.isAdmin)
    && (p.admin == NonAdmins ==> !u.isAdmin)
    && (p.active == ActiveOnly ==> !u.isDeleted)
    && (p.active == DeactivatedOnly ==> u.isDeleted)
    && (Trim(p.search) == "" || UserMatchesSearch(u, Trim(p.search)))
  }

  /** A user query carrying the panel's choices selects what the panel's
      labels say. */
  lemma UserMatchesPanel(uq: UserQuery, p: UserPanel, u: User)
    requires uq.q == NonBlank(TruthyString(Some(p.search)))
    requires uq.role == RoleArg(p.role)
    requires uq.isAdmin == AdminFlag(p.admin)
    requires uq.isDeleted == Negate(ActiveFlag(p.active))
    ensures UserMatches(uq, u) <==> PanelShows(p, u)
  {
    if p.search == "" {
      assert Trim(p.search) == "";
    }
  }

  /** The server lists a user exactly when the panel's labels say it
      should, and gets the panel's page, page size and order. */
  lemma UserPanelReachesServer(p: UserPanel, u: User)
    requires p.page >= 1
    ensures var uq := UserQueryOf(UserListParams(UserRequest(p)));
      && uq.page == Num(p.page)
      && uq.pageSize == Num(PageSizeValue(p.pageSize))
      && uq.sortBy == p.sortBy && uq.sortDir == p.sortDir
      && (UserMatches(uq, u) <==> PanelShows(p, u))
  {
    var o := UserRequest(p);
    var uq := UserQueryOf(UserListParams(o));
    assert uq.q == NonBlank(TruthyString(Some(p.search))) && uq.role == RoleArg(p.role)
        && uq.isAdmin == AdminFlag(p.admin) && uq.isDeleted == Negate(ActiveFlag(p.active))
        && uq.page == Num(p.page) && uq.pageSize == Num(PageSizeValue(p.pageSize))
        && uq.sortBy == p.sortBy && uq.sortDir == p.sortDir by {
      UserListRoundTrip(o);
    }
    UserMatchesPanel(uq, p, u);
  }

  // ---------------------------------------------------------------------------
  // Per-user actions
  // ---------------------------------------------------------------------------

  /** "Set Buyer" for a freelancer, "Set Freelancer" for anyone else. */
  function RoleAction(u: User): (r: Role)
    ensures r != u.role
  {
    if u.role == Freelancer then Buyer else Freelancer
  }

  /** "Remove Admin" for an admin, "Make Admin" otherwise. */
  function AdminAction(u: User): (b: bool)
    ensures b != u.isAdmin
  {
    !u.isAdmin
  }

  /** The button reads "Deactivate" for a user shown as active
      (`isActive = !isDeleted`) and "Reactivate" otherwise. */
  function ActiveButtonLabel(u: User): (s: string)
    ensures s == "Deactivate" <==> !u.isDeleted
  {
    if !u.isDeleted then "Deactivate" else "Reactivate"
  }

  /** The role button writes the other role to the user's row. */
  lemma RoleActionFlips(db: Db, u: User)
    requires u in db.users
    ensures var o := UpdateUserRole(db, u.id, RolePayload(RoleAction(u)), NoFault);
      && o.reply.code == 200
      && forall i :: 0 <= i < |db.users| && db.users[i].id == u.id ==>
           o.db.users[i].role == RoleAction(u) && o.db.users[i].role != u.role
  {
    var k :| 0 <= k < |db.users| && db.users[k] == u;
    assert HasUser(db, u.id);
  }

  /** The admin button writes the opposite admin flag. */
  lemma AdminActionFlips(db: Db, u: User)
    requires u in db.users
    ensures var o := SetUserAdmin(db, u.id, AdminAction(u), NoFault);
      && o.reply.code == 200
      && forall i :: 0 <= i < |db.users| && db.users[i].id == u.id ==> o.db.users[i].isAdmin != u.isAdmin
  {
    var k :| 0 <= k < |db.users| && db.users[k] == u;
    assert HasUser(db, u.id);
    MutatorsTouchOneField(db, u.id, AdminAction(u));
  }

  /** The active button as written sends `active = !isDeleted`, the state
      the user is already in. */
  function ActiveActionAsWritten(u: User): (active: bool)
    ensures active == (ActiveButtonLabel(u) == "Deactivate")
  {
    !u.isDeleted
  }

  /** As written, "Deactivate" on an active user answers "User reactivated."
      and leaves the store exactly as it was; so does "Reactivate". */
  lemma ActiveButtonIsNoOp(db: Db, u: User)
    requires u in db.users && UniqueUserIds(db.users)
    ensures var o := SetUserActive(db, u.id, ActiveActionAsWritten(u), NoFault);
      && o.reply.code == 200
      && o.db == db
      && (ActiveButtonLabel(u) == "Deactivate" ==> o.reply.message == "User reactivated.")
  {
    var k :| 0 <= k < |db.users| && db.users[k] == u;
    assert HasUser(db, u.id);
    forall i | 0 <= i < |db.users| && db.users[i].id == u.id
      ensures db.users[i].isDeleted == !ActiveActionAsWritten(u)
    {
      assert i == k;
    }
    UpdateUserUnchanged(db.users, u.id, !ActiveActionAsWritten(u));
  }

  /** The evidently intended argument: the state the label names, so
      "Deactivate" sends `active = false`. */
  function ActiveAction(u: User): (active: bool)
    ensures active == (ActiveButtonLabel(u) == "Reactivate")
  {
    u.isDeleted
  }

  /** With the intended argument the button flips the user's active
      state: "Deactivate" deactivates and "Reactivate" reactivates. */
  lemma ActiveActionFlips(db: Db, u: User)
    requires u in db.users
    ensures var o := SetUserActive(db, u.id, ActiveAction(u), NoFault);
      && o.reply.code == 200
      && o.reply.message == (if ActiveButtonLabel(u) == "Deactivate" then "User deactivated." else "User reactivated.")
      && forall i :: 0 <= i < |db.users| && db.users[i].id == u.id ==> o.db.users[i].isDeleted == !u.isDeleted
  {
    var k :| 0 <= k < |db.users| && db.users[k] == u;
    assert HasUser(db, u.id);
    MutatorsTouchOneField(db, u.id, ActiveAction(u));
  }

  // ---------------------------------------------------------------------------
  // The overview's "Pending Approvals" preview
  // ---------------------------------------------------------------------------

  function IsPending(a: Application): bool {
    a.status == Pending
  }

  /** The first three PENDING rows of the loaded applications (none
      before the first load). */
  function PendingPreview(loaded: Option<seq<Application>>): (r: seq<Application>)
    ensures |r| == Min(3, Count(loaded.GetOr([]), IsPending))
    ensures forall a :: a in r ==> a in loaded.GetOr([]) && a.status == Pending
    ensures r == Filter(loaded.GetOr([]), IsPending)[..|r|]
    ensures multiset(r) <= multiset(loaded.GetOr([]))
  {
    var pending := Filter(loaded.GetOr([]), IsPending);
    var r := pending[..Min(3, |pending|)];
    assert multiset(r) <= multiset(pending) by {
      assert pending == r + pending[|r|..];
    }
    FilterSubMultiset(loaded.GetOr([]), IsPending);
    r
  }

  /** The preview takes the first PENDING rows in load order: once the
      first rows loaded hold three PENDING ones, later rows never show. */
  lemma PreviewTakesFirst(first: seq<Application>, later: seq<Application>)
    ensures Count(first, IsPending) >= 3 ==>
      PendingPreview(Some(first + later)) == PendingPreview(Some(first))
  {
    if Count(first, IsPending) >= 3 {
      FilterAppend(first, later, IsPending);
      var a := Filter(first, IsPending);
      assert (a + Filter(later, IsPending))[..3] == a[..3];
    }
  }

  /** Without PENDING rows there is nothing to preview. */
  lemma {:induction false} PreviewOfNonPending(items: seq<Application>)
    requires forall i :: 0 <= i < |items| ==> items[i].status != Pending
    ensures Count(items, IsPending) == 0
    ensures PendingPreview(Some(items)) == []
    decreases |items|
  {
    if |items| > 0 {
      PreviewOfNonPending(items[1..]);
    }
  }

  /** Every row of a listing filtered on a status has that status. */
  lemma ListingHasStatus(db: Db, query: map<string, string>, dates: DateRange, s: AppStatus)
    requires StatusParam(Lookup(query, "status")) == Some(s)
    ensures var r := ListApplications(db, query, dates, NoFault);
      r.Listed? ==> forall i :: 0 <= i < |r.listing.items| ==> r.listing.items[i].status == s
  {
    ListApplicationsSpec(db, query, dates, NoFault);
  }

  /** The preview shows rows of the applications panel's current listing,
      so with that panel on APPROVED or REJECTED it is empty, however many
      applications are pending. */
  lemma PreviewFollowsStatusTab(db: Db, p: AppPanel, dates: DateRange)
    requires p.page >= 1 && p.status != Pending
    ensures var r := ListApplications(db, AppListParams(AppRequest(p).0, AppRequest(p).1), dates, NoFault);
      r.Listed? ==> PendingPreview(Some(r.listing.items)) == []
  {
    var status, opts := AppRequest(p).0, AppRequest(p).1;
    var query := AppListParams(status, opts);
    assert AppQueryOf(query, dates).status == Some(p.status) by {
      AppListRoundTrip(status, opts, dates);
    }
    ListingHasStatus(db, query, dates, p.status);
    var r := ListApplications(db, query, dates, NoFault);
    if r.Listed? {
      PreviewOfNonPending(r.listing.items);
    }
  }
}

=== FILE: api_client.dfy ===
/**
 The client's request builders for the admin listings and the user
 mutators: which query parameters are sent (a value is sent only when it is
 truthy, except the two tri-state flags, which are sent whenever they are
 booleans) and how the server reads them back.
 */
module ApiClient {
  import opened Prelude
  import opened Text
  import opened Ordering
  import opened Store
  import opened AdminController
  import FreelancersController

  /** The query string made of the parameters `sent` gives a value:
      `{ ...(v ? { key: v } : {}), ... }` over the keys `keys`. */
  function Params(keys: set<string>, sent: string -> Option<string>): (m: map<string, string>)
    ensures forall k :: Lookup(m, k) == (if k in keys then sent(k) else None)
  {
    map k | k in keys && sent(k).Some? :: sent(k).value
  }

  /** A string is truthy unless it is absent or empty. */
  function TruthyString(s: Option<string>): (r: Option<string>)
    ensures r.Some? <==> s.Some? && s.value != ""
    ensures r.Some? ==> r == s
  {
    if s.Some? && s.value != "" then s else None
  }

  /** A number is truthy unless it is absent or 0; it is sent as `String(n)`. */
  function TruthyNumber(n: Option<int>): (r: Option<string>)
    ensures r.Some? <==> n.Some? && n.value != 0
  {
    if n.Some? && n.value != 0 then Some(ShowInt(n.value)) else None
  }

  /** A number that is sent is read back by `parseInt` as that number. */
  lemma TruthyNumberParses(n: Option<int>)
    ensures TruthyNumber(n).Some? ==> ParseInt(TruthyNumber(n).value) == Num(n.value)
  {
    if n.Some? && n.value != 0 {
      ParseShowRoundTrip(n.value);
    }
  }

  function BoolName(b: bool): string {
    if b then "true" else "false"
  }

  function DirName(d: Dir): string {
    match d
    case Asc => "asc"
    case Desc => "desc"
  }

  function AppSortFieldName(f: AppSortField): string {
    match f
    case ByCreatedAt => "createdAt"
    case ByStatus => "status"
  }

  function UserSortFieldName(f: UserSortField): string {
    match f
    case ByDateJoined => "dateJoined"
    case ByFirstName => "firstName"
    case ByLastName => "lastName"
    case ByRole => "role"
    case ByIsAdmin => "isAdmin"
    case ByIsDeleted => "isDeleted"
  }

  /** A boolean sent as `String(b)` is read back as that boolean. */
  lemma FlagRoundTrip(b: Option<bool>)
    ensures FlagParam(MapOpt(b, BoolName)) == b
  {
    if b == Some(false) {
      assert "false" != "true" by { assert "false"[0] != "true"[0]; }
    }
  }

  /** The direction and sort-field names the client sends select what they name. */
  lemma NamesRoundTrip(d: Dir, af: AppSortField, uf: UserSortField)
    ensures SortDirParam(Some(DirName(d))) == d
    ensures AppSortParam(Some(AppSortFieldName(af))) == af
    ensures UserSortParam(Some(UserSortFieldName(uf))) == uf
  {
    assert Lower("asc") == "asc";
    assert Lower("desc")[0] == 'd';
  }

  /** A page of at least 1 and a page size in [1, 50] reach the server
      unchanged; an unsent or zero page is page 1 and an unsent or zero
      page size is 10. */
  lemma PagingRoundTrip(page: Option<int>, pageSize: Option<int>)
    ensures page.Some? && page.value >= 1 ==> PageParam(TruthyNumber(page)) == Num(page.value)
    ensures page.None? || page.value == 0 ==> PageParam(TruthyNumber(page)) == Num(1)
    ensures pageSize.Some? && 1 <= pageSize.value <= 50 ==> PageSizeParam(TruthyNumber(pageSize)) == Num(pageSize.value)
    ensures pageSize.None? || pageSize.value == 0 ==> PageSizeParam(TruthyNumber(pageSize)) == Num(10)
  {
    TruthyNumberParses(page);
    TruthyNumberParses(pageSize);
    PageParamClamps(TruthyNumber(page));
    PageSizeParamClamps(TruthyNumber(pageSize));
  }

  // ---------------------------------------------------------------------------
  // adminListApplicationsApi
  // ---------------------------------------------------------------------------

  /** The optional arguments of the applications listing call. */
  datatype AppListOpts = AppListOpts(
    q: Option<string>,
    page: Option<int>,
    pageSize: Option<int>,
    sortBy: Option<AppSortField>,
    sortDir: Option<Dir>,
    dateFrom: Option<string>,
    dateTo: Option<string>)

  function MapOpt<A, B>(a: Option<A>, f: A -> B): (r: Option<B>)
    ensures r.Some? <==> a.Some?
    ensures r.Some? ==> r.value == f(a.value)
  {
    if a.Some? then Some(f(a.value)) else None
  }

  /** The value `adminListApplicationsApi(status, opts)` sends for `key`, if any. */
  function AppParam(status: Option<AppStatus>, o: AppListOpts, key: string): Option<string> {
    match key
    case "status" => MapOpt(status, StatusName)
    case "q" => TruthyString(o.q)
    case "page" => TruthyNumber(o.page)
    case "pageSize" => TruthyNumber(o.pageSize)
    case "sortBy" => MapOpt(o.sortBy, AppSortFieldName)
    case "sortDir" => MapOpt(o.sortDir, DirName)
    case "dateFrom" => TruthyString(o.dateFrom)
    case "dateTo" => TruthyString(o.dateTo)
    case _ => None
  }

  const AppParamKeys: set<string> := {"status", "q", "page", "pageSize", "sortBy", "sortDir", "dateFrom", "dateTo"}

  /** The query string of `adminListApplicationsApi(status, opts)`: an
      empty search and a zero page are not sent. */
  function AppListParams(status: Option<AppStatus>, o: AppListOpts): (m: map<string, string>)
    ensures forall k :: Lookup(m, k) == (if k in AppParamKeys then AppParam(status, o, k) else None)
    ensures m.Keys <= AppParamKeys
    ensures "q" in m <==> o.q.Some? && o.q.value != ""
    ensures "page" in m <==> o.page.Some? && o.page.value != 0
    ensures "dateFrom" in m <==> o.dateFrom.Some? && o.dateFrom.value != ""
  {
    var m := Params(AppParamKeys, k => AppParam(status, o, k));
    assert Lookup(m, "q") == TruthyString(o.q);
    assert Lookup(m, "page") == TruthyNumber(o.page);
    assert Lookup(m, "dateFrom") == TruthyString(o.dateFrom);
    m
  }

  /** What the server makes of the parameters the client sends: the same
      status, sort field and direction (or the server's defaults when none
      was given), the trimmed search, and any page of at least 1 and page
      size in [1, 50] unchanged; an unsent or zero page is page 1 and an
      unsent or zero page size is 10. */
  lemma AppListRoundTrip(status: Option<AppStatus>, o: AppListOpts, dates: DateRange)
    ensures var aq := AppQueryOf(AppListParams(status, o), dates);
      && aq.status == status
      && aq.q == NonBlank(TruthyString(o.q))
      && aq.sortBy == o.sortBy.GetOr(ByCreatedAt)
      && aq.sortDir == o.sortDir.GetOr(Desc)
      && (o.page.Some? && o.page.value >= 1 ==> aq.page == Num(o.page.value))
      && (o.page.None? || o.page.value == 0 ==> aq.page == Num(1))
      && (o.pageSize.Some? && 1 <= o.pageSize.value <= 50 ==> aq.pageSize == Num(o.pageSize.value))
      && (o.pageSize.None? || o.pageSize.value == 0 ==> aq.pageSize == Num(10))
  {
    var m := AppListParams(status, o);
    assert StatusParam(Lookup(m, "status")) == status by {
      assert Lookup(m, "status") == MapOpt(status, StatusName);
      if status.Some? {
        StatusParamRoundTrip(status.value);
      }
    }
    assert Lookup(m, "q") == TruthyString(o.q);
    assert AppSortParam(Lookup(m, "sortBy")) == o.sortBy.GetOr(ByCreatedAt)
        && SortDirParam(Lookup(m, "sortDir")) == o.sortDir.GetOr(Desc) by {
      assert Lookup(m, "sortBy") == MapOpt(o.sortBy, AppSortFieldName);
      assert Lookup(m, "sortDir") == MapOpt(o.sortDir, DirName);
      NamesRoundTrip(o.sortDir.GetOr(Desc), o.sortBy.GetOr(ByCreatedAt), ByDateJoined);
    }
    assert Lookup(m, "page") == TruthyNumber(o.page);
    assert Lookup(m, "pageSize") == TruthyNumber(o.pageSize);
    PagingRoundTrip(o.page, o.pageSize);
  }

  // ---------------------------------------------------------------------------
  // adminListUsersApi
  // ---------------------------------------------------------------------------

  /** The optional arguments of the users listing call. */
  datatype UserListOpts = UserListOpts(
    q: Option<string>,
    role: Option<Role>,
    admin: Option<bool>,
    active: Option<bool>,
    page: Option<int>,
    pageSize: Option<int>,
    sortBy: Option<UserSortField>,
    sortDir: Option<Dir>)

  /** The value `adminListUsersApi(opts)` sends for `key`, if any. */
  function UserParam(o: UserListOpts, key: string): Option<string> {
    match key
    case "q" => TruthyString(o.q)
    case "role" => MapOpt(o.role, RoleName)
    case "admin" => MapOpt(o.admin, BoolName)
    case "active" => MapOpt(o.active, BoolName)
    case "page" => TruthyNumber(o.page)
    case "pageSize" => TruthyNumber(o.pageSize)
    case "sortBy" => MapOpt(o.sortBy, UserSortFieldName)
    case "sortDir" => MapOpt(o.sortDir, DirName)
    case _ => None
  }

  const UserParamKeys: set<string> := {"q", "role", "admin", "active", "page", "pageSize", "sortBy", "sortDir"}

  /** The query string of `adminListUsersApi(opts)`: `admin` and `active`
      are sent whenever they are booleans, `false` included. */
  function UserListParams(o: UserListOpts): (m: map<string, string>)
    ensures forall k :: Lookup(m, k) == (if k in UserParamKeys then UserParam(o, k) else None)
    ensures m.Keys <= UserParamKeys
    ensures "admin" in m <==> o.admin.Some?
    ensures "active" in m <==> o.active.Some?
    ensures "q" in m <==> o.q.Some? && o.q.value != ""
    ensures Lookup(m, "page") == TruthyNumber(o.page) && Lookup(m, "pageSize") == TruthyNumber(o.pageSize)
  {
    var m := Params(UserParamKeys, k => UserParam(o, k));
    assert Lookup(m, "admin") == MapOpt(o.admin, BoolName);
    assert Lookup(m, "active") == MapOpt(o.active, BoolName);
    assert Lookup(m, "q") == TruthyString(o.q);
    assert Lookup(m, "page") == TruthyNumber(o.page);
    assert Lookup(m, "pageSize") == TruthyNumber(o.pageSize);
    m
  }

  /** What the server makes of the parameters the client sends: the
      `admin` flag becomes the filter `isAdmin = admin`, the `active` flag
      the filter `isDeleted = !active`, the role, sort field and direction
      arrive unchanged (or as the server's defaults), and the page and
      page size as for applications. */
  lemma UserListRoundTrip(o: UserListOpts)
    ensures var uq := UserQueryOf(UserListParams(o));
      && uq.isAdmin == o.admin
      && uq.isDeleted == Negate(o.active)
      && uq.role == o.role
      && uq.q == NonBlank(TruthyString(o.q))
      && uq.sortBy == o.sortBy.GetOr(ByDateJoined)
      && uq.sortDir == o.sortDir.GetOr(Desc)
      && (o.page.Some? && o.page.value >= 1 ==> uq.page == Num(o.page.value))
      && (o.page.None? || o.page.value == 0 ==> uq.page == Num(1))
      && (o.pageSize.Some? && 1 <= o.pageSize.value <= 50 ==> uq.pageSize == Num(o.pageSize.value))
      && (o.pageSize.None? || o.pageSize.value == 0 ==> uq.pageSize == Num(10))
  {
    UserListFilters(o);
    UserListOrder(o);
    UserListPaging(o);
  }

  lemma UserListFilters(o: UserListOpts)
    ensures var uq := UserQueryOf(UserListParams(o));
      uq.isAdmin == o.admin && uq.isDeleted == Negate(o.active) && uq.role == o.role
      && uq.q == NonBlank(TruthyString(o.q))
  {
    var m := UserListParams(o);
    assert FlagParam(Lookup(m, "admin")) == o.admin by {
      assert Lookup(m, "admin") == MapOpt(o.admin, BoolName);
      FlagRoundTrip(o.admin);
    }
    assert FlagParam(Lookup(m, "active")) == o.active by {
      assert Lookup(m, "active") == MapOpt(o.active, BoolName);
      FlagRoundTrip(o.active);
    }
    assert RoleParam(Lookup(m, "role")) == o.role by {
      assert Lookup(m, "role") == MapOpt(o.role, RoleName);
      if o.role.Some? {
        RoleParamRoundTrip(o.role.value);
      }
    }
    assert Lookup(m, "q") == TruthyString(o.q);
  }

  lemma UserListOrder(o: UserListOpts)
    ensures var uq := UserQueryOf(UserListParams(o));
      uq.sortBy == o.sortBy.GetOr(ByDateJoined) && uq.sortDir == o.sortDir.GetOr(Desc)
  {
    var m := UserListParams(o);
    assert Lookup(m, "sortBy") == MapOpt(o.sortBy, UserSortFieldName);
    assert Lookup(m, "sortDir") == MapOpt(o.sortDir, DirName);
    NamesRoundTrip(o.sortDir.GetOr(Desc), ByCreatedAt, o.sortBy.GetOr(ByDateJoined));
  }

  lemma UserListPaging(o: UserListOpts)
    ensures var uq := UserQueryOf(UserListParams(o));
      && (o.page.Some? && o.page.value >= 1 ==> uq.page == Num(o.page.value))
      && (o.page.None? || o.page.value == 0 ==> uq.page == Num(1))
      && (o.pageSize.Some? && 1 <= o.pageSize.value <= 50 ==> uq.pageSize == Num(o.pageSize.value))
      && (o.pageSize.None? || o.pageSize.value == 0 ==> uq.pageSize == Num(10))
  {
    var m := UserListParams(o);
    PagingAt(m, o.page, o.pageSize);
  }

  /** The paging round trip, for any query string that carries the two
      numbers as the client sends them. */
  lemma PagingAt(m: map<string, string>, page: Option<int>, pageSize: Option<int>)
    requires Lookup(m, "page") == TruthyNumber(page) && Lookup(m, "pageSize") == TruthyNumber(pageSize)
    ensures page.Some? && page.value >= 1 ==> PageParam(Lookup(m, "page")) == Num(page.value)
    ensures page.None? || page.value == 0 ==> PageParam(Lookup(m, "page")) == Num(1)
    ensures pageSize.Some? && 1 <= pageSize.value <= 50 ==> PageSizeParam(Lookup(m, "pageSize")) == Num(pageSize.value)
    ensures pageSize.None? || pageSize.value == 0 ==> PageSizeParam(Lookup(m, "pageSize")) == Num(10)
  {
    PagingRoundTrip(page, pageSize);
  }

  /** With the `admin` or `active` flag set, every listed user, and every
      user counted in `total`, has that admin flag and that active state. */
  lemma UserFlagsSelect(o: UserListOpts, u: User)
    ensures var uq := UserQueryOf(UserListParams(o));
      UserMatches(uq, u) ==>
        (o.admin.Some? ==> u.isAdmin == o.admin.value) && (o.active.Some? ==> u.isDeleted == !o.active.value)
  {
    UserListFilters(o);
  }

  // ---------------------------------------------------------------------------
  // Mutator payloads and the application status
  // ---------------------------------------------------------------------------

  /** `adminUpdateUserRoleApi(userId, role)` sends `{ role }` for a typed role. */
  function RolePayload(r: Role): (p: Option<string>)
    ensures p.Some? && p.value in {"BUYER", "FREELANCER"}
  {
    Some(RoleName(r))
  }

  /** Every role the client can send is inside the server's allow-list:
      the write goes through and sets exactly that role. */
  lemma RolePayloadAccepted(db: Db, userId: Id, r: Role)
    requires HasUser(db, userId)
    ensures var o := UpdateUserRole(db, userId, RolePayload(r), NoFault);
      o.reply.code == 200 && o.db.users == UpdateUser(db.users, userId, SetRole(r))
  {
  }

  /** The statuses `getMyApplicationApi` is typed to receive. */
  const ClientStatuses: set<string> := {"NONE", "PENDING", "APPROVED", "REJECTED"}

  /** Every status the server can report is one the client expects. */
  lemma MyStatusWithinClientType(db: Db, userId: Id)
    ensures var r := FreelancersController.GetMine(db, Some(userId), NoFault);
      r.code == 200 ==> FreelancersController.MyStatusName(r.mine.value) in ClientStatuses
  {
  }
}

=== FILE: auth_store.dfy ===
/**
 The client's session store: the signed-in user, if any, and the
 `isAuthenticated` flag, with login, logout and a partial profile update.
 Persisting the store across page loads is not modelled.
 */
module AuthStore {
  import opened Prelude

  datatype ClientRole = RoleBuyer | RoleFreelancer | RoleAdmin

  datatype SessionUser = SessionUser(
    id: string,
    name: string,
    email: string,
    role: ClientRole,
    avatar: Option<string>,
    createdAt: string)

  /** A `Partial<User>`: a field is `Some` exactly when the update names it. */
  datatype UserUpdate = UserUpdate(
    id: Option<string>,
    name: Option<string>,
    email: Option<string>,
    role: Option<ClientRole>,
    avatar: Option<string>,
    createdAt: Option<string>)

  const NoChanges := UserUpdate(None, None, None, None, None, None)

  datatype AuthState = AuthState(user: Option<SessionUser>, isAuthenticated: bool)

  /** Nobody signed in. */
  const InitialAuth := AuthState(None, false)

  /** The flag says whether there is a user. */
  predicate Consistent(s: AuthState) {
    s.isAuthenticated <==> s.user.Some?
  }

  /** `{ ...user, ...updates }`: every field the update names is replaced,
      every other field is kept. */
  function Merge(u: SessionUser, upd: UserUpdate): (r: SessionUser)
    ensures upd.id.Some? ==> r.id == upd.id.value
    ensures upd.id.None? ==> r.id == u.id
    ensures upd.name.Some? ==> r.name == upd.name.value
    ensures upd.name.None? ==> r.name == u.name
    ensures upd.email.Some? ==> r.email == upd.email.value
    ensures upd.email.None? ==> r.email == u.email
    ensures upd.role.Some? ==> r.role == upd.role.value
    ensures upd.role.None? ==> r.role == u.role
    ensures upd.avatar.Some? ==> r.avatar == upd.avatar
    ensures upd.avatar.None? ==> r.avatar == u.avatar
    ensures upd.createdAt.Some? ==> r.createdAt == upd.createdAt.value
    ensures upd.createdAt.None? ==> r.createdAt == u.createdAt
  {
    SessionUser(
      upd.id.GetOr(u.id),
      upd.name.GetOr(u.name),
      upd.email.GetOr(u.email),
      upd.role.GetOr(u.role),
      if upd.avatar.Some? then upd.avatar else u.avatar,
      upd.createdAt.GetOr(u.createdAt))
  }

  function Login(s: AuthState, u: SessionUser): (r: AuthState)
    ensures r.user == Some(u) && r.isAuthenticated
    ensures Consistent(r)
  {
    AuthState(Some(u), true)
  }

  function Logout(s: AuthState): (r: AuthState)
    ensures r.user.None? && !r.isAuthenticated
    ensures Consistent(r)
  {
    AuthState(None, false)
  }

  /** Merges the update into the signed-in user; with nobody signed in the
      user stays absent. The flag is never touched. */
  function UpdateUser(s: AuthState, upd: UserUpdate): (r: AuthState)
    ensures r.isAuthenticated == s.isAuthenticated
    ensures r.user.Some? <==> s.user.Some?
    ensures Consistent(s) ==> Consistent(r)
  {
    s.(user := if s.user.Some? then Some(Merge(s.user.value, upd)) else None)
  }

  /** Signing in and out again is the same as never having signed in, and
      signing out twice is signing out once. */
  lemma LoginThenLogout(s: AuthState, u: SessionUser)
    ensures Logout(Login(s, u)) == InitialAuth
    ensures Logout(Logout(s)) == Logout(s)
  {
  }

  /** An update that names nothing changes nothing, an update applied
      twice is applied once, and with nobody signed in an update is void. */
  lemma UpdateUserLaws(s: AuthState, upd: UserUpdate)
    ensures UpdateUser(s, NoChanges) == s
    ensures UpdateUser(UpdateUser(s, upd), upd) == UpdateUser(s, upd)
    ensures UpdateUser(Logout(s), upd) == Logout(s)
  {
  }

  datatype AuthAction = DoLogin(user: SessionUser) | DoLogout | DoUpdate(update: UserUpdate)

  function Step(s: AuthState, a: AuthAction): AuthState {
    match a
    case DoLogin(u) => Login(s, u)
    case DoLogout => Logout(s)
    case DoUpdate(upd) => UpdateUser(s, upd)
  }

  function Run(s: AuthState, actions: seq<AuthAction>): AuthState
    decreases |actions|
  {
    if |actions| == 0 then s else Run(Step(s, actions[0]), actions[1..])
  }

  /** From the initial state, any sequence of logins, logouts and updates
      keeps `isAuthenticated` true exactly when there is a user. */
  lemma {:induction false} RunKeepsConsistent(s: AuthState, actions: seq<AuthAction>)
    requires Consistent(s)
    ensures Consistent(Run(s, actions))
    decreases |actions|
  {
    if |actions| > 0 {
      RunKeepsConsistent(Step(s, actions[0]), actions[1..]);
    }
  }

  /** A run whose last action is a logout ends signed out, whatever came before. */
  lemma {:induction false} RunEndsWithLogout(s: AuthState, actions: seq<AuthAction>)
    requires |actions| > 0 && actions[|actions| - 1] == DoLogout
    ensures Run(s, actions) == InitialAuth
    decreases |actions|
  {
    if |actions| > 1 {
      RunEndsWithLogout(Step(s, actions[0]), actions[1..]);
    }
  }
}

=== FILE: buyer_dashboard.dfy ===
/**
 The buyer dashboard's marketplace tab: the sort menu and its label, the
 request parameters built from the search box and category buttons, and
 the reducer that keeps the listed designs, with the replace and append
 ("load more") fetch modes and the flags the view derives from it.
 Requests are taken one at a time, so the guard against stale responses
 never fires and is not modelled.
 */
module BuyerDashboard {
  import opened Prelude
  import opened Text
  import opened Ordering
  import DashboardController

  /** The page size every marketplace request asks for. */
  const MarketplacePageSize := 12

  // ---------------------------------------------------------------------------
  // The sort menu
  // ---------------------------------------------------------------------------

  datatype MarketField = FieldCreatedAt | FieldPrice | FieldRating | FieldFavorites

  datatype SortOption = SortOption(caption: string, field: MarketField, dir: Dir)

  /** The menu entries, in menu order. */
  const SortOptions: seq<SortOption> := [
    SortOption("Newest", FieldCreatedAt, Desc),
    SortOption("Oldest", FieldCreatedAt, Asc),
    SortOption("Price: Low to High", FieldPrice, Asc),
    SortOption("Price: High to Low", FieldPrice, Desc),
    SortOption("Top Rated", FieldRating, Desc),
    SortOption("Most Favorited", FieldFavorites, Desc)
  ]

  predicate Selects(o: SortOption, field: MarketField, dir: Dir) {
    o.field == field && o.dir == dir
  }

  /** `options.find(...)`: the first entry for `field` and `dir`. */
  function FindOption(options: seq<SortOption>, field: MarketField, dir: Dir): Option<SortOption> {
    FindFirst(options, (o: SortOption) => Selects(o, field, dir))
  }

  /** No two entries share a field and a direction. */
  ghost predicate PairsUnique(options: seq<SortOption>) {
    forall i, j :: 0 <= i < j < |options| ==> !Selects(options[i], options[j].field, options[j].dir)
  }

  /** In a menu without repeated pairs, `find` returns the one entry for its pair. */
  lemma FindOptionFindsEntry(options: seq<SortOption>, i: int)
    requires PairsUnique(options) && 0 <= i < |options|
    ensures FindOption(options, options[i].field, options[i].dir) == Some(options[i])
  {
    FindFirstFinds(options, (o: SortOption) => Selects(o, options[i].field, options[i].dir), i);
  }

  lemma SortOptionsUnique()
    ensures PairsUnique(SortOptions)
  {
  }

  /** The label on the sort button: that of the entry for the current
      field and direction, or "Newest" when there is none. */
  function SortLabel(field: MarketField, dir: Dir): (s: string)
    ensures forall i :: 0 <= i < |SortOptions| && Selects(SortOptions[i], field, dir) ==> s == SortOptions[i].caption
    ensures (forall i :: 0 <= i < |SortOptions| ==> !Selects(SortOptions[i], field, dir)) ==> s == "Newest"
  {
    SortOptionsUnique();
    assert forall i :: 0 <= i < |SortOptions| && Selects(SortOptions[i], field, dir) ==>
      FindOption(SortOptions, field, dir) == Some(SortOptions[i]) by {
      forall i | 0 <= i < |SortOptions| && Selects(SortOptions[i], field, dir)
        ensures FindOption(SortOptions, field, dir) == Some(SortOptions[i])
      {
        FindOptionFindsEntry(SortOptions, i);
      }
    }
    var m := FindOption(SortOptions, field, dir);
    if m.Some? then m.value.caption else SortOptions[0].caption
  }

  /** Picking a menu entry shows that entry's label; the two pairs the menu
      does not offer (rating or favourites ascending) show "Newest". */
  lemma SortLabelOfSelection(i: int)
    requires 0 <= i < |SortOptions|
    ensures SortLabel(SortOptions[i].field, SortOptions[i].dir) == SortOptions[i].caption
    ensures SortLabel(FieldRating, Asc) == "Newest" && SortLabel(FieldFavorites, Asc) == "Newest"
  {
    assert Selects(SortOptions[i], SortOptions[i].field, SortOptions[i].dir);
    UnofferedPair(FieldRating);
    UnofferedPair(FieldFavorites);
  }

  /** Every menu entry for rating or favourites sorts descending. */
  lemma UnofferedPair(field: MarketField)
    requires field == FieldRating || field == FieldFavorites
    ensures forall i :: 0 <= i < |SortOptions| ==> !Selects(SortOptions[i], field, Asc)
  {
    forall i | 0 <= i < |SortOptions|
      ensures !Selects(SortOptions[i], field, Asc)
    {
      assert SortOptions[i].dir == Asc ==> i == 1 || i == 2;
    }
  }

  // ---------------------------------------------------------------------------
  // Request parameters
  // ---------------------------------------------------------------------------

  /** The category buttons, in display order. */
  const Categories: seq<string> := ["All", "Abstract", "Nature", "Typography", "Illustration",
                                    "Photography", "Minimalist", "Vintage", "Pop Culture"]

  datatype MarketRequest = MarketRequest(
    q: Option<string>,
    category: Option<string>,
    page: int,
    pageSize: int,
    field: MarketField,
    dir: Dir)

  /** `q: searchTerm.trim() || undefined`, `category: "All"` as no
      category, and always 12 rows. */
  function Request(searchTerm: string, category: string, page: int, field: MarketField, dir: Dir): (r: MarketRequest)
    ensures r.q.Some? <==> Trim(searchTerm) != ""
    ensures r.q.Some? ==> r.q.value == Trim(searchTerm)
    ensures r.category.None? <==> category == "All"
    ensures r.category.Some? ==> r.category.value == category
    ensures r.pageSize == MarketplacePageSize && r.page == page
  {
    var t := Trim(searchTerm);
    MarketRequest(if t == "" then None else Some(t), if category == "All" then None else Some(category),
                  page, MarketplacePageSize, field, dir)
  }

  /** The server trims the search again; that changes nothing, so it
      searches for what the buyer typed, trimmed, and sends no search
      exactly when the box is blank. */
  lemma ClientTrimAgreesWithServer(searchTerm: string, category: string, page: int, field: MarketField, dir: Dir)
    ensures NonBlank(Request(searchTerm, category, page, field, dir).q) == NonBlank(Some(searchTerm))
  {
    TrimIdempotent(searchTerm);
  }

  /** Every category button other than "All" names a category the
      server's category filter keeps as it is; "All" sends none. */
  lemma CategoryButtonsReachServer(i: int, searchTerm: string, page: int, field: MarketField, dir: Dir)
    requires 0 <= i < |Categories|
    ensures var c := Request(searchTerm, Categories[i], page, field, dir).category;
      DashboardController.CategoryFilter(c) == (if i == 0 then None else Some(Categories[i]))
  {
    if i > 0 {
      CategoryNameUnpadded(i);
      TrimUnpadded(Categories[i]);
    }
  }

  lemma CategoryNameUnpadded(i: int)
    requires 1 <= i < |Categories|
    ensures var name := Categories[i];
      |name| > 0 && !IsSpace(name[0]) && !IsSpace(name[|name| - 1]) && name[0] != 'a'
  {
  }

  // ---------------------------------------------------------------------------
  // The listed designs
  // ---------------------------------------------------------------------------

  datatype MarketState<D> = MarketState(
    designs: seq<D>,
    total: int,
    totalPages: int,
    page: int,
    pageSize: int,
    loading: bool,
    loadingMore: bool,
    error: Option<string>)

  /** No designs, no pages yet, page 1 of 12 rows. */
  function InitialMarket<D>(): (s: MarketState<D>)
    ensures s.designs == [] && s.page == 1 && s.pageSize == MarketplacePageSize
    ensures !s.loading && !s.loadingMore && s.error.None?
  {
    MarketState([], 0, 0, 1, MarketplacePageSize, false, false, None)
  }

  /** The fields of a successful response the reducer reads. */
  datatype MarketPage<D> = MarketPage(designs: seq<D>, total: int, totalPages: int, page: int, pageSize: int)

  const LoadError := "Unable to load marketplace designs. Please try again."

  /** Before the request: a replace fetch empties the list and shows the
      requested page; an append fetch keeps the list. Both clear the error. */
  function BeginFetch<D>(s: MarketState<D>, page: int, append: bool): (r: MarketState<D>)
    ensures r.error.None?
    ensures !append ==> r.designs == [] && r.page == page && r.loading && r.loadingMore == s.loadingMore
    ensures append ==> r.designs == s.designs && r.page == s.page && r.loadingMore && r.loading == s.loading
    ensures r.total == s.total && r.totalPages == s.totalPages
  {
    if !append then s.(loading := true, designs := [], page := page, error := None)
    else s.(loadingMore := true, error := None)
  }

  /** After the request: a response (`Some`) replaces or extends the list
      and takes the response's counters; a failure (`None`) sets the error
      and keeps the rest. Either way the loading flag of this mode is cleared. */
  function EndFetch<D>(s: MarketState<D>, append: bool, response: Option<MarketPage<D>>): (r: MarketState<D>)
    ensures append ==> !r.loadingMore && r.loading == s.loading
    ensures !append ==> !r.loading && r.loadingMore == s.loadingMore
    ensures r.error.Some? <==> response.None?
    ensures response.None? ==> r.designs == s.designs && r.page == s.page && r.totalPages == s.totalPages
    ensures response.Some? ==> r.page == response.value.page && r.totalPages == response.value.totalPages
  {
    var t :=
      if response.None? then s.(error := Some(LoadError))
      else
        var p := response.value;
        s.(designs := if append then s.designs + p.designs else p.designs,
           total := p.total, totalPages := p.totalPages, page := p.page, pageSize := p.pageSize,
           error := None);
    if append then t.(loadingMore := false) else t.(loading := false)
  }

  /** `fetchMarketplacePage(page, append)`, from start to finish. */
  function Fetch<D>(s: MarketState<D>, page: int, append: bool, response: Option<MarketPage<D>>): MarketState<D> {
    EndFetch(BeginFetch(s, page, append), append, response)
  }

  /** A replace fetch shows exactly the response's designs, or, when it
      fails, nothing but the error. */
  lemma ReplaceFetch<D>(s: MarketState<D>, page: int, response: Option<MarketPage<D>>)
    ensures var r := Fetch(s, page, false, response);
      && !r.loading
      && (response.Some? ==> r.designs == response.value.designs && r.error.None?)
      && (response.None? ==> r.designs == [] && r.page == page && r.error == Some(LoadError))
  {
  }

  /** An append fetch keeps every design already listed, in place, and
      adds the response's designs after them; a failed one keeps the list. */
  lemma AppendFetch<D>(s: MarketState<D>, page: int, response: Option<MarketPage<D>>)
    ensures var r := Fetch(s, page, true, response);
      && !r.loadingMore
      && |s.designs| <= |r.designs|
      && r.designs[..|s.designs|] == s.designs
      && (response.Some? ==> r.designs[|s.designs|..] == response.value.designs)
      && (response.None? ==> r.designs == s.designs && r.error.Some?)
  {
    var r := Fetch(s, page, true, response);
    if response.Some? {
      assert r.designs == s.designs + response.value.designs;
    }
  }

  // ---------------------------------------------------------------------------
  // Load more and the derived view flags
  // ---------------------------------------------------------------------------

  predicate HasMore<D>(s: MarketState<D>) {
    s.page < s.totalPages
  }

  /** The page "load more" asks for, if it asks at all. */
  function LoadMore<D>(s: MarketState<D>): (next: Option<int>)
    ensures next.Some? <==> !s.loadingMore && HasMore(s)
    ensures next.Some? ==> next.value == s.page + 1 && next.value <= s.totalPages
  {
    if s.loadingMore || s.page >= s.totalPages then None else Some(s.page + 1)
  }

  /** When the server answers the page asked for with an unchanged page
      count, load more advances one page and appends: the pages still to
      load shrink by one, so repeated loading ends at the last page. */
  lemma LoadMoreAdvances<D>(s: MarketState<D>, response: MarketPage<D>)
    requires LoadMore(s).Some?
    requires response.page == LoadMore(s).value && response.totalPages == s.totalPages
    ensures var r := Fetch(s, LoadMore(s).value, true, Some(response));
      && r.page == s.page + 1
      && r.totalPages - r.page == s.totalPages - s.page - 1 >= 0
      && r.designs == s.designs + response.designs
      && (r.page == r.totalPages ==> LoadMore(r).None?)
  {
  }

  predicate ShowEmptyState<D>(s: MarketState<D>) {
    !s.loading && |s.designs| == 0 && s.error.None?
  }

  predicate ShowSkeleton<D>(s: MarketState<D>) {
    s.loading && |s.designs| == 0
  }

  /** After a replace fetch the empty state shows exactly when the server
      answered with no designs; a failure shows the error instead, and the
      skeleton is gone either way. */
  lemma EmptyStateAfterReplace<D>(s: MarketState<D>, page: int, response: Option<MarketPage<D>>)
    ensures var r := Fetch(s, page, false, response);
      && (ShowEmptyState(r) <==> response.Some? && response.value.designs == [])
      && !ShowSkeleton(r)
  {
  }

  /** While a replace fetch is in flight the list is empty and the
      skeleton, not the empty state, is shown. */
  lemma SkeletonWhileLoading<D>(s: MarketState<D>, page: int)
    ensures var r := BeginFetch(s, page, false);
      ShowSkeleton(r) && !ShowEmptyState(r)
  {
  }
}

=== FILE: dashboard_controller.dfy ===
/**
 The dashboard endpoints of the server: the admin overview counters, the
 buyer's marketplace catalogue (normalise the query, filter the published
 designs, order them, cut a page and mark the caller's favourites), and
 the favourite toggle.
 */
module DashboardController {
  import opened Prelude
  import opened Text
  import opened Ordering
  import opened Store

  // ---------------------------------------------------------------------------
  // getAdminOverview
  // ---------------------------------------------------------------------------

  datatype Overview = Overview(users: nat, freelancers: nat, designs: nat, orders: nat, pendingApprovals: nat)

  datatype OverviewReply = OverviewReply(code: int, overview: Overview)

  function HasStatus(s: AppStatus): Application -> bool {
    (a: Application) => a.status == s
  }

  /** The three counts are separate store calls (0, 1, 2); any failure
      answers 500 with every counter at zero. Designs and orders are not
      counted and are always zero. */
  function AdminOverview(db: Db, fault: Fault): (r: OverviewReply)
    ensures r.code == 200 || r.code == 500
    ensures r.code == 500 <==> ThrowsWithin(fault, 3)
    ensures r.code == 500 ==> r.overview == Overview(0, 0, 0, 0, 0)
    ensures r.overview.designs == 0 && r.overview.orders == 0
    ensures r.code == 200 ==> r.overview.users == |db.users|
    ensures r.overview.freelancers + r.overview.pendingApprovals <= |db.applications|
  {
    if ThrowsWithin(fault, 3) then OverviewReply(500, Overview(0, 0, 0, 0, 0))
    else
      StatusCountsPartition(db.applications);
      OverviewReply(200, Overview(|db.users|, Count(db.applications, HasStatus(Approved)), 0, 0,
                                  Count(db.applications, HasStatus(Pending))))
  }

  /** Every application is in exactly one status, so the per-status counts
      add up to the number of applications. */
  lemma {:induction false} StatusCountsPartition(apps: seq<Application>)
    ensures Count(apps, HasStatus(Pending)) + Count(apps, HasStatus(Approved))
          + Count(apps, HasStatus(Rejected)) == |apps|
    decreases |apps|
  {
    if |apps| > 0 {
      StatusCountsPartition(apps[1..]);
    }
  }

  /** The overview's `freelancers` counts the APPROVED applications and
      `pendingApprovals` the PENDING ones: each counter goes up by one for
      an application with its status and is untouched by any other. */
  lemma OverviewCountsByStatus(db: Db, a: Application)
    ensures var before := AdminOverview(db, NoFault).overview;
      var after := AdminOverview(db.(applications := [a] + db.applications), NoFault).overview;
      && after.freelancers == before.freelancers + (if a.status == Approved then 1 else 0)
      && after.pendingApprovals == before.pendingApprovals + (if a.status == Pending then 1 else 0)
  {
    assert ([a] + db.applications)[1..] == db.applications;
  }

  // ---------------------------------------------------------------------------
  // getMarketplaceDesigns: query normalisation
  // ---------------------------------------------------------------------------

  const DefaultPageSize: int := 12
  const MaxPageSize: int := 48

  /** `Math.max(parseInt(page, 10) || 1, 1)` with `page` defaulting to "1"
      only when it is absent. */
  function MarketPageParam(raw: Option<string>): (p: int)
    ensures p >= 1
    ensures ParseInt(raw.GetOr("1")).Num? && ParseInt(raw.GetOr("1")).n >= 1 ==>
      p == ParseInt(raw.GetOr("1")).n
  {
    var n := JsOr(ParseInt(raw.GetOr("1")), 1);
    if n >= 1 then n else 1
  }

  /** `Math.min(48, Math.max(parseInt(pageSize, 10) || 12, 1))` with
      `pageSize` defaulting to "12" only when it is absent. */
  function MarketPageSizeParam(raw: Option<string>): (s: int)
    ensures 1 <= s <= MaxPageSize
    ensures var n := ParseInt(raw.GetOr("12"));
      n.Num? && 1 <= n.n <= MaxPageSize ==> s == n.n
  {
    var n := JsOr(ParseInt(raw.GetOr("12")), DefaultPageSize);
    var atLeastOne := if n >= 1 then n else 1;
    if atLeastOne <= MaxPageSize then atLeastOne else MaxPageSize
  }

  /** How the page size falls back and clamps: `0` is falsy and so falls
      back to 12 instead of clamping to 1, as does a non-number; a negative
      number clamps to 1 and one above 48 to 48; an absent value is 12. */
  lemma MarketPageSizeClamps(raw: Option<string>)
    ensures var n := ParseInt(raw.GetOr("12"));
      && (n.NaN? || n.n == 0 ==> MarketPageSizeParam(raw) == DefaultPageSize)
      && (n.Num? && n.n < 0 ==> MarketPageSizeParam(raw) == 1)
      && (n.Num? && n.n > MaxPageSize ==> MarketPageSizeParam(raw) == MaxPageSize)
    ensures raw.None? ==> MarketPageSizeParam(raw) == DefaultPageSize
  {
    if raw.None? {
      ParseIntOfDigits("12");
    }
  }

  /** How the page falls back and clamps: a non-number, `0` or a negative
      number all give page 1, and so does an absent page. */
  lemma MarketPageClamps(raw: Option<string>)
    ensures var n := ParseInt(raw.GetOr("1"));
      n.NaN? || n.n < 1 ==> MarketPageParam(raw) == 1
    ensures raw.None? ==> MarketPageParam(raw) == 1
  {
    if raw.None? {
      ParseIntOfDigits("1");
    }
  }

  /** The string "0" is a page size of 12, not 1. */
  lemma MarketPageSizeZero()
    ensures MarketPageSizeParam(Some("0")) == DefaultPageSize
  {
    ParseIntOfDigits("0");
    MarketPageSizeClamps(Some("0"));
  }

  datatype MarketSort = Newest | PriceAsc | PriceDesc | Rating

  function MarketSortName(s: MarketSort): string {
    match s
    case Newest => "newest"
    case PriceAsc => "priceAsc"
    case PriceDesc => "priceDesc"
    case Rating => "rating"
  }

  /** The allow-listed sort options; anything else, or none, is `newest`. */
  function MarketSortParam(raw: Option<string>): (s: MarketSort)
    ensures raw.None? || raw.value !in {"newest", "priceAsc", "priceDesc", "rating"} ==> s == Newest
    ensures raw.Some? && s != Newest ==> raw.value == MarketSortName(s)
  {
    match raw.GetOr("newest")
    case "priceAsc" => PriceAsc
    case "priceDesc" => PriceDesc
    case "rating" => Rating
    case _ => Newest
  }

  /** Each option's own name selects it. */
  lemma MarketSortRoundTrip(s: MarketSort)
    ensures MarketSortParam(Some(MarketSortName(s))) == s
  {
  }

  /** The order of each option: newest and rating descend, price either way. */
  function MarketKey(s: MarketSort): Design -> seq<int> {
    (d: Design) =>
      match s
      case Newest => IntKey(d.createdAt)
      case PriceAsc => IntKey(d.price)
      case PriceDesc => IntKey(d.price)
      case Rating => [d.averageRating, d.reviewCount, d.createdAt]
  }

  function MarketDir(s: MarketSort): Dir {
    if s == PriceAsc then Asc else Desc
  }

  /** Under `rating`, a design comes first when it has the higher average
      rating, then on a tie the more reviews, then on a tie the later
      creation time. */
  lemma RatingOrder(a: Design, b: Design)
    ensures Precedes(MarketKey(Rating)(a), MarketKey(Rating)(b), MarketDir(Rating)) <==>
      a.averageRating > b.averageRating
      || (a.averageRating == b.averageRating && a.reviewCount > b.reviewCount)
      || (a.averageRating == b.averageRating && a.reviewCount == b.reviewCount && a.createdAt >= b.createdAt)
  {
    var ka := [a.averageRating, a.reviewCount, a.createdAt];
    var kb := [b.averageRating, b.reviewCount, b.createdAt];
    assert MarketKey(Rating)(a) == ka && MarketKey(Rating)(b) == kb;
    assert LexLe(kb, ka) == (if kb[0] != ka[0] then kb[0] < ka[0] else LexLe(kb[1..], ka[1..]));
    var kb1, ka1 := kb[1..], ka[1..];
    assert kb1 == [b.reviewCount, b.createdAt] && ka1 == [a.reviewCount, a.createdAt];
    assert LexLe(kb1, ka1) == (if kb1[0] != ka1[0] then kb1[0] < ka1[0] else LexLe(kb1[1..], ka1[1..]));
    var kb2, ka2 := kb1[1..], ka1[1..];
    assert kb2 == [b.createdAt] && ka2 == [a.createdAt];
    assert LexLe(kb2, ka2) == (if kb2[0] != ka2[0] then kb2[0] < ka2[0] else LexLe(kb2[1..], ka2[1..]));
    assert LexLe(kb2[1..], ka2[1..]);
  }

  /** The filters of one marketplace request. `category` is the slug that
      is actually applied: a blank slug or "all" applies none. */
  datatype MarketQuery = MarketQuery(
    q: Option<string>,
    category: Option<string>,
    page: int,
    pageSize: int,
    sort: MarketSort)

  /** The trimmed category slug, kept only when it filters. */
  function CategoryFilter(raw: Option<string>): (c: Option<string>)
    ensures c.Some? <==> NonBlank(raw).Some? && NonBlank(raw).value != "all"
    ensures c.Some? ==> c.value == Trim(raw.value)
  {
    var slug := NonBlank(raw);
    if slug.Some? && slug.value != "all" then slug else None
  }

  function MarketQueryOf(query: map<string, string>): MarketQuery {
    MarketQuery(
      NonBlank(Lookup(query, "q")),
      CategoryFilter(Lookup(query, "category")),
      MarketPageParam(Lookup(query, "page")),
      MarketPageSizeParam(Lookup(query, "pageSize")),
      MarketSortParam(Lookup(query, "sort")))
  }

  predicate InCategory(d: Design, slug: string) {
    exists i :: 0 <= i < |d.categories| && d.categories[i].slug == slug
  }

  /** The `where` of the count and the page query. */
  predicate DesignMatches(mq: MarketQuery, d: Design) {
    && d.isPublished
    && (mq.q.None? || ContainsInsensitive(d.title, mq.q.value) || ContainsInsensitive(d.description, mq.q.value))
    && (mq.category.None? || InCategory(d, mq.category.value))
  }

  function DesignFilter(mq: MarketQuery): Design -> bool {
    (d: Design) => DesignMatches(mq, d)
  }

  /** Two queries that agree on every parameter but the category, and whose
      categories filter alike, are the same query. */
  lemma SameMarketQuery(a: map<string, string>, b: map<string, string>)
    requires forall k :: k != "category" ==> Lookup(a, k) == Lookup(b, k)
    requires CategoryFilter(Lookup(a, "category")) == CategoryFilter(Lookup(b, "category"))
    ensures MarketQueryOf(a) == MarketQueryOf(b)
  {
    assert Lookup(a, "q") == Lookup(b, "q");
    assert Lookup(a, "page") == Lookup(b, "page");
    assert Lookup(a, "pageSize") == Lookup(b, "pageSize");
    assert Lookup(a, "sort") == Lookup(b, "sort");
  }

  /** A category that trims to "all" or to nothing is the same query as
      no category at all; any other category filters by its trimmed slug. */
  lemma CategoryAllIsNoFilter(query: map<string, string>, raw: string)
    ensures Trim(raw) == "" || Trim(raw) == "all" ==>
      MarketQueryOf(query["category" := raw]) == MarketQueryOf(query - {"category"})
    ensures Trim(raw) != "" && Trim(raw) != "all" ==>
      MarketQueryOf(query["category" := raw]).category == Some(Trim(raw))
  {
    var given := query["category" := raw];
    var none := query - {"category"};
    assert Lookup(given, "category") == Some(raw);
    if Trim(raw) == "" || Trim(raw) == "all" {
      assert CategoryFilter(Lookup(none, "category")) == None;
      assert CategoryFilter(Lookup(given, "category")) == None;
      SameMarketQuery(given, none);
    }
  }

  /** The marketplace search ignores letter case: a term, its upper-case
      and its lower-case form select the same designs; and a term selects
      a design exactly when the design is published, in the category
      asked for, and the lower-cased term occurs somewhere in its
      lower-cased title or description. */
  lemma SearchIgnoresCase(mq: MarketQuery, d: Design, term: string)
    ensures DesignMatches(mq.(q := Some(Upper(term))), d) <==> DesignMatches(mq.(q := Some(term)), d)
    ensures DesignMatches(mq.(q := Some(Lower(term))), d) <==> DesignMatches(mq.(q := Some(term)), d)
    ensures DesignMatches(mq.(q := Some(term)), d) <==>
      && d.isPublished
      && ((exists i :: OccursAt(Lower(d.title), Lower(term), i))
          || (exists i :: OccursAt(Lower(d.description), Lower(term), i)))
      && (mq.category.None? || InCategory(d, mq.category.value))
  {
    LowerForgetsCase(term);
    ContainsIffOccurs(Lower(d.title), Lower(term));
    ContainsIffOccurs(Lower(d.description), Lower(term));
  }

  /** Searching "sunset" or "SUNSET" picks "Sunset Horizon" and not
      "Midnight Run": the search ignores letter case. */
  lemma SunsetSearch(q: string)
    requires q == "sunset" || q == "SUNSET"
    ensures var mq := MarketQuery(Some(q), None, 1, DefaultPageSize, Newest);
      DesignMatches(mq, Design("d1", "Sunset Horizon", "", 2500, 0, 0, 1, true, []))
      && !DesignMatches(mq, Design("d2", "Midnight Run", "", 2500, 0, 0, 2, true, []))
  {
    assert Lower(q) == "sunset";
    assert ContainsInsensitive("Sunset Horizon", q) by {
      var h := Lower("Sunset Horizon");
      assert h[..6] == "sunset";
    }
    assert !ContainsInsensitive("Midnight Run", q) by {
      var m := Lower("Midnight Run");
      assert forall i :: 0 <= i < |m| ==> m[i] != 's';
      forall i
        ensures !OccursAt(m, "sunset", i)
      {
        if 0 <= i && i + 6 <= |m| {
          assert m[i..i + 6][0] == m[i];
        }
      }
      ContainsIffOccurs(m, "sunset");
    }
    assert !ContainsInsensitive("", q);
  }

  // ---------------------------------------------------------------------------
  // getMarketplaceDesigns: the reply
  // ---------------------------------------------------------------------------

  /** The number of users who favourited design `designId`. */
  function FavoriteCount(favorites: set<Favorite>, designId: Id): nat {
    |set f | f in favorites && f.designId == designId|
  }

  /** A design as the marketplace lists it for the requesting user. */
  datatype DesignCard = DesignCard(design: Design, isFavorite: bool, favoritesCount: nat)

  /** `isFavorite` is "the user's own favourite rows for this design are
      not empty"; `favoritesCount` counts everyone's. */
  function Card(d: Design, favorites: set<Favorite>, userId: Id): (c: DesignCard)
    ensures c.design == d
    ensures c.isFavorite <==> Favorite(d.id, userId) in favorites
    ensures c.favoritesCount == FavoriteCount(favorites, d.id)
  {
    var own := set f | f in favorites && f.designId == d.id && f.userId == userId;
    assert Favorite(d.id, userId) in favorites ==> Favorite(d.id, userId) in own;
    DesignCard(d, |own| > 0, FavoriteCount(favorites, d.id))
  }

  /** Every design of a page, as a card for `userId`. */
  function Cards(items: seq<Design>, favorites: set<Favorite>, userId: Id): (cs: seq<DesignCard>)
    ensures |cs| == |items|
    ensures forall i :: 0 <= i < |items| ==> cs[i] == Card(items[i], favorites, userId)
  {
    if |items| == 0 then [] else [Card(items[0], favorites, userId)] + Cards(items[1..], favorites, userId)
  }

  /** The cards of a page are the same page of the cards. */
  lemma CardsOfPage(items: seq<Design>, ordered: seq<Design>, page: int, size: int,
                    favorites: set<Favorite>, userId: Id)
    requires page >= 1 && size >= 1
    requires IsPage(items, ordered, page, size)
    ensures IsPage(Cards(items, favorites, userId), Cards(ordered, favorites, userId), page, size)
  {
    var skip := Offset(page, size);
    var cs := Cards(items, favorites, userId);
    var all := Cards(ordered, favorites, userId);
    if skip < |ordered| {
      var slice := all[skip..skip + Min(size, |ordered| - skip)];
      assert |cs| == |slice|;
      forall i | 0 <= i < |cs|
        ensures cs[i] == slice[i]
      {
        assert items[i] == ordered[skip + i];
      }
    }
  }

  datatype Pagination = Pagination(page: int, pageSize: int, total: nat, totalPages: int)

  datatype MarketReply =
    | MarketUnauthorized
    | MarketFailed(designs: seq<DesignCard>, availableCategories: seq<Category>, pagination: Pagination)
    | MarketOk(designs: seq<DesignCard>, availableCategories: seq<Category>, pagination: Pagination)

  function CategoryName(c: Category): seq<int> {
    StringKey(c.name)
  }

  /** `GET /dashboard/marketplace` for user `userId` (`None` when the
      request carries no user). The count, the page and the category list
      are three store calls (0, 1, 2). */
  function MarketplaceDesigns(db: Db, userId: Option<Id>, query: map<string, string>, fault: Fault)
    : (r: MarketReply)
    ensures r.MarketUnauthorized? <==> userId.None? || userId.value == ""
    ensures r.MarketFailed? <==> userId.Some? && userId.value != "" && ThrowsWithin(fault, 3)
    ensures r.MarketFailed? ==>
      r.designs == [] && r.availableCategories == [] && r.pagination == Pagination(1, DefaultPageSize, 0, 1)
  {
    if userId.None? || userId.value == "" then MarketUnauthorized
    else if ThrowsWithin(fault, 3) then MarketFailed([], [], Pagination(1, DefaultPageSize, 0, 1))
    else
      var mq := MarketQueryOf(query);
      var l := ListPage(db.designs, DesignFilter(mq), MarketKey(mq.sort), MarketDir(mq.sort), mq.page, mq.pageSize);
      var cards := Cards(l.items, db.favorites, userId.value);
      var categories := SortBy(db.categories, CategoryName, Asc);
      MarketOk(cards, categories, Pagination(l.page, l.pageSize, l.total, TotalPages(l.total, l.pageSize)))
  }

  /** The successful reply, spelled out from the listing it is made of. */
  lemma MarketplaceOkShape(db: Db, userId: Id, query: map<string, string>)
    requires userId != ""
    ensures var mq := MarketQueryOf(query);
      var l := ListPage(db.designs, DesignFilter(mq), MarketKey(mq.sort), MarketDir(mq.sort), mq.page, mq.pageSize);
      MarketplaceDesigns(db, Some(userId), query, NoFault)
        == MarketOk(Cards(l.items, db.favorites, userId), SortBy(db.categories, CategoryName, Asc),
                    Pagination(l.page, l.pageSize, l.total, TotalPages(l.total, l.pageSize)))
  {
  }

  /** A successful reply is a page of at most `pageSize` (at most 48)
      published designs matching the search and category; `total` counts
      all matching designs; `isFavorite` says whether the caller
      favourited the design. The cards are those of the `skip`/`take`
      slice of the ordered matches, full-length while matches remain and
      empty past the end. The page count is the one `TotalPages`
      computes: the least count, at least 1, whose pages hold every match. */
  lemma MarketplacePage(db: Db, userId: Id, query: map<string, string>)
    requires userId != ""
    ensures var r := MarketplaceDesigns(db, Some(userId), query, NoFault);
      var mq := MarketQueryOf(query);
      && r.MarketOk?
      && r.pagination.page == mq.page >= 1
      && 1 <= r.pagination.pageSize == mq.pageSize <= MaxPageSize
      && r.pagination.total == |Filter(db.designs, DesignFilter(mq))|
      && |r.designs| <= r.pagination.pageSize && |r.designs| <= r.pagination.total
      && r.pagination.totalPages == TotalPages(r.pagination.total, r.pagination.pageSize)
      && (var ordered := SortBy(Filter(db.designs, DesignFilter(mq)), MarketKey(mq.sort), MarketDir(mq.sort));
          |ordered| == r.pagination.total && IsPage(r.designs, Cards(ordered, db.favorites, userId), mq.page, mq.pageSize))
      && (forall i :: 0 <= i < |r.designs| ==>
            var c := r.designs[i];
            c.design in db.designs && c.design.isPublished && DesignMatches(mq, c.design)
            && (c.isFavorite <==> Favorite(c.design.id, userId) in db.favorites)
            && c.favoritesCount == FavoriteCount(db.favorites, c.design.id))
  {
    MarketplaceOkShape(db, userId, query);
    var mq := MarketQueryOf(query);
    var l := ListPage(db.designs, DesignFilter(mq), MarketKey(mq.sort), MarketDir(mq.sort), mq.page, mq.pageSize);
    var cs := Cards(l.items, db.favorites, userId);
    forall i | 0 <= i < |cs|
      ensures cs[i].design in db.designs && cs[i].design.isPublished && DesignMatches(mq, cs[i].design)
      ensures cs[i].isFavorite <==> Favorite(cs[i].design.id, userId) in db.favorites
      ensures cs[i].favoritesCount == FavoriteCount(db.favorites, cs[i].design.id)
    {
      var d := l.items[i];
      assert cs[i] == Card(d, db.favorites, userId);
      assert d in db.designs && DesignMatches(mq, d);
    }
    CardsOfPage(l.items, SortBy(Filter(db.designs, DesignFilter(mq)), MarketKey(mq.sort), MarketDir(mq.sort)),
                mq.page, mq.pageSize, db.favorites, userId);
  }

  /** The designs of a successful reply come in the requested order, and
      the categories are all categories, ordered by name. */
  lemma MarketplaceOrder(db: Db, userId: Id, query: map<string, string>)
    requires userId != ""
    ensures var r := MarketplaceDesigns(db, Some(userId), query, NoFault);
      var mq := MarketQueryOf(query);
      && r.MarketOk?
      && (forall i, j :: 0 <= i < j < |r.designs| ==>
            Precedes(MarketKey(mq.sort)(r.designs[i].design), MarketKey(mq.sort)(r.designs[j].design),
                     MarketDir(mq.sort)))
      && multiset(r.availableCategories) == multiset(db.categories)
      && SortedBy(r.availableCategories, CategoryName, Asc)
  {
    MarketplaceOkShape(db, userId, query);
    var mq := MarketQueryOf(query);
    var l := ListPage(db.designs, DesignFilter(mq), MarketKey(mq.sort), MarketDir(mq.sort), mq.page, mq.pageSize);
    var cs := Cards(l.items, db.favorites, userId);
    forall i, j | 0 <= i < j < |cs|
      ensures Precedes(MarketKey(mq.sort)(cs[i].design), MarketKey(mq.sort)(cs[j].design), MarketDir(mq.sort))
    {
      assert cs[i].design == l.items[i] && cs[j].design == l.items[j];
    }
  }

  // ---------------------------------------------------------------------------
  // toggleDesignFavorite
  // ---------------------------------------------------------------------------

  /** The state of the favourite after a successful toggle. */
  datatype FavoriteState = FavoriteState(isFavorite: bool, favoritesCount: nat)

  datatype ToggleOutcome = ToggleOutcome(db: Db, reply: Reply, state: Option<FavoriteState>)

  predicate IsPublishedDesign(designs: seq<Design>, id: Id) {
    exists i :: 0 <= i < |designs| && designs[i].id == id && designs[i].isPublished
  }

  /** `POST /dashboard/designs/:designId/favorite`. Store calls: the design
      lookup (0), the favourite lookup (1), the delete or create (2) and
      the count (3). A failing count comes after the write has happened. */
  function ToggleFavorite(db: Db, userId: Option<Id>, designId: Id, fault: Fault): (o: ToggleOutcome)
    ensures o.reply.code in {200, 400, 401, 404, 500}
    ensures o.state.Some? <==> o.reply.code == 200
    ensures o.reply.code == 401 <==> userId.None? || userId.value == ""
    ensures o.reply.code == 400 <==> userId.Some? && userId.value != "" && designId == ""
    ensures o.reply.code in {400, 401, 404} ==> o.db == db
    ensures o.reply.code == 404 ==> !IsPublishedDesign(db.designs, designId)
    ensures var ok := userId.Some? && userId.value != "" && designId != "";
      o.reply.code == 404 <==> ok && !ThrowsWithin(fault, 1) && !IsPublishedDesign(db.designs, designId)
    ensures var ok := userId.Some? && userId.value != "" && designId != "";
      o.reply.code == 200 <==> ok && IsPublishedDesign(db.designs, designId) && !ThrowsWithin(fault, 4)
    ensures o.db.(favorites := db.favorites) == db
  {
    if userId.None? || userId.value == "" then ToggleOutcome(db, Reply(401, "Unauthorized."), None)
    else if designId == "" then ToggleOutcome(db, Reply(400, "Design ID is required."), None)
    else if ThrowsWithin(fault, 1) then ToggleOutcome(db, Reply(500, "Failed to update favorite."), None)
    else if !IsPublishedDesign(db.designs, designId) then ToggleOutcome(db, Reply(404, "Design not found."), None)
    else if ThrowsWithin(fault, 3) then ToggleOutcome(db, Reply(500, "Failed to update favorite."), None)
    else
      var f := Favorite(designId, userId.value);
      var existing := f in db.favorites;
      var favorites := if existing then db.favorites - {f} else db.favorites + {f};
      var db1 := db.(favorites := favorites);
      if ThrowsWithin(fault, 4) then ToggleOutcome(db1, Reply(500, "Failed to update favorite."), None)
      else
        ToggleOutcome(db1, Reply(200, if existing then "Removed from favorites." else "Added to favorites."),
                      Some(FavoriteState(!existing, FavoriteCount(favorites, designId))))
  }

  /** The count of a design after adding or removing one user's favourite. */
  lemma FavoriteCountStep(favorites: set<Favorite>, f: Favorite)
    ensures f !in favorites ==> FavoriteCount(favorites + {f}, f.designId) == FavoriteCount(favorites, f.designId) + 1
    ensures f in favorites ==> FavoriteCount(favorites - {f}, f.designId) == FavoriteCount(favorites, f.designId) - 1
  {
    var d := f.designId;
    var s := set g | g in favorites && g.designId == d;
    if f !in favorites {
      assert (set g | g in favorites + {f} && g.designId == d) == s + {f};
    } else {
      assert (set g | g in favorites - {f} && g.designId == d) == s - {f};
    }
  }

  /** Without a store failure a toggle by a signed-in user succeeds exactly
      for a published design, and it then flips exactly the caller's pair:
      it is present afterwards iff it was absent before, `isFavorite`
      reports the new state, and the count moves by one in that direction. */
  lemma ToggleFlips(db: Db, userId: Id, designId: Id)
    ensures ToggleFavorite(db, Some(userId), designId, NoFault).reply.code == 200 <==>
      userId != "" && designId != "" && IsPublishedDesign(db.designs, designId)
    ensures var o := ToggleFavorite(db, Some(userId), designId, NoFault);
      var f := Favorite(designId, userId);
      o.reply.code == 200 ==>
        && (f in o.db.favorites <==> f !in db.favorites)
        && o.db.favorites - {f} == db.favorites - {f}
        && o.state.value.isFavorite == (f in o.db.favorites)
        && o.state.value.favoritesCount ==
             FavoriteCount(db.favorites, designId) + (if f in db.favorites then -1 else 1)
  {
    FavoriteCountStep(db.favorites, Favorite(designId, userId));
  }

  /** Toggling twice restores the favourites and the count. */
  lemma ToggleTwiceRestores(db: Db, userId: Id, designId: Id)
    ensures var o1 := ToggleFavorite(db, Some(userId), designId, NoFault);
      var o2 := ToggleFavorite(o1.db, Some(userId), designId, NoFault);
      o1.reply.code == 200 ==>
        && o2.reply.code == 200
        && o2.db == db
        && o2.state.value.favoritesCount == FavoriteCount(db.favorites, designId)
        && o2.state.value.isFavorite == (Favorite(designId, userId) in db.favorites)
  {
    var f := Favorite(designId, userId);
    var o1 := ToggleFavorite(db, Some(userId), designId, NoFault);
    if o1.reply.code == 200 {
      assert o1.db.designs == db.designs;
      if f in db.favorites {
        assert db.favorites - {f} + {f} == db.favorites;
      } else {
        assert db.favorites + {f} - {f} == db.favorites;
      }
    }
  }
}

=== FILE: design_store.dfy ===
/**
 The client's designer store: the design being edited, a partial record
 that edits merge into, and the list of saved designs.
 A partial record is a map from field names to values; a field is present
 exactly when it has been given a value.
 */
module DesignStore {
  import opened Prelude

  datatype Size = XS | S | M | L | XL | XXL

  datatype Style = CrewNeck | VNeck | TankTop | LongSleeve

  datatype TextItem = TextItem(content: string, x: int, y: int, fontSize: int, color: string, fontFamily: string)

  datatype Field = Id | Name | FrontDesign | BackDesign | Texts | Color | SizeField | StyleField | Price | CreatedAt | UserId

  datatype Value = Str(s: string) | Number(n: int) | TextList(items: seq<TextItem>) | SizeValue(size: Size) | StyleValue(style: Style)

  /** `Partial<TShirtDesign>`. */
  type Draft = map<Field, Value>

  datatype TShirtDesign = TShirtDesign(
    id: string,
    name: string,
    frontDesign: Option<string>,
    backDesign: Option<string>,
    text: Option<seq<TextItem>>,
    color: string,
    size: Size,
    style: Style,
    price: int,
    createdAt: string,
    userId: string)

  /** The fields a complete design has: the required ones, and the
      optional ones it sets. */
  function AsDraft(d: TShirtDesign): (r: Draft)
    ensures Id in r && Name in r && Color in r && SizeField in r && StyleField in r
    ensures Price in r && CreatedAt in r && UserId in r
    ensures FrontDesign in r <==> d.frontDesign.Some?
    ensures BackDesign in r <==> d.backDesign.Some?
    ensures Texts in r <==> d.text.Some?
    ensures r[SizeField] == SizeValue(d.size) && r[StyleField] == StyleValue(d.style) && r[Color] == Str(d.color)
  {
    var required := map[Id := Str(d.id), Name := Str(d.name), Color := Str(d.color), SizeField := SizeValue(d.size),
                        StyleField := StyleValue(d.style), Price := Number(d.price), CreatedAt := Str(d.createdAt),
                        UserId := Str(d.userId)];
    var withFront := if d.frontDesign.Some? then required[FrontDesign := Str(d.frontDesign.value)] else required;
    var withBack := if d.backDesign.Some? then withFront[BackDesign := Str(d.backDesign.value)] else withFront;
    if d.text.Some? then withBack[Texts := TextList(d.text.value)] else withBack
  }

  /** White, size M, crew neck, no text. */
  const DefaultDraft: Draft := map[Color := Str("#ffffff"), SizeField := SizeValue(M), StyleField := StyleValue(CrewNeck),
                                   Texts := TextList([])]

  datatype DesignState = DesignState(current: Draft, saved: seq<TShirtDesign>)

  const InitialDesigns := DesignState(DefaultDraft, [])

  /** `{ ...currentDesign, ...updates }`: the named fields take the new
      values and every other field is kept. */
  function UpdateCurrentDesign(s: DesignState, updates: Draft): (r: DesignState)
    ensures r.saved == s.saved
    ensures r.current.Keys == s.current.Keys + updates.Keys
    ensures forall k :: k in updates ==> r.current[k] == updates[k]
    ensures forall k :: k in s.current && k !in updates ==> r.current[k] == s.current[k]
  {
    s.(current := s.current + updates)
  }

  /** Appends `design` to the saved list. */
  function SaveDesign(s: DesignState, design: TShirtDesign): (r: DesignState)
    ensures r.current == s.current
    ensures |r.saved| == |s.saved| + 1 && r.saved[..|s.saved|] == s.saved && r.saved[|s.saved|] == design
  {
    s.(saved := s.saved + [design])
  }

  /** Replaces the design being edited by `design`, wholesale. */
  function LoadDesign(s: DesignState, design: TShirtDesign): (r: DesignState)
    ensures r.saved == s.saved
    ensures r.current.Keys == AsDraft(design).Keys
    ensures forall k :: k in r.current ==> r.current[k] == AsDraft(design)[k]
  {
    s.(current := AsDraft(design))
  }

  /** Back to the defaults; the saved list is kept. */
  function ClearCurrentDesign(s: DesignState): (r: DesignState)
    ensures r.saved == s.saved
    ensures r.current.Keys == {Color, SizeField, StyleField, Texts}
    ensures r.current[Color] == Str("#ffffff") && r.current[SizeField] == SizeValue(M)
    ensures r.current[StyleField] == StyleValue(CrewNeck) && r.current[Texts] == TextList([])
  {
    s.(current := DefaultDraft)
  }

  /** An empty update changes nothing; an update applied twice is applied
      once; two updates in a row are one update with the later values
      winning. */
  lemma UpdateLaws(s: DesignState, a: Draft, b: Draft)
    ensures UpdateCurrentDesign(s, map[]) == s
    ensures UpdateCurrentDesign(UpdateCurrentDesign(s, a), a) == UpdateCurrentDesign(s, a)
    ensures UpdateCurrentDesign(UpdateCurrentDesign(s, a), b) == UpdateCurrentDesign(s, a + b)
  {
    var once := UpdateCurrentDesign(s, a);
    assert UpdateCurrentDesign(s, map[]).current == s.current;
    assert UpdateCurrentDesign(once, a).current == once.current;
    assert UpdateCurrentDesign(once, b).current == UpdateCurrentDesign(s, a + b).current;
  }

  /** Clearing forgets every edit and every loaded design, and a cleared
      store starts from the same design as a fresh one. */
  lemma ClearForgetsEdits(s: DesignState, updates: Draft, design: TShirtDesign)
    ensures ClearCurrentDesign(UpdateCurrentDesign(s, updates)) == ClearCurrentDesign(s)
    ensures ClearCurrentDesign(LoadDesign(s, design)) == ClearCurrentDesign(s)
    ensures ClearCurrentDesign(s).current == InitialDesigns.current
  {
  }

  /** Loading a design that was saved and then editing it never changes
      the saved list: saved designs are copies, not live references. */
  lemma SavedListOnlyGrows(s: DesignState, design: TShirtDesign, updates: Draft)
    ensures var r := UpdateCurrentDesign(LoadDesign(SaveDesign(s, design), design), updates);
      r.saved == s.saved + [design]
  {
  }
}

=== FILE: freelancers_controller.dfy ===
/**
 The freelancer-application endpoints a signed-in user calls: apply (create
 the user's one application, or reset it to PENDING) and read back the
 status of their own application.
 */
module FreelancersController {
  import opened Prelude
  import opened Store

  /** `req.body?.notes || undefined`: an empty note is no note. */
  function NotesParam(raw: Option<string>): (n: Option<string>)
    ensures n.Some? <==> raw.Some? && raw.value != ""
    ensures n.Some? ==> n.value == raw.value
  {
    if raw.Some? && raw.value != "" then raw else None
  }

  /** Writes `status := PENDING` and, when given, the notes to the
      application of `userId`; absent notes leave the stored ones. */
  function ResetToPending(apps: seq<Application>, userId: Id, notes: Option<string>): (r: seq<Application>)
    ensures |r| == |apps|
    ensures forall i :: 0 <= i < |apps| ==>
      r[i] == (if apps[i].userId == userId
               then apps[i].(status := Pending, notes := if notes.Some? then notes else apps[i].notes)
               else apps[i])
  {
    seq(|apps|, i requires 0 <= i < |apps| =>
      if apps[i].userId == userId
      then apps[i].(status := Pending, notes := if notes.Some? then notes else apps[i].notes)
      else apps[i])
  }

  /** `POST /freelancers/apply` for user `userId` (`None` without a
      signed-in user). A fresh application gets id `newId` and creation
      time `now`, both chosen by the store. Store calls: the lookup (0),
      the update or create (1) and the user lookup for the e-mail (2),
      which comes after the write. E-mail errors are swallowed, so
      `emailFails` does not enter into the result. */
  function Apply(db: Db, userId: Option<Id>, rawNotes: Option<string>, newId: Id, now: int,
                 fault: Fault, emailFails: bool): (o: Outcome)
    ensures o.reply.code in {200, 201, 401, 500}
    ensures o.reply.code == 401 <==> userId.None? || userId.value == ""
    ensures o.reply.code == 401 ==> o.db == db
    ensures o.db.(applications := db.applications) == db
  {
    if userId.None? || userId.value == "" then Outcome(db, Reply(401, "Unauthorized."))
    else if ThrowsWithin(fault, 2) then Outcome(db, Reply(500, "Failed to submit application."))
    else
      var uid := userId.value;
      var notes := NotesParam(rawNotes);
      if FindApplicationOfUser(db.applications, uid).Some? then
        var db1 := db.(applications := ResetToPending(db.applications, uid, notes));
        if ThrowsWithin(fault, 3) then Outcome(db1, Reply(500, "Failed to submit application."))
        else Outcome(db1, Reply(200, "Application updated to pending."))
      else
        var db1 := db.(applications := db.applications + [Application(newId, uid, Pending, notes, now)]);
        if ThrowsWithin(fault, 3) then Outcome(db1, Reply(500, "Failed to submit application."))
        else Outcome(db1, Reply(201, "Application submitted."))
  }

  /** The status the user reads back: `NONE` or that of their application. */
  datatype MyStatus = NoApplication | HasApplication(app: Application)

  datatype MineReply = MineReply(code: int, mine: Option<MyStatus>)

  /** The `status` field of the reply. */
  function MyStatusName(m: MyStatus): (s: string)
    ensures s in {"NONE", "PENDING", "APPROVED", "REJECTED"}
    ensures s == "NONE" <==> m.NoApplication?
  {
    match m
    case NoApplication => "NONE"
    case HasApplication(app) => StatusName(app.status)
  }

  /** `GET /freelancers/me`: 401 without a user, `NONE` when the user has
      no application, otherwise its status together with the row. */
  function GetMine(db: Db, userId: Option<Id>, fault: Fault): (r: MineReply)
    ensures r.code in {200, 401, 500}
    ensures r.code == 401 <==> userId.None? || userId.value == ""
    ensures r.mine.Some? <==> r.code == 200
    ensures r.code == 200 ==>
      (r.mine.value.NoApplication? <==> forall i :: 0 <= i < |db.applications| ==> db.applications[i].userId != userId.value)
    ensures r.code == 200 && r.mine.value.HasApplication? ==>
      r.mine.value.app in db.applications && r.mine.value.app.userId == userId.value
  {
    if userId.None? || userId.value == "" then MineReply(401, None)
    else if ThrowsWithin(fault, 1) then MineReply(500, None)
    else
      var app := FindApplicationOfUser(db.applications, userId.value);
      if app.None? then MineReply(200, Some(NoApplication)) else MineReply(200, Some(HasApplication(app.value)))
  }

  /** Once the write has happened (even if the e-mail lookup after it
      fails), the user has exactly one application and it is PENDING,
      whatever it was before. */
  lemma ApplyLeavesOnePending(db: Db, userId: Id, rawNotes: Option<string>, newId: Id, now: int,
                              fault: Fault, emailFails: bool)
    requires userId != ""
    requires OneApplicationPerUser(db.applications)
    ensures var o := Apply(db, Some(userId), rawNotes, newId, now, fault, emailFails);
      !ThrowsWithin(fault, 2) ==>
        && OneApplicationPerUser(o.db.applications)
        && (exists i :: 0 <= i < |o.db.applications| && o.db.applications[i].userId == userId
                     && o.db.applications[i].status == Pending)
        && (forall i :: 0 <= i < |o.db.applications| && o.db.applications[i].userId == userId ==>
              o.db.applications[i].status == Pending)
  {
    if !ThrowsWithin(fault, 2) {
      var o := Apply(db, Some(userId), rawNotes, newId, now, fault, emailFails);
      var notes := NotesParam(rawNotes);
      if FindApplicationOfUser(db.applications, userId).Some? {
        assert o.db.applications == ResetToPending(db.applications, userId, notes);
        ResetLeavesOnePending(db.applications, userId, notes);
      } else {
        var app := Application(newId, userId, Pending, notes, now);
        assert o.db.applications == db.applications + [app];
        AppendLeavesOnePending(db.applications, app);
      }
    }
  }

  /** The update branch: the user's one application becomes PENDING. */
  lemma ResetLeavesOnePending(apps: seq<Application>, userId: Id, notes: Option<string>)
    requires OneApplicationPerUser(apps)
    requires exists i :: 0 <= i < |apps| && apps[i].userId == userId
    ensures var r := ResetToPending(apps, userId, notes);
      && OneApplicationPerUser(r)
      && (exists i :: 0 <= i < |r| && r[i].userId == userId && r[i].status == Pending)
      && (forall i :: 0 <= i < |r| && r[i].userId == userId ==> r[i].status == Pending)
  {
    var r := ResetToPending(apps, userId, notes);
    var k :| 0 <= k < |apps| && apps[k].userId == userId;
    assert r[k].userId == userId;
  }

  /** The create branch: a user without an application gets one, PENDING. */
  lemma AppendLeavesOnePending(apps: seq<Application>, app: Application)
    requires OneApplicationPerUser(apps) && app.status == Pending
    requires forall i :: 0 <= i < |apps| ==> apps[i].userId != app.userId
    ensures var r := apps + [app];
      && OneApplicationPerUser(r)
      && (exists i :: 0 <= i < |r| && r[i].userId == app.userId && r[i].status == Pending)
      && (forall i :: 0 <= i < |r| && r[i].userId == app.userId ==> r[i].status == Pending)
  {
    var r := apps + [app];
    assert r[|apps|] == app;
    forall i, j | 0 <= i < j < |r|
      ensures r[i].userId != r[j].userId
    {
      assert r[i] == apps[i];
    }
  }

  /** The reset path rewrites the user's row in place: no row is added or
      removed and every other user's application is untouched. */
  lemma ApplyUpdatesInPlace(db: Db, userId: Id, rawNotes: Option<string>, newId: Id, now: int)
    requires userId != ""
    requires exists i :: 0 <= i < |db.applications| && db.applications[i].userId == userId
    ensures var o := Apply(db, Some(userId), rawNotes, newId, now, NoFault, false);
      && o.reply == Reply(200, "Application updated to pending.")
      && |o.db.applications| == |db.applications|
      && forall i :: 0 <= i < |db.applications| ==>
           o.db.applications[i].id == db.applications[i].id
           && (db.applications[i].userId != userId ==> o.db.applications[i] == db.applications[i])
  {
  }

  /** Without an application the user gets a new PENDING one, with id
      `newId`, its notes the non-empty given notes, and a 201. */
  lemma ApplyCreates(db: Db, userId: Id, rawNotes: Option<string>, newId: Id, now: int)
    requires userId != ""
    requires forall i :: 0 <= i < |db.applications| ==> db.applications[i].userId != userId
    ensures var o := Apply(db, Some(userId), rawNotes, newId, now, NoFault, false);
      && o.reply == Reply(201, "Application submitted.")
      && o.db.applications == db.applications + [Application(newId, userId, Pending, NotesParam(rawNotes), now)]
  {
  }

  /** E-mail never changes the reply or the store; and once apply has
      answered, reading back gives PENDING. */
  lemma ApplyThenGetMine(db: Db, userId: Id, rawNotes: Option<string>, newId: Id, now: int, emailFails: bool)
    requires userId != ""
    requires OneApplicationPerUser(db.applications)
    ensures Apply(db, Some(userId), rawNotes, newId, now, NoFault, emailFails)
         == Apply(db, Some(userId), rawNotes, newId, now, NoFault, !emailFails)
    ensures var o := Apply(db, Some(userId), rawNotes, newId, now, NoFault, emailFails);
      var r := GetMine(o.db, Some(userId), NoFault);
      r.code == 200 && r.mine.value.HasApplication? && r.mine.value.app.status == Pending
  {
    var o := Apply(db, Some(userId), rawNotes, newId, now, NoFault, emailFails);
    var notes := NotesParam(rawNotes);
    if FindApplicationOfUser(db.applications, userId).Some? {
      var k :| 0 <= k < |db.applications| && db.applications[k].userId == userId;
      assert o.db.applications[k].userId == userId;
    } else {
      assert o.db.applications[|db.applications|].userId == userId;
    }
    ApplyLeavesOnePending(db, userId, rawNotes, newId, now, NoFault, emailFails);
  }
}

=== FILE: ordering.dfy ===
/**
 The `orderBy` clauses of the handlers. Every sort key is a sequence of
 integers compared lexicographically: a number is a one-element key, a
 string is its character codes, an enum its declaration index, and the
 marketplace's three-level rating order is a three-element key. A
 direction flips the comparison. `SortBy` is a stable insertion sort; the
 database promises nothing about the relative order of rows with equal
 keys, so no property here depends on how ties are broken.
 */
module Ordering {

  datatype Dir = Asc | Desc

  /** Lexicographic `<=` on integer keys; a proper prefix comes first. */
  predicate LexLe(a: seq<int>, b: seq<int>)
    decreases |a|
  {
    if |a| == 0 then true
    else if |b| == 0 then false
    else if a[0] != b[0] then a[0] < b[0]
    else LexLe(a[1..], b[1..])
  }

  lemma {:induction false} LexLeTotal(a: seq<int>, b: seq<int>)
    ensures LexLe(a, b) || LexLe(b, a)
    decreases |a|
  {
    if |a| > 0 && |b| > 0 && a[0] == b[0] {
      LexLeTotal(a[1..], b[1..]);
    }
  }

  lemma {:induction false} LexLeTransitive(a: seq<int>, b: seq<int>, c: seq<int>)
    requires LexLe(a, b) && LexLe(b, c)
    ensures LexLe(a, c)
    decreases |a|
  {
    if |a| > 0 && |b| > 0 && |c| > 0 && a[0] == b[0] && b[0] == c[0] {
      LexLeTransitive(a[1..], b[1..], c[1..]);
    }
  }

  /** Two keys that each come first are equal. */
  lemma {:induction false} LexLeAntisymmetric(a: seq<int>, b: seq<int>)
    requires LexLe(a, b) && LexLe(b, a)
    ensures a == b
    decreases |a|
  {
    if |a| > 0 {
      LexLeAntisymmetric(a[1..], b[1..]);
      assert a == [a[0]] + a[1..];
      assert b == [b[0]] + b[1..];
    }
  }

  /** `a` may be listed before `b` under direction `dir`. */
  predicate Precedes(a: seq<int>, b: seq<int>, dir: Dir) {
    if dir == Asc then LexLe(a, b) else LexLe(b, a)
  }

  lemma PrecedesTotal(a: seq<int>, b: seq<int>, dir: Dir)
    ensures Precedes(a, b, dir) || Precedes(b, a, dir)
  {
    LexLeTotal(a, b);
  }

  lemma PrecedesTransitive(a: seq<int>, b: seq<int>, c: seq<int>, dir: Dir)
    requires Precedes(a, b, dir) && Precedes(b, c, dir)
    ensures Precedes(a, c, dir)
  {
    if dir == Asc {
      LexLeTransitive(a, b, c);
    } else {
      LexLeTransitive(c, b, a);
    }
  }

  /** The rows of `s` appear in `dir` order of `key`. */
  ghost predicate SortedBy<T>(s: seq<T>, key: T -> seq<int>, dir: Dir) {
    forall i, j :: 0 <= i < j < |s| ==> Precedes(key(s[i]), key(s[j]), dir)
  }

  /** `x` may be listed before every row of `s`. */
  ghost predicate PrecedesAll<T>(x: T, s: seq<T>, key: T -> seq<int>, dir: Dir) {
    forall j :: 0 <= j < |s| ==> Precedes(key(x), key(s[j]), dir)
  }

  lemma PrependSorted<T>(x: T, s: seq<T>, key: T -> seq<int>, dir: Dir)
    requires SortedBy(s, key, dir) && PrecedesAll(x, s, key, dir)
    ensures SortedBy([x] + s, key, dir)
  {
    var r := [x] + s;
    forall i, j | 0 <= i < j < |r|
      ensures Precedes(key(r[i]), key(r[j]), dir)
    {
      if i > 0 {
        assert r[i] == s[i - 1] && r[j] == s[j - 1];
      }
    }
  }

  /** `PrecedesAll` depends only on which rows there are, not on their order. */
  lemma PrecedesAllPermutation<T>(x: T, a: seq<T>, b: seq<T>, key: T -> seq<int>, dir: Dir)
    requires multiset(a) == multiset(b) && PrecedesAll(x, b, key, dir)
    ensures PrecedesAll(x, a, key, dir)
  {
    forall j | 0 <= j < |a|
      ensures Precedes(key(x), key(a[j]), dir)
    {
      assert a[j] in multiset(b);
      var k :| 0 <= k < |b| && b[k] == a[j];
    }
  }

  /** Inserts `x` into sorted `s` in front of the first row it may precede. */
  function Insert<T(==)>(x: T, s: seq<T>, key: T -> seq<int>, dir: Dir): (r: seq<T>)
    requires SortedBy(s, key, dir)
    ensures multiset(r) == multiset(s) + multiset{x}
    ensures SortedBy(r, key, dir)
    decreases |s|
  {
    if |s| == 0 then [x]
    else if Precedes(key(x), key(s[0]), dir) then
      InsertFront(x, s, key, dir);
      [x] + s
    else
      var t := Insert(x, s[1..], key, dir);
      InsertBehind(x, s, t, key, dir);
      [s[0]] + t
  }

  lemma InsertFront<T>(x: T, s: seq<T>, key: T -> seq<int>, dir: Dir)
    requires SortedBy(s, key, dir) && |s| > 0 && Precedes(key(x), key(s[0]), dir)
    ensures SortedBy([x] + s, key, dir)
  {
    forall j | 0 <= j < |s|
      ensures Precedes(key(x), key(s[j]), dir)
    {
      if j > 0 {
        PrecedesTransitive(key(x), key(s[0]), key(s[j]), dir);
      }
    }
    PrependSorted(x, s, key, dir);
  }

  lemma InsertBehind<T>(x: T, s: seq<T>, t: seq<T>, key: T -> seq<int>, dir: Dir)
    requires SortedBy(s, key, dir) && |s| > 0 && !Precedes(key(x), key(s[0]), dir)
    requires SortedBy(t, key, dir) && multiset(t) == multiset(s[1..]) + multiset{x}
    ensures SortedBy([s[0]] + t, key, dir)
    ensures multiset([s[0]] + t) == multiset(s) + multiset{x}
  {
    assert s == [s[0]] + s[1..];
    var u := s[1..] + [x];
    PrecedesTotal(key(x), key(s[0]), dir);
    forall j | 0 <= j < |u|
      ensures Precedes(key(s[0]), key(u[j]), dir)
    {
      if j < |s| - 1 {
        assert u[j] == s[j + 1];
      }
    }
    PrecedesAllPermutation(s[0], t, u, key, dir);
    PrependSorted(s[0], t, key, dir);
  }

  /** The rows of `s` in `dir` order of `key`: the database's `orderBy`. */
  function SortBy<T(==)>(s: seq<T>, key: T -> seq<int>, dir: Dir): (r: seq<T>)
    ensures multiset(r) == multiset(s)
    ensures SortedBy(r, key, dir)
    decreases |s|
  {
    if |s| == 0 then []
    else
      assert s == [s[0]] + s[1..];
      Insert(s[0], SortBy(s[1..], key, dir), key, dir)
  }

  /** Sorting keeps exactly the rows it was given. */
  lemma SortByKeepsRows<T>(s: seq<T>, key: T -> seq<int>, dir: Dir)
    ensures |SortBy(s, key, dir)| == |s|
    ensures forall x :: x in SortBy(s, key, dir) <==> x in s
  {
    var r := SortBy(s, key, dir);
    assert |multiset(r)| == |multiset(s)|;
    forall x
      ensures x in r <==> x in s
    {
      assert x in r <==> x in multiset(r);
      assert x in s <==> x in multiset(s);
    }
  }

  /** A run of consecutive rows of a sorted sequence is sorted. */
  lemma WindowOfSortedIsSorted<T>(s: seq<T>, w: seq<T>, skip: int, key: T -> seq<int>, dir: Dir)
    requires SortedBy(s, key, dir)
    requires forall i :: 0 <= i < |w| ==> 0 <= skip + i < |s| && w[i] == s[skip + i]
    ensures SortedBy(w, key, dir)
  {
    forall i, j | 0 <= i < j < |w|
      ensures Precedes(key(w[i]), key(w[j]), dir)
    {
      var a, b := w[i], w[j];
      assert a == s[skip + i] && b == s[skip + j];
    }
  }

  // ---------------------------------------------------------------------------
  // Keys
  // ---------------------------------------------------------------------------

  function IntKey(n: int): seq<int> {
    [n]
  }

  function BoolKey(b: bool): seq<int> {
    [if b then 1 else 0]
  }

  /** A string compares by its character codes. */
  function StringKey(s: string): (k: seq<int>)
    ensures |k| == |s|
  {
    seq(|s|, i requires 0 <= i < |s| => s[i] as int)
  }
}

=== FILE: prelude.dfy ===
/**
 The small vocabulary every other module shares: an optional value (the
 JavaScript `undefined`/`null` of the original program) and a lookup in a
 string-keyed map, which is how a request's query string is seen by the
 handlers.
 */
module Prelude {

  /** `None` stands for a missing or `undefined` value. */
  datatype Option<+T> = None | Some(value: T) {
    function GetOr(default: T): T {
      match this
      case Some(v) => v
      case None => default
    }
  }

  /** The first element of `s` that satisfies `p`: an array's `find`, and
      the database's `findUnique` on a key the rows satisfy at most once. */
  function FindFirst<T(==)>(s: seq<T>, p: T -> bool): (r: Option<T>)
    ensures r.Some? <==> exists i :: 0 <= i < |s| && p(s[i])
    ensures r.Some? ==> r.value in s && p(r.value)
    decreases |s|
  {
    if |s| == 0 then None
    else if p(s[0]) then Some(s[0])
    else
      var r := FindFirst(s[1..], p);
      assert forall i :: 1 <= i < |s| ==> s[i] == s[1..][i - 1];
      r
  }

  /** `FindFirst` returns the element at the first position that satisfies `p`. */
  lemma {:induction false} FindFirstFinds<T>(s: seq<T>, p: T -> bool, k: int)
    requires 0 <= k < |s| && p(s[k])
    requires forall j :: 0 <= j < k ==> !p(s[j])
    ensures FindFirst(s, p) == Some(s[k])
    decreases k
  {
    if k > 0 {
      assert !p(s[0]);
      assert s[1..][k - 1] == s[k];
      forall j | 0 <= j < k - 1
        ensures !p(s[1..][j])
      {
        assert s[1..][j] == s[j + 1];
      }
      FindFirstFinds(s[1..], p, k - 1);
    }
  }

  /** The value stored under `key`, if any: `req.query[key]` as a string. */
  function Lookup<K, V>(m: map<K, V>, key: K): (r: Option<V>)
    ensures r.Some? <==> key in m
    ensures r.Some? ==> r.value == m[key]
  {
    if key in m then Some(m[key]) else None
  }
}

=== FILE: store.dfy ===
/**
 The persistent store the controllers read and write, as immutable values:
 the User, FreelancerApplication, Design, Category and DesignFavorite
 tables, plus the paging arithmetic the listing handlers share. Store
 failures are a parameter: `FailAt(k)` says the `k`-th awaited store call
 of a handler (counted from 0 in the handler's own order) throws, so that
 every error path of the handler can be followed.
 */
module Store {
  import opened Prelude
  import opened Ordering

  type Id = string

  /** Declared in this order, which is also the order the database sorts them in. */
  datatype Role = Buyer | Freelancer
  datatype AppStatus = Pending | Approved | Rejected

  /** The names the database and the JSON bodies use for the enums. */
  function RoleName(r: Role): string {
    match r
    case Buyer => "BUYER"
    case Freelancer => "FREELANCER"
  }

  function StatusName(s: AppStatus): string {
    match s
    case Pending => "PENDING"
    case Approved => "APPROVED"
    case Rejected => "REJECTED"
  }

  datatype User = User(
    id: Id,
    email: string,
    username: string,
    firstName: string,
    lastName: string,
    role: Role,
    isAdmin: bool,
    isDeleted: bool,
    verified: bool,
    dateJoined: int)

  datatype Application = Application(
    id: Id,
    userId: Id,
    status: AppStatus,
    notes: Option<string>,
    createdAt: int)

  datatype Category = Category(id: Id, name: string, slug: string)

  /** Price is in cents and rating in hundredths: the model only orders them. */
  datatype Design = Design(
    id: Id,
    title: string,
    description: string,
    price: int,
    averageRating: int,
    reviewCount: int,
    createdAt: int,
    isPublished: bool,
    categories: seq<Category>)

  /** Existence of the pair means "this user favourited this design". */
  datatype Favorite = Favorite(designId: Id, userId: Id)

  datatype Db = Db(
    users: seq<User>,
    applications: seq<Application>,
    designs: seq<Design>,
    categories: seq<Category>,
    favorites: set<Favorite>)

  /** Which awaited store call of a handler throws, if any. */
  datatype Fault = NoFault | FailAt(call: nat)

  /** An HTTP status code and the `message` of the JSON body. */
  datatype Reply = Reply(code: int, message: string)

  /** A handler's new store together with its reply. */
  datatype Outcome = Outcome(db: Db, reply: Reply)

  /** The `k`-th awaited store call (from 0) is among the first `calls` ones and throws. */
  predicate ThrowsWithin(f: Fault, calls: nat) {
    f.FailAt? && f.call < calls
  }

  // ---------------------------------------------------------------------------
  // Keys the database keeps unique
  // ---------------------------------------------------------------------------

  ghost predicate UniqueUserIds(users: seq<User>) {
    forall i, j :: 0 <= i < j < |users| ==> users[i].id != users[j].id
  }

  /** `FreelancerApplication.userId` is unique: one application per user. */
  ghost predicate OneApplicationPerUser(apps: seq<Application>) {
    forall i, j :: 0 <= i < j < |apps| ==> apps[i].userId != apps[j].userId
  }

  // ---------------------------------------------------------------------------
  // Lookups (`findUnique`) and single-row updates (`update`)
  // ---------------------------------------------------------------------------

  function FindUser(users: seq<User>, id: Id): Option<User> {
    FindFirst(users, (u: User) => u.id == id)
  }

  function FindApplication(apps: seq<Application>, id: Id): Option<Application> {
    FindFirst(apps, (a: Application) => a.id == id)
  }

  /** By `userId`, which is unique in the schema. */
  function FindApplicationOfUser(apps: seq<Application>, userId: Id): Option<Application> {
    FindFirst(apps, (a: Application) => a.userId == userId)
  }

  /** One single-field write to a user row. */
  datatype UserWrite = SetRole(role: Role) | SetIsAdmin(isAdmin: bool) | SetIsDeleted(isDeleted: bool)

  function Apply(u: User, w: UserWrite): User {
    match w
    case SetRole(r) => u.(role := r)
    case SetIsAdmin(b) => u.(isAdmin := b)
    case SetIsDeleted(b) => u.(isDeleted := b)
  }

  /** `prisma.user.update({ where: { id }, data })`: writes `w` to the
      row(s) with id `id`; every other row is kept. */
  function UpdateUser(users: seq<User>, id: Id, w: UserWrite): (r: seq<User>)
    ensures |r| == |users|
    ensures forall i :: 0 <= i < |r| ==> r[i] == (if users[i].id == id then Apply(users[i], w) else users[i])
  {
    seq(|users|, i requires 0 <= i < |users| => if users[i].id == id then Apply(users[i], w) else users[i])
  }

  /** A second write of the same field overrides the first. */
  lemma UpdateUserOverwrites(users: seq<User>, id: Id, a: bool, b: bool)
    ensures UpdateUser(UpdateUser(users, id, SetIsDeleted(a)), id, SetIsDeleted(b))
         == UpdateUser(users, id, SetIsDeleted(b))
  {
    var r1 := UpdateUser(users, id, SetIsDeleted(a));
    var r2 := UpdateUser(r1, id, SetIsDeleted(b));
    var r := UpdateUser(users, id, SetIsDeleted(b));
    forall i | 0 <= i < |users|
      ensures r2[i] == r[i]
    {
      assert r1[i].id == users[i].id;
    }
  }

  /** Writing a role that was just written changes nothing. */
  lemma UpdateUserRoleTwice(users: seq<User>, id: Id, r: Role)
    ensures UpdateUser(UpdateUser(users, id, SetRole(r)), id, SetRole(r)) == UpdateUser(users, id, SetRole(r))
  {
    var once := UpdateUser(users, id, SetRole(r));
    var twice := UpdateUser(once, id, SetRole(r));
    forall i | 0 <= i < |users|
      ensures twice[i] == once[i]
    {
      assert once[i].id == users[i].id;
    }
  }

  /** Writing the value a row already holds changes nothing. */
  lemma UpdateUserUnchanged(users: seq<User>, id: Id, b: bool)
    requires forall i :: 0 <= i < |users| && users[i].id == id ==> users[i].isDeleted == b
    ensures UpdateUser(users, id, SetIsDeleted(b)) == users
  {
    var r := UpdateUser(users, id, SetIsDeleted(b));
    forall i | 0 <= i < |users|
      ensures r[i] == users[i]
    {
    }
  }

  /** `prisma.freelancerApplication.update({ where: { id }, data: { status } })`. */
  function SetStatusById(apps: seq<Application>, id: Id, s: AppStatus): (r: seq<Application>)
    ensures |r| == |apps|
    ensures forall i :: 0 <= i < |r| ==> r[i] == (if apps[i].id == id then apps[i].(status := s) else apps[i])
  {
    seq(|apps|, i requires 0 <= i < |apps| => if apps[i].id == id then apps[i].(status := s) else apps[i])
  }

  /** A status write leaves the application found under each id, apart
      from its status, where it was. */
  lemma {:induction false} StatusWriteKeepsOwner(apps: seq<Application>, id: Id, s: AppStatus)
    ensures FindApplication(SetStatusById(apps, id, s), id).Some? <==> FindApplication(apps, id).Some?
    ensures FindApplication(apps, id).Some? ==>
      FindApplication(SetStatusById(apps, id, s), id).value == FindApplication(apps, id).value.(status := s)
    decreases |apps|
  {
    var after := SetStatusById(apps, id, s);
    if |apps| > 0 && apps[0].id != id {
      assert after[0] == apps[0];
      assert after[1..] == SetStatusById(apps[1..], id, s);
      StatusWriteKeepsOwner(apps[1..], id, s);
    }
  }

  /** Setting a status that was just set changes nothing. */
  lemma SetStatusByIdTwice(apps: seq<Application>, id: Id, s: AppStatus)
    ensures SetStatusById(SetStatusById(apps, id, s), id, s) == SetStatusById(apps, id, s)
  {
    var once := SetStatusById(apps, id, s);
    var twice := SetStatusById(once, id, s);
    forall i | 0 <= i < |apps|
      ensures twice[i] == once[i]
    {
      assert once[i].id == apps[i].id;
    }
  }

  /** Number of rows of `s` that satisfy `p`: the database's `count`. */
  function Count<T>(s: seq<T>, p: T -> bool): (n: nat)
    ensures n <= |s|
  {
    if |s| == 0 then 0 else (if p(s[0]) then 1 else 0) + Count(s[1..], p)
  }

  /** The rows of `s` that satisfy `p`, in their original order: `where`. */
  function Filter<T(!new)>(s: seq<T>, p: T -> bool): (r: seq<T>)
    ensures |r| == Count(s, p)
    ensures forall x :: x in r <==> x in s && p(x)
  {
    if |s| == 0 then []
    else
      var rest := Filter(s[1..], p);
      assert forall x :: x in s <==> x == s[0] || x in s[1..];
      if p(s[0]) then [s[0]] + rest else rest
  }

  /** Filtering keeps the original order: the matches of `a + b` are the
      matches of `a` followed by the matches of `b`. With `FilterOne`,
      this pins `Filter` down. */
  lemma {:induction false} FilterAppend<T(!new)>(a: seq<T>, b: seq<T>, p: T -> bool)
    ensures Filter(a + b, p) == Filter(a, p) + Filter(b, p)
    decreases |a|
  {
    if |a| == 0 {
      assert a + b == b;
    } else {
      var ab := a + b;
      assert ab[0] == a[0] && ab[1..] == a[1..] + b;
      FilterAppend(a[1..], b, p);
      var rest := Filter(a[1..], p);
      if p(a[0]) {
        calc {
          Filter(ab, p);
          [a[0]] + Filter(a[1..] + b, p);
          [a[0]] + (rest + Filter(b, p));
          ([a[0]] + rest) + Filter(b, p);
        }
      }
    }
  }

  /** A single row is kept exactly when it matches. */
  lemma FilterOne<T(!new)>(x: T, p: T -> bool)
    ensures Filter([x], p) == (if p(x) then [x] else [])
  {
    assert [x][1..] == [];
  }

  /** Filtering never invents or repeats rows: its rows, with their
      multiplicities, are among the input's. */
  lemma {:induction false} FilterSubMultiset<T(!new)>(s: seq<T>, p: T -> bool)
    ensures multiset(Filter(s, p)) <= multiset(s)
    decreases |s|
  {
    if |s| > 0 {
      FilterSubMultiset(s[1..], p);
      assert s == [s[0]] + s[1..];
    }
  }

  // ---------------------------------------------------------------------------
  // Paging
  // ---------------------------------------------------------------------------

  function Min(a: int, b: int): int {
    if a <= b then a else b
  }

  /** `skip`/`take` over already filtered and ordered rows. */
  function Window<T>(s: seq<T>, skip: nat, take: nat): (r: seq<T>)
    ensures |r| <= take && |r| <= |s|
    ensures skip <= |s| ==> |r| == Min(take, |s| - skip)
    ensures skip >= |s| ==> r == []
    ensures forall i :: 0 <= i < |r| ==> skip + i < |s| && r[i] == s[skip + i]
  {
    if skip >= |s| then [] else s[skip..skip + Min(take, |s| - skip)]
  }

  /** The rows before page `page` (from 1) of `size` rows: `(page - 1) * size`. */
  function Offset(page: int, size: int): (n: nat)
    requires page >= 1 && size >= 1
  {
    var before: nat := page - 1;
    before * size
  }

  /** `items` is page `page` (from 1) of `s` at `size` rows a page: the
      slice that skipping `(page - 1) * size` rows and taking `size` cuts
      from `s`, full-length while rows remain and empty past the end. */
  ghost predicate IsPage<T>(items: seq<T>, s: seq<T>, page: int, size: int)
    requires page >= 1 && size >= 1
  {
    var skip := Offset(page, size);
    && (skip < |s| ==> items == s[skip..skip + Min(size, |s| - skip)])
    && (skip >= |s| ==> items == [])
  }

  /** A page holds rows exactly when it starts before the end of the rows. */
  lemma PageHoldsRowsIff<T>(items: seq<T>, s: seq<T>, page: int, size: int)
    requires page >= 1 && size >= 1
    requires IsPage(items, s, page, size)
    ensures |items| > 0 <==> Offset(page, size) < |s|
  {
  }

  /** Page `page` (from 1) of `size` rows: `skip: (page - 1) * size, take: size`. */
  function PageOf<T>(s: seq<T>, page: int, size: int): (r: seq<T>)
    requires page >= 1 && size >= 1
    ensures |r| <= size && |r| <= |s|
    ensures Offset(page, size) <= |s| ==> |r| == Min(size, |s| - Offset(page, size))
    ensures Offset(page, size) >= |s| ==> r == []
    ensures forall i :: 0 <= i < |r| ==> Offset(page, size) + i < |s| && r[i] == s[Offset(page, size) + i]
    ensures IsPage(r, s, page, size)
  {
    Window(s, Offset(page, size), size)
  }

  /** One page of a listing: `{ items, total, page, pageSize }`. */
  datatype Listing<T> = Listing(items: seq<T>, total: nat, page: int, pageSize: int)

  /** The rows matching `p`, ordered by `key` in `dir`, and cut to page
      `page` of `size`; `total` counts the same `p` over all rows. */
  function ListPage<T(==,!new)>(rows: seq<T>, p: T -> bool, key: T -> seq<int>, dir: Dir,
                             page: int, size: int): (l: Listing<T>)
    requires page >= 1 && size >= 1
    ensures l.page == page && l.pageSize == size
    ensures l.total == |Filter(rows, p)|
    ensures |l.items| <= size && |l.items| <= l.total
    ensures forall i :: 0 <= i < |l.items| ==> l.items[i] in rows && p(l.items[i])
    ensures SortedBy(l.items, key, dir)
    ensures var ordered := SortBy(Filter(rows, p), key, dir);
      SortedBy(ordered, key, dir) &&
      forall i :: 0 <= i < |l.items| ==>
        Offset(page, size) + i < |ordered| && l.items[i] == ordered[Offset(page, size) + i]
    ensures var ordered := SortBy(Filter(rows, p), key, dir);
      |ordered| == l.total && IsPage(l.items, ordered, page, size)
  {
    OrderedPage(rows, p, key, dir, page, size);
    Listing(PageOf(SortBy(Filter(rows, p), key, dir), page, size), Count(rows, p), page, size)
  }

  /** The facts `ListPage` promises, about the page of the ordered matches. */
  lemma OrderedPage<T(!new)>(rows: seq<T>, p: T -> bool, key: T -> seq<int>, dir: Dir, page: int, size: int)
    requires page >= 1 && size >= 1
    ensures var ordered := SortBy(Filter(rows, p), key, dir);
      var items := PageOf(ordered, page, size);
      && |ordered| == |Filter(rows, p)|
      && (forall i :: 0 <= i < |items| ==> items[i] in rows && p(items[i]))
      && SortedBy(items, key, dir)
      && SortedBy(ordered, key, dir)
  {
    var ordered := SortBy(Filter(rows, p), key, dir);
    var items := PageOf(ordered, page, size);
    var skip := Offset(page, size);
    assert |ordered| == |Filter(rows, p)| by {
      SortByKeepsRows(Filter(rows, p), key, dir);
    }
    assert forall i :: 0 <= i < |items| ==> 0 <= skip + i < |ordered| && items[i] == ordered[skip + i];
    assert forall i :: 0 <= i < |items| ==> items[i] in rows && p(items[i]) by {
      PageRowsMatch(rows, p, ordered, items, key, dir, skip);
    }
    assert SortedBy(items, key, dir) by {
      WindowOfSortedIsSorted(ordered, items, skip, key, dir);
    }
  }

  /** Every row of a window of the ordered matching rows is a matching row. */
  lemma PageRowsMatch<T(!new)>(rows: seq<T>, p: T -> bool, ordered: seq<T>, items: seq<T>,
                                   key: T -> seq<int>, dir: Dir, skip: int)
    requires ordered == SortBy(Filter(rows, p), key, dir)
    requires forall i :: 0 <= i < |items| ==> 0 <= skip + i < |ordered| && items[i] == ordered[skip + i]
    ensures forall i :: 0 <= i < |items| ==> items[i] in rows && p(items[i])
  {
    SortByKeepsRows(Filter(rows, p), key, dir);
    forall i | 0 <= i < |items|
      ensures items[i] in rows && p(items[i])
    {
      var x := items[i];
      assert x == ordered[skip + i];
      assert x in Filter(rows, p);
    }
  }

  /** `Math.max(Math.ceil(total / pageSize), 1)`. */
  function TotalPages(total: nat, pageSize: int): (r: int)
    requires pageSize >= 1
    ensures r >= 1
    ensures total <= r * pageSize
    ensures r == 1 || (r - 1) * pageSize < total
  {
    var c := (total + pageSize - 1) / pageSize;
    CeilDivBounds(total, pageSize);
    if c < 1 then 1 else c
  }

  lemma CeilDivBounds(a: nat, b: int)
    requires b >= 1
    ensures var c := (a + b - 1) / b; a <= c * b && (a == 0 || (c - 1) * b < a)
  {
    var c := (a + b - 1) / b;
    var rem := (a + b - 1) % b;
    assert c * b + rem == a + b - 1;
  }
}

=== FILE: text.dfy ===
/**
 The string and number primitives the handlers lean on: JavaScript's
 `trim`, ASCII case mapping (`toUpperCase`/`toLowerCase`), the database's
 case-insensitive `contains`, and `parseInt(s, 10)` together with the
 `NaN`-propagating `Math.max`/`Math.min` and the falsy-fallback `||`.
 */
module Text {
  import opened Prelude

  // ---------------------------------------------------------------------------
  // Whitespace and trimming
  // ---------------------------------------------------------------------------

  /** The whitespace `trim` and `parseInt` skip (the ASCII part of it). */
  predicate IsSpace(c: char) {
    c == ' ' || c == '\t' || c == '\n' || c == '\r' || c == '\U{000B}' || c == '\U{000C}'
  }

  /** `s` with its leading whitespace removed. */
  function TrimStart(s: string): (r: string)
    ensures |r| <= |s| && r == s[|s| - |r|..]
    ensures |r| > 0 ==> !IsSpace(r[0])
    ensures forall i :: 0 <= i < |s| - |r| ==> IsSpace(s[i])
    decreases |s|
  {
    if |s| > 0 && IsSpace(s[0]) then TrimStart(s[1..]) else s
  }

  /** `s` with its trailing whitespace removed. */
  function TrimEnd(s: string): (r: string)
    ensures |r| <= |s| && r == s[..|r|]
    ensures |r| > 0 ==> !IsSpace(r[|r| - 1])
    ensures forall i :: |r| <= i < |s| ==> IsSpace(s[i])
    decreases |s|
  {
    if |s| > 0 && IsSpace(s[|s| - 1]) then TrimEnd(s[..|s| - 1]) else s
  }

  /** JavaScript's `String.prototype.trim`. */
  function Trim(s: string): (r: string)
  {
    TrimEnd(TrimStart(s))
  }

  /** The trimmed string is a slice of the input, cut only at whitespace,
      and it neither starts nor ends with whitespace. */
  lemma TrimIsWhitespaceCut(s: string)
    ensures exists i, j :: 0 <= i <= j <= |s| && Trim(s) == s[i..j]
    ensures |Trim(s)| > 0 ==> !IsSpace(Trim(s)[0]) && !IsSpace(Trim(s)[|Trim(s)| - 1])
  {
    var t := TrimStart(s);
    var i := |s| - |t|;
    assert Trim(s) == s[i..i + |TrimEnd(t)|];
    if |TrimEnd(t)| > 0 {
      assert TrimEnd(t)[0] == t[0];
    }
  }

  /** Trimming twice is trimming once. */
  lemma TrimIdempotent(s: string)
    ensures Trim(Trim(s)) == Trim(s)
  {
    var r := Trim(s);
    if |r| > 0 {
      assert !IsSpace(r[0]);
      assert TrimStart(r) == r;
      assert TrimEnd(r) == r;
    }
  }

  /** A string with no whitespace at either end is its own trim. */
  lemma TrimUnpadded(s: string)
    requires |s| > 0 ==> !IsSpace(s[0]) && !IsSpace(s[|s| - 1])
    ensures Trim(s) == s
  {
    assert TrimStart(s) == s;
  }

  /** `typeof raw === "string" && raw.trim().length > 0 ? raw.trim() : undefined`:
      the trimmed value, with a blank one meaning "absent". */
  function NonBlank(raw: Option<string>): (q: Option<string>)
    ensures q.Some? ==> raw.Some? && q.value != "" && q.value == Trim(raw.value)
    ensures q.None? <==> raw.None? || Trim(raw.value) == ""
  {
    if raw.Some? && Trim(raw.value) != "" then Some(Trim(raw.value)) else None
  }

  // ---------------------------------------------------------------------------
  // Case mapping and case-insensitive containment
  // ---------------------------------------------------------------------------

  function UpperChar(c: char): char {
    if 'a' <= c <= 'z' then (c as int - 32) as char else c
  }

  function LowerChar(c: char): char {
    if 'A' <= c <= 'Z' then (c as int + 32) as char else c
  }

  /** `toUpperCase` on the ASCII letters. */
  function Upper(s: string): (r: string)
    ensures |r| == |s|
  {
    seq(|s|, i requires 0 <= i < |s| => UpperChar(s[i]))
  }

  /** `toLowerCase` on the ASCII letters. */
  function Lower(s: string): (r: string)
    ensures |r| == |s|
  {
    seq(|s|, i requires 0 <= i < |s| => LowerChar(s[i]))
  }

  /** Lower-casing forgets letter case: upper-casing first changes nothing,
      and lower-casing twice is lower-casing once. */
  lemma LowerForgetsCase(s: string)
    ensures Lower(Upper(s)) == Lower(s)
    ensures Lower(Lower(s)) == Lower(s)
  {
    assert forall i :: 0 <= i < |s| ==> Lower(Upper(s))[i] == Lower(s)[i];
    assert forall i :: 0 <= i < |s| ==> Lower(Lower(s))[i] == Lower(s)[i];
  }

  /** `n` occurs in `h` starting at position `i`. */
  predicate OccursAt(h: string, n: string, i: int) {
    0 <= i && i + |n| <= |h| && h[i..i + |n|] == n
  }

  /** Substring containment, computed by scanning `h` from the left. */
  predicate Contains(h: string, n: string)
    decreases |h|
  {
    if |n| > |h| then false
    else if h[..|n|] == n then true
    else Contains(h[1..], n)
  }

  /** The scan finds `n` exactly when `n` occurs somewhere in `h`. */
  lemma {:induction false} ContainsIffOccurs(h: string, n: string)
    ensures Contains(h, n) <==> exists i :: OccursAt(h, n, i)
    decreases |h|
  {
    if |n| > |h| {
      assert forall i :: !OccursAt(h, n, i);
    } else if h[..|n|] == n {
      assert OccursAt(h, n, 0);
    } else {
      ContainsIffOccurs(h[1..], n);
      forall i | OccursAt(h, n, i)
        ensures OccursAt(h[1..], n, i - 1)
      {
        assert i != 0;
        assert h[1..][i - 1..i - 1 + |n|] == h[i..i + |n|];
      }
      forall j | OccursAt(h[1..], n, j)
        ensures OccursAt(h, n, j + 1)
      {
        assert h[1..][j..j + |n|] == h[j + 1..j + 1 + |n|];
      }
    }
  }

  /** The database's `contains` with `mode: "insensitive"`. */
  predicate ContainsInsensitive(h: string, n: string) {
    Contains(Lower(h), Lower(n))
  }

  // ---------------------------------------------------------------------------
  // Numbers: parseInt, String(n), Math.max/min and `||`
  // ---------------------------------------------------------------------------

  /** A JavaScript number as the handlers see it: an integer or `NaN`. */
  datatype JsNum = Num(n: int) | NaN

  predicate IsDigit(c: char) {
    '0' <= c <= '9'
  }

  function DigitValue(c: char): nat
    requires IsDigit(c)
  {
    c as int - '0' as int
  }

  function DigitChar(d: nat): (c: char)
    requires d < 10
    ensures IsDigit(c) && DigitValue(c) == d
  {
    ('0' as int + d) as char
  }

  predicate AllDigits(s: string) {
    forall i :: 0 <= i < |s| ==> IsDigit(s[i])
  }

  /** Length of the run of digits `s` starts with. */
  function LeadingDigits(s: string): (k: nat)
    ensures k <= |s| && AllDigits(s[..k])
    ensures k < |s| ==> !IsDigit(s[k])
    decreases |s|
  {
    if |s| > 0 && IsDigit(s[0]) then 1 + LeadingDigits(s[1..]) else 0
  }

  /** The decimal value of a run of digits, most significant first. */
  function DigitsValue(ds: string): nat
    requires AllDigits(ds)
    decreases |ds|
  {
    if |ds| == 0 then 0 else DigitsValue(ds[..|ds| - 1]) * 10 + DigitValue(ds[|ds| - 1])
  }

  /** `parseInt(s, 10)`: skip whitespace, read an optional sign, then the
      longest run of digits; without a digit the result is `NaN`. */
  function ParseInt(s: string): (r: JsNum)
  {
    var t := TrimStart(s);
    var signed := |t| > 0 && (t[0] == '-' || t[0] == '+');
    var u := if signed then t[1..] else t;
    var k := LeadingDigits(u);
    var v: int := if k == 0 then 0 else DigitsValue(u[..k]);
    if k == 0 then NaN
    else if signed && t[0] == '-' then Num(-v)
    else Num(v)
  }

  /** A string with no digit where `parseInt` looks for one parses to `NaN`. */
  lemma ParseIntNaN(s: string)
    requires |s| > 0 && !IsDigit(s[0]) && !IsSpace(s[0]) && s[0] != '-' && s[0] != '+'
    ensures ParseInt(s) == NaN
  {
    assert TrimStart(s) == s;
  }

  /** A run of digits parses to its value. */
  lemma ParseIntOfDigits(ds: string)
    requires |ds| > 0 && AllDigits(ds)
    ensures ParseInt(ds) == Num(DigitsValue(ds))
  {
    assert IsDigit(ds[0]) && !IsSpace(ds[0]) && ds[0] != '-' && ds[0] != '+';
    assert TrimStart(ds) == ds;
    LeadingDigitsOfDigits(ds);
    assert ds[..|ds|] == ds;
  }

  lemma LeadingDigitsOfDigits(ds: string)
    requires AllDigits(ds)
    ensures LeadingDigits(ds) == |ds|
  {
  }

  /** The decimal digits of `n`. */
  function ShowNat(n: nat): (s: string)
    ensures |s| > 0 && AllDigits(s)
    decreases n
  {
    (if n < 10 then "" else ShowNat(n / 10)) + [DigitChar(n % 10)]
  }

  /** `String(n)` for an integer `n`, written in plain decimal digits (exact
      integers only: no rounding beyond 2^53 - 1 and no exponent form). */
  function ShowInt(n: int): (s: string)
    ensures |s| > 0 && !IsSpace(s[0])
  {
    if n < 0 then "-" + ShowNat(-n) else ShowNat(n)
  }

  lemma {:induction false} ShowNatValue(n: nat)
    ensures DigitsValue(ShowNat(n)) == n
    decreases n
  {
    var s := ShowNat(n);
    var p := if n < 10 then "" else ShowNat(n / 10);
    var c := DigitChar(n % 10);
    assert s[..|s| - 1] == p by {
      assert s == p + [c];
    }
    assert DigitsValue(s) == DigitsValue(p) * 10 + n % 10;
    if n >= 10 {
      ShowNatValue(n / 10);
    }
  }

  /** `parseInt(String(n), 10) == n`: a number the client sends in a query
      string reaches the server unchanged. */
  lemma ParseShowRoundTrip(n: int)
    ensures ParseInt(ShowInt(n)) == Num(n)
  {
    if n < 0 {
      var m: nat := -n;
      assert ShowInt(n) == "-" + ShowNat(m);
      ParseShowNegative(m);
    } else {
      ParseShowNatural(n);
    }
  }

  lemma ParseShowNatural(n: nat)
    ensures ParseInt(ShowInt(n)) == Num(n)
  {
    var ds := ShowNat(n);
    assert ShowInt(n) == ds;
    ShowNatValue(n);
    ParseIntOfDigits(ds);
  }

  lemma ParseShowNegative(m: nat)
    ensures ParseInt("-" + ShowNat(m)) == Num(-(m as int))
  {
    var ds := ShowNat(m);
    var s := "-" + ds;
    assert TrimStart(s) == s;
    assert s[1..] == ds;
    assert LeadingDigits(ds) == |ds| by {
      LeadingDigitsOfDigits(ds);
    }
    assert ds[..|ds|] == ds;
    assert DigitsValue(ds) == m by {
      ShowNatValue(m);
    }
  }

  /** `Math.max(a, b)`: `NaN` if either side is `NaN`. */
  function JsMax(a: JsNum, b: JsNum): (r: JsNum)
    ensures r.NaN? <==> a.NaN? || b.NaN?
    ensures r.Num? ==> r.n >= a.n && r.n >= b.n && (r.n == a.n || r.n == b.n)
  {
    if a.NaN? || b.NaN? then NaN else Num(if a.n >= b.n then a.n else b.n)
  }

  /** `Math.min(a, b)`: `NaN` if either side is `NaN`. */
  function JsMin(a: JsNum, b: JsNum): (r: JsNum)
    ensures r.NaN? <==> a.NaN? || b.NaN?
    ensures r.Num? ==> r.n <= a.n && r.n <= b.n && (r.n == a.n || r.n == b.n)
  {
    if a.NaN? || b.NaN? then NaN else Num(if a.n <= b.n then a.n else b.n)
  }

  /** `a || d` on a number: `NaN` and `0` are falsy and give way to `d`. */
  function JsOr(a: JsNum, d: int): (r: int)
    ensures a.Num? && a.n != 0 ==> r == a.n
    ensures a.NaN? || a.n == 0 ==> r == d
  {
    if a.NaN? || a.n == 0 then d else a.n
  }

  /** `s || d` on an optional string: `undefined` and `""` give way to `d`. */
  function OrString(s: Option<string>, d: string): (r: string)
    ensures s.Some? && s.value != "" ==> r == s.value
    ensures s.None? || s.value == "" ==> r == d
  {
    if s.None? || s.value == "" then d else s.value
  }
}
